=== FILE: README.md ===
# A Dafny model of the evolve extension's obsolescence logic

This project models the core of the Mercurial "evolve" extension
(`hgexts/mutable-history/hgext/evolve.py`) and proves properties of the model.
Evolve records that one changeset has been rewritten into others with
*obsolescence markers* `(precursor, successors, flags, metadata)`. It then
offers commands that rewrite history and keep those markers consistent.

The model covers four parts:

- **Marker store hygiene** (`markers.dfy`, module `Markers`). Markers are read
  back with the null identifier removed from legacy successor lists, and the
  repaired markers are counted. Two indexes are kept: markers by precursor and
  markers by successor.
- **Obsolescence graph** (`obsgraph.dfy`, module `ObsGraph`).
  - Direct precursors and successors.
  - Transitive precursors and successors, computed with worklists. The
    transitive successors skip markers that carry halt flags and never
    follow the null identifier.
  - Every query is filtered through the changelog node map.
  - The closures are specified as least sets closed under one marker step.
- **Rewrite bookkeeping** (`rewrite.dfy`, `solve.dfy`, `prune.dfy`,
  `uncommit.dfy`, `touch.dfy`, `fold.dfy`).
  - `rewrite`'s file filter and option resolution, `relocate`'s marker and
    bookmark outcome, and `_bookmarksupdater`.
  - The decision parts of the three repairs: unstable destination, bumped
    diff and marker, divergent preconditions.
  - The commands `prune`, `uncommit` (with the dirstate fix-up), `touch` and
    `fold`.
- **Evolve selection policy** (`policy.dfy`, `navigate.dfy`).
  - The `obsolete` template keyword.
  - `_picknexttroubled` and `_stabilizableunstable`.
  - The exit codes of `evolve` when nothing is picked.
  - `previous` and `next`.

Mercurial itself is abstract. The module `Types` defines a `Repo` value whose
fields are the repository queries evolve delegates to Mercurial, as total
functions on revisions: parents, children, phase, the `obsolete`, `extinct`,
`unstable`, `bumped` and `divergent` predicates, and `successorssets`.
`WellFormed` states the facts about every changelog the proofs rely on:
- real parents have lower revision numbers;
- the null revision is its own parent, public and never obsolete;
- the null revision's only successors set is itself.

The following foreign steps become inputs of the functions that need them:
- the result of a rebase, of `commitctx` and of `hg.update`;
- path copies and file status;
- the changeset identifiers of revisions (`nodeOf`, assumed injective where
  that matters).

Nothing is executed. Every contract is checked by the Dafny verifier.

## Model

| member | source | states |
|---|---|---|
| Markers.RemoveNull | hgexts/mutable-history/hgext/evolve.py:317 | The null identifier is gone. Every other successor keeps its multiplicity. The list shrinks exactly when it contained null. |
| Markers.RemoveNullAppend | hgexts/mutable-history/hgext/evolve.py:317 | Dropping nulls commutes with concatenation, so surviving successors keep their relative order. |
| Markers.RemoveNullIdentity | hgexts/mutable-history/hgext/evolve.py:315-319 | A successor list without null is left exactly as it was. |
| Markers.RepairMarker | hgexts/mutable-history/hgext/evolve.py:315-320 | The precursor, flags and metadata of a repaired marker are unchanged. Its successors are the null-free list. A marker without null is returned as is. |
| Markers.SafeReadMarkers | hgexts/mutable-history/hgext/evolve.py:308-324 | There is one output per input marker. No output has null among its successors. Inputs without null pass unchanged. The count equals the number of inputs whose successors contained null. |
| Markers.MarkersFrom | hgexts/mutable-history/hgext/evolve.py:411-413 | The successors index returns exactly the markers whose precursor is the node. |
| Markers.MarkersInto | hgexts/mutable-history/hgext/evolve.py:379-381 | The precursors index returns exactly the markers that list the node as a successor. |
| ObsGraph.Known | hgexts/mutable-history/hgext/evolve.py:399-404 | Every node the changelog knows yields its revision, and nothing else is returned. |
| ObsGraph.Precursors | hgexts/mutable-history/hgext/evolve.py:375-385 | The result is exactly the known precursors of the markers that list a start node as a successor. |
| ObsGraph.Successors | hgexts/mutable-history/hgext/evolve.py:407-418 | The result is exactly the known successors named by the markers of the start nodes. |
| ObsGraph.DirectSuccessorMember | hgexts/mutable-history/hgext/evolve.py:430-438 | A non-null successor of a marker without halt flags is a direct successor of its precursor. |
| ObsGraph.PushPrecursors | hgexts/mutable-history/hgext/evolve.py:393-398 | One worklist step adds exactly the direct precursors of the popped node to `seen`. Only new nodes are queued, and nothing queued is lost. |
| ObsGraph.PrecStep | hgexts/mutable-history/hgext/evolve.py:392-398 | One loop turn keeps the invariant: everything seen is reachable, and what is seen and no longer queued has all its precursors seen. Each turn makes progress. |
| ObsGraph.PrecursorClosure | hgexts/mutable-history/hgext/evolve.py:387-398 | The loop ends with the least set closed under the precursor step from the start nodes. Unknown identifiers are traversed too. |
| ObsGraph.PushSuccessors | hgexts/mutable-history/hgext/evolve.py:428-438 | One worklist step adds exactly the non-null successors of the popped node's unhalted markers. |
| ObsGraph.SuccStep | hgexts/mutable-history/hgext/evolve.py:428-438 | One loop turn keeps the invariant of the successor walk and makes progress. |
| ObsGraph.SuccessorClosure | hgexts/mutable-history/hgext/evolve.py:420-438 | The loop ends with the least set closed under the unhalted successor step. It never contains null. |
| ObsGraph.AllPrecursors | hgexts/mutable-history/hgext/evolve.py:387-405 | The result is the known part of the least closure. It contains `_precursors` of the same input. A known precursor reached through an unknown intermediate is reported. |
| ObsGraph.AllSuccessors | hgexts/mutable-history/hgext/evolve.py:420-445 | The result is the known part of the least closure. Every known non-null successor of an unhalted start marker is included. Only known non-null nodes are returned. |
| ObsGraph.SuccLeastUnique | hgexts/mutable-history/hgext/evolve.py:426-438 | The closure does not depend on the order in which the worklist is drained. |
| ObsGraph.Unhalted | hgexts/mutable-history/hgext/evolve.py:432-433 | The result keeps exactly the markers that carry no halt flag. |
| ObsGraph.HaltedMarkersIgnored | hgexts/mutable-history/hgext/evolve.py:432-433 | A marker carrying a halt flag is never followed: the closure equals the closure over the unhalted markers with no halt flags. |
| ObsGraph.SuccLeastMonotone | hgexts/mutable-history/hgext/evolve.py:420-445 | More start nodes give a larger (or equal) closure. |
| Policy.ObsoleteKeyword | hgexts/mutable-history/hgext/evolve.py:516-523 | Each of the four keywords is returned exactly when its combination of obsolete, extinct and unstable holds. |
| Policy.RevsWhere | hgexts/mutable-history/hgext/evolve.py:972-976 | A revset over the changelog is ascending and holds exactly the revisions that satisfy the predicate. |
| Policy.Descendants | hgexts/mutable-history/hgext/evolve.py:988 | The result is ascending and holds exactly the proper descendants of the changeset. |
| Policy.Expand | hgexts/mutable-history/hgext/evolve.py:984-991 | Each changeset is followed by its transitive precursors. Membership is exactly those. |
| Policy.CandidatesAreAnchors | hgexts/mutable-history/hgext/evolve.py:984-991 | The scanned changesets are exactly the changeset, its descendants, and the precursors of either. |
| Policy.ExpandedDescendants | hgexts/mutable-history/hgext/evolve.py:984-991 | A changeset is in the expanded descendants exactly when it is a descendant or a precursor of one. |
| Policy.FirstUnstable | hgexts/mutable-history/hgext/evolve.py:995-999 | The result is the first unstable child, or none when no child is unstable. |
| Policy.FirstUnstableChild | hgexts/mutable-history/hgext/evolve.py:996-998 | The result is an unstable child of some candidate. It is none exactly when no candidate has one. |
| Policy.StabilizableUnstable | hgexts/mutable-history/hgext/evolve.py:979-999 | Whatever is returned is unstable. |
| Policy.StabilizableUnstableSound | hgexts/mutable-history/hgext/evolve.py:979-999 | Nothing is returned exactly when no unstable child of the working directory parent, its descendants or their precursors exists. A returned changeset is such a child. |
| Policy.FallbackPick | hgexts/mutable-history/hgext/evolve.py:969-976 | The fallback picks the lowest unstable changeset, else the lowest bumped, else the lowest divergent. It picks none exactly when nothing is troubled. |
| Policy.Lowest | hgexts/mutable-history/hgext/evolve.py:969-976 | The first revision of the revset: none exactly when no revision qualifies, otherwise one that qualifies with none lower. |
| Policy.PickNextTroubled | hgexts/mutable-history/hgext/evolve.py:960-977 | A stabilizable unstable changeset comes first, then a divergent working directory parent, then the fallback (only with --any). The result is always troubled. |
| Policy.Dispatch | hgexts/mutable-history/hgext/evolve.py:940-948 | Unstable takes priority over bumped, and bumped over divergent. |
| Policy.Flatten | hgexts/mutable-history/hgext/evolve.py:876-878 | The result holds exactly the members of the successors sets. |
| Policy.AllSuccessorRevs | hgexts/mutable-history/hgext/evolve.py:874-878 | The successors of `.` are ascending and are exactly the union of its successors sets. |
| Policy.Evolve | hgexts/mutable-history/hgext/evolve.py:857-948 | It checks the --continue conflicts. A picked changeset goes to the right repair, unless uncommitted changes abort it (`bailifchanged`, 939). With nothing picked, the outcome is the one of `NothingPicked`, and every outcome is stated both ways. |
| Policy.NothingPicked | hgexts/mutable-history/hgext/evolve.py:871-914 | An obsolete `.` with one successor updates to it, or exits 0 on a dry run. Exit 2 holds exactly when `.` is obsolete without a sole successor, or when it is not obsolete and something is troubled. Exit 1 holds exactly when neither holds. |
| Policy.ObsoleteParentStep | hgexts/mutable-history/hgext/evolve.py:872-904 | Exit 2 exactly for no or several successors. Exit 0 exactly for a dry run with one. Otherwise it updates to that successor. |
| Policy.TroubledExit | hgexts/mutable-history/hgext/evolve.py:906-914 | Exit 1 exactly when no changeset is troubled, exit 2 exactly when one is. |
| Rewrite.RewriteFiles | hgexts/mutable-history/hgext/evolve.py:664-683 | The recorded files are exactly the old changeset's files and the updates' files that head changes with respect to base. |
| Rewrite.Union | hgexts/mutable-history/hgext/evolve.py:666-667 | The result is exactly the files of some update. |
| Rewrite.SelfRewriteKeepsFiles | hgexts/mutable-history/hgext/evolve.py:664-683 | Rewriting a changeset onto itself with no updates keeps exactly its files. |
| Rewrite.PlanRewrite | hgexts/mutable-history/hgext/evolve.py:655-718 | A merge is refused, and so are --message together with --logfile. Otherwise it gives the file filter, message precedence (logfile, message, old description), user and date defaults, and head's branch in extra. |
| Rewrite.FinishRewrite | hgexts/mutable-history/hgext/evolve.py:725-733 | "created" holds exactly when the repository grew. The active bookmark and every bookmark on the old node end on the new node. Other bookmarks keep their place, and no other name appears. |
| Rewrite.UpdateBookmarks | hgexts/mutable-history/hgext/evolve.py:796-813 | The active bookmark and every bookmark on the old node move to the new node. Other bookmarks are unchanged. The store is written exactly when there is an active bookmark or a bookmark on the old node, even if nothing changes place. |
| Rewrite.UpdateBookmarksIdempotent | hgexts/mutable-history/hgext/evolve.py:796-813 | Applying the updater twice is the same as applying it once. |
| Rewrite.Relocate | hgexts/mutable-history/hgext/evolve.py:738-794 | It refuses a node onto itself, a merge and a rebase conflict. The marker goes to the new node, or is a prune when the rebase produced none. Bookmarks move with it, and destination bookmarks are restored. |
| Rewrite.SetAll | hgexts/mutable-history/hgext/evolve.py:780-784 | The named bookmarks point to the node, and the others are unchanged. |
| Solve.ObsoleteParent | hgexts/mutable-history/hgext/evolve.py:1003-1008 | The result is p1 when it is obsolete, else p2. The crash case, where neither is obsolete, is an error. |
| Solve.Climb | hgexts/mutable-history/hgext/evolve.py:1010-1015 | It returns the nearest first-parent ancestor whose successors sets are not dead. Every ancestor strictly between is dead. |
| Solve.UnstableDestination | hgexts/mutable-history/hgext/evolve.py:1001-1023 | Several successors sets abort, and so does a split set. Otherwise the single node of the single set is the destination. |
| Solve.LastPublic | hgexts/mutable-history/hgext/evolve.py:1056 | The result is the index of the last public revision, none when there is none. |
| Solve.BumpedPrecursor | hgexts/mutable-history/hgext/evolve.py:1053-1061 | A bumped merge is refused. The revset is ascending, so the result is the highest public precursor. No public precursor is an error. The precursor-merge abort happens exactly when the highest public precursor is a merge. |
| Solve.LastPublicIsHighest | hgexts/mutable-history/hgext/evolve.py:1056 | In an ascending revset, the last public revision is the highest public one. |
| Solve.BumpedDiffAsWritten | hgexts/mutable-history/hgext/evolve.py:1102-1109 | It models the diff as written: paths whose file node differs, plus paths on one side only. |
| Solve.FlagOnlyChangeMissed | hgexts/mutable-history/hgext/evolve.py:1102-1109 | A change of the executable flag alone gives an empty diff as written, though the manifests differ. |
| Solve.BumpedDiff | hgexts/mutable-history/hgext/evolve.py:1102-1109 | The corrected diff is exactly the paths whose entry (file node or flags) differs, or that are present on one side only. |
| Solve.BumpedDiffEmptyIff | hgexts/mutable-history/hgext/evolve.py:1102-1109 | The corrected diff is empty exactly when both manifests hold the same entries. |
| Solve.SolveBumped | hgexts/mutable-history/hgext/evolve.py:1050-1151 | Once the precursor is found, a dry run succeeds. Otherwise the fix fails exactly when a relocation is needed and either the changeset is the precursor's parent ("on itself") or the rebase conflicts (merge failure). It relocates iff the changesets share no parent. An empty diff records a prune in favour of the precursor. Otherwise it commits on the precursor and records a marker with the bumped-fix flag. Bookmarks follow. |
| Solve.FixBumped | hgexts/mutable-history/hgext/evolve.py:1110-1151 | An empty diff prunes the bumped (or relocated) node in favour of the precursor. Otherwise the commit replaces it with the bumped-fix flag and is retracted to its phase. The active bookmark follows, and without relocation so do the bumped changeset's bookmarks. |
| Solve.Rivals | hgexts/mutable-history/hgext/evolve.py:1266-1267 | The result is exactly the non-empty successors sets without the changeset. Its first element is the first such set in successorssets order. |
| Solve.DivergentData | hgexts/mutable-history/hgext/evolve.py:1257-1271 | Over the direct precursors (the `precursors` revset, 469-476), it aborts exactly when none has a rival set. Otherwise the base is the highest precursor with one, and the other side is its first rival set. |
| Solve.DivergentBase | hgexts/mutable-history/hgext/evolve.py:1264-1269 | The scan from revision i down finds none exactly when no precursor up to i has a rival set. Otherwise it finds one that has, with no higher precursor up to i having one. |
| Solve.SolveDivergent | hgexts/mutable-history/hgext/evolve.py:1153-1255 | Each refusal holds exactly under its condition: a split rival, a public divergent changeset, a merge rival, a rival on another parent, merge conflicts. Passing every check succeeds, and the rival is then marked replaced by the amended result. |
| Prune.FirstImmutable | hgexts/mutable-history/hgext/evolve.py:1429-1435 | The result is the first immutable precursor in ascending order, none when all are mutable. |
| Prune.FirstImmutableIsLowest | hgexts/mutable-history/hgext/evolve.py:1429-1435 | In an ascending list, the reported revision is public and every lower one is mutable. |
| Prune.FirstImmutableOfRevs | hgexts/mutable-history/hgext/evolve.py:1425-1435 | Over the requested revisions, none is reported exactly when all are mutable. Otherwise the lowest public revision requested is reported. |
| Prune.LiveParent | hgexts/mutable-history/hgext/evolve.py:1459-1462 | The climb from `.` ends at the nearest first-parent ancestor that is not obsolete after the prune. |
| Prune.Highest | hgexts/mutable-history/hgext/evolve.py:1470 | `max(...)` of a revset below a bound: the highest member, or none. |
| Prune.HighestLiveAncestor | hgexts/mutable-history/hgext/evolve.py:1469-1471 | The result is the highest ancestor of the changeset that is not obsolete after the prune. |
| Prune.MoveTarget | hgexts/mutable-history/hgext/evolve.py:1469-1474 | A bookmark on a pruned changeset moves only when that changeset has a live ancestor. |
| Prune.NoTarget | hgexts/mutable-history/hgext/evolve.py:1469-1474 | A bookmark on a pruned changeset without a live ancestor has no move target. |
| Prune.TargetNotPruned | hgexts/mutable-history/hgext/evolve.py:1469-1474 | A bookmark is never moved onto a pruned changeset. |
| Prune.MoveOne | hgexts/mutable-history/hgext/evolve.py:1469-1474 | With a target, bookmarks on the pruned node move to it. Without one, nothing moves. Other bookmarks keep their place and none is lost. |
| Prune.MoveAll | hgexts/mutable-history/hgext/evolve.py:1469-1474 | Bookmarks on pruned changesets move to their live ancestor. Other bookmarks are unchanged. No bookmark is lost. |
| Prune.PruneUpdate | hgexts/mutable-history/hgext/evolve.py:1458-1465 | The working directory moves exactly when `.` is obsolete after the prune, and then to its live first-parent ancestor. |
| Prune.PruneBookmarks | hgexts/mutable-history/hgext/evolve.py:1469-1474 | Bookmarks on pruned changesets end on their highest live ancestor (when one exists). The others stay put. |
| Prune.PruneCheck | hgexts/mutable-history/hgext/evolve.py:1419-1447 | Each abort holds exactly under its condition: nothing to prune, an immutable precursor, several successors for several precursors, a biject size mismatch. All checks come before any marker. |
| Prune.Prune | hgexts/mutable-history/hgext/evolve.py:1388-1474 | It fails exactly when the checks fail. Without --biject, every sorted precursor maps to the whole sorted successor list, without repeats. With --biject, precursor i maps to successor i. |
| Prune.Firsts | hgexts/mutable-history/hgext/evolve.py:1449-1451 | The result is the precursors of the relations, in order. |
| Prune.Relations | hgexts/mutable-history/hgext/evolve.py:1449-1451 | Relation i has precursor i and either the whole successor list or successor i. |
| Prune.CheckedRelations | hgexts/mutable-history/hgext/evolve.py:1436-1451 | Once the checks pass, the relations list the sorted precursors. Without --biject each one gets the sorted successor list, and several successors only when the precursor is alone. With --biject the counts match and precursor i gets successor i. |
| Prune.CheckedCounts | hgexts/mutable-history/hgext/evolve.py:1436-1447 | Passing the checks means there is a precursor. With --biject the counts are equal. Without it there is at most one successor or exactly one precursor. |
| Prune.RelationsShape | hgexts/mutable-history/hgext/evolve.py:1449-1451 | From well-counted lists, the relations pair each precursor with the whole sorted successor list, or with --biject with its own successor. |
| Uncommit.KeptCopiesAsWritten | hgexts/mutable-history/hgext/evolve.py:1524-1527 | It models the copy filter as written: a copy is kept when its source is recommitted. |
| Uncommit.CopyOfKeptFileDropped | hgexts/mutable-history/hgext/evolve.py:1524-1527 | A copy a→b with only b recommitted loses its copy source. |
| Uncommit.KeptCopies | hgexts/mutable-history/hgext/evolve.py:1524-1527 | The corrected filter keeps exactly the copies whose destination is recommitted. |
| Uncommit.CommitFiltered | hgexts/mutable-history/hgext/evolve.py:1513-1549 | It gives nothing to uncommit exactly when the matcher selects none of the changed files. Otherwise the recommitted files are exactly the unmatched ones, with their copies. |
| Uncommit.Uncommit | hgexts/mutable-history/hgext/evolve.py:1599-1646 | Each abort holds exactly under its condition: null, merging, immutable, merge changeset, nothing to uncommit. No other error occurs, so when none applies it succeeds. On success the marker old→new, the phase retraction and the bookmark update follow. |
| Uncommit.FixModified | hgexts/mutable-history/hgext/evolve.py:1560-1564 | A modified file becomes normal unless it was removed. |
| Uncommit.FixAdded | hgexts/mutable-history/hgext/evolve.py:1566-1571 | An added file that was removed is dropped. Otherwise it is added. |
| Uncommit.FixRemoved | hgexts/mutable-history/hgext/evolve.py:1573-1578 | A removed file that was added becomes normal. Otherwise it is removed. |
| Uncommit.FixEntries | hgexts/mutable-history/hgext/evolve.py:1560-1578 | Each file's final state follows its status. Files outside the status are untouched. |
| Uncommit.OldCopies | hgexts/mutable-history/hgext/evolve.py:1580-1586 | Working-directory copies override the renames recorded in the old changeset. |
| Uncommit.Collapse | hgexts/mutable-history/hgext/evolve.py:1587-1588 | A copy chain collapses one step. |
| Uncommit.AdjustCopies | hgexts/mutable-history/hgext/evolve.py:1589-1593 | Only copies from a file of the new parent to an added file that is new to the parent survive. |
| Uncommit.UncommitDirstate | hgexts/mutable-history/hgext/evolve.py:1551-1593 | The entries follow the status of the matched files. Every surviving copy is valid for the new parent. |
| Uncommit.CopyChainCollapses | hgexts/mutable-history/hgext/evolve.py:1580-1593 | Given a→b committed and b→c in the working directory, uncommitting b records c as a copy of a. |
| Touch.ParentTouchedEarlier | hgexts/mutable-history/hgext/evolve.py:1706-1717 | In ascending order, a touched parent is touched before its child. |
| Touch.TouchedBeforeIff | hgexts/mutable-history/hgext/evolve.py:1707-1722 | Being touched before position i means being one of the first i revisions. |
| Touch.TouchedParentsRemapped | hgexts/mutable-history/hgext/evolve.py:1706-1717 | Because revisions are sorted, each changeset is recreated on the new version of every parent that is touched at all. |
| Touch.LoopMapping | hgexts/mutable-history/hgext/evolve.py:1709-1722 | `newmapping` maps exactly the nodes touched so far, each to its new version. |
| Touch.LoopParents | hgexts/mutable-history/hgext/evolve.py:1713-1725 | Each new changeset's parents are its old parents remapped through earlier touches. |
| Touch.LoopRelations | hgexts/mutable-history/hgext/evolve.py:1723-1724 | Without --duplicate, each old changeset gets one marker to its new version. With it, none. |
| Touch.LoopWorkingDirMoves | hgexts/mutable-history/hgext/evolve.py:1726-1727 | The working directory moves iff one of its parents is among the changesets touched so far. |
| Touch.LoopWorkingDirFirst | hgexts/mutable-history/hgext/evolve.py:1726-1727 | When it moves, it moves to the new version of the first of its parents touched. The parents are re-read on every turn, and after the first move they are the new changeset alone. |
| Touch.LoopRetracts | hgexts/mutable-history/hgext/evolve.py:1725 | Each new changeset is retracted to the phase of the changeset it replaces, in touch order. |
| Touch.LoopMarkNames | hgexts/mutable-history/hgext/evolve.py:1709-1720 | Each turn's `rewrite` moves the active bookmark. After i turns the names are the old ones plus the active one, and the active bookmark is on the new version of the latest touched changeset. |
| Touch.LoopMarkMoves | hgexts/mutable-history/hgext/evolve.py:1709-1720 | If new versions are fresh nodes, then after i turns each other bookmark sits on the new version of its changeset when that changeset was touched so far. Otherwise it stays where it was. |
| Touch.MarksOfRevs | hgexts/mutable-history/hgext/evolve.py:1706-1727 | After the loop, the only new name is the active bookmark, which sits on the new version of the highest touched revision. If new versions are fresh, the other bookmarks of touched changesets sit on those changesets' new versions and the rest are unchanged. |
| Touch.LoopStep | hgexts/mutable-history/hgext/evolve.py:1709-1727 | One turn of the loop body takes the state after i changesets to the state after i + 1. |
| Touch.WorkingDirOfRevs | hgexts/mutable-history/hgext/evolve.py:1726-1727 | Over all revisions, the working directory moves iff one of its parents was requested. It then moves to the new version of the lowest such parent. |
| Touch.LoopOutcome | hgexts/mutable-history/hgext/evolve.py:1706-1727 | After the whole loop, the parents, phases, markers, working directory move and bookmarks satisfy the four specifications used by `TouchRevs`. |
| Touch.TouchAll | hgexts/mutable-history/hgext/evolve.py:1706-1727 | The loop over the sorted revisions recreates each changeset on its remapped parents in its phase, records one marker per changeset unless --duplicate, moves the working directory to the lowest touched parent, and moves the bookmarks as `Touch.MarksOfRevs` states. |
| Touch.TouchRevs | hgexts/mutable-history/hgext/evolve.py:1685-1732 | No revision gives exit 1. Public revisions abort without --duplicate. Any merge among the revisions aborts, because `rewrite` cannot amend merges. Those are the only errors: the changesets are touched exactly when the set is non-empty and neither abort applies. Then the changesets are recreated in ascending order, on remapped parents, in their old phase. Each gets one marker unless --duplicate. The working directory follows its lowest touched parent. The active bookmark ends on the new version of the highest touched revision. Every other bookmark of a touched changeset follows that changeset's new version. |
| Fold.FoldRange | hgexts/mutable-history/hgext/evolve.py:1752-1753 | The result is ascending and holds exactly the revisions between a target and `.`, in either direction. |
| Fold.Roots | hgexts/mutable-history/hgext/evolve.py:1761 | The result is exactly the members with no parent in the set. |
| Fold.Heads | hgexts/mutable-history/hgext/evolve.py:1767 | The result is exactly the members that are the parent of no member. |
| Fold.LowestIsRoot | hgexts/mutable-history/hgext/evolve.py:1761-1764 | The lowest revision is always a root, so `roots[0]` exists. Another root means several roots. |
| Fold.HighestIsHead | hgexts/mutable-history/hgext/evolve.py:1767-1769 | The highest revision is always a head. Another head means several heads. |
| Fold.MaxPhase | hgexts/mutable-history/hgext/evolve.py:1778-1779 | The result is the phase of some folded changeset and at least as high as every one of them. |
| Fold.FoldResult | hgexts/mutable-history/hgext/evolve.py:1778-1796 | The new changeset sits on the root's parents in the highest phase. Every folded changeset gets a marker to it. The update happens iff `.` was folded. Only the root's bookmarks and the active bookmark move to the new changeset. The head's bookmarks and those of the other folded changesets stay where they were. |
| Fold.FoldChecked | hgexts/mutable-history/hgext/evolve.py:1758-1796 | Each abort holds exactly under its condition: empty (exit 1), several roots, public root, several heads, a merge root (refused by `rewrite`). The root is the lowest and the head the highest revision. |
| Fold.FoldRevs | hgexts/mutable-history/hgext/evolve.py:1748-1796 | Targets together with --rev abort. Otherwise the checks run on the range from the targets to `.`, or on the --rev revisions. |
| Fold.FoldSetValid | hgexts/mutable-history/hgext/evolve.py:1748-1756 | The set to fold holds revisions only. With targets, every member lies between a target and `.`. |
| Fold.FoldedInRange | hgexts/mutable-history/hgext/evolve.py:1752-1753 | A folded revision always lies between a target and `.`. |
| Navigate.MoveTo | hgexts/mutable-history/hgext/evolve.py:1291-1296 | The active bookmark follows the update exactly when it was current and the update succeeded. Other bookmarks are unchanged. |
| Navigate.Previous | hgexts/mutable-history/hgext/evolve.py:1280-1303 | A merge in progress aborts. A single parent (null included) is the target with exit 0. Two parents are shown with exit 1. |
| Navigate.LiveChildren | hgexts/mutable-history/hgext/evolve.py:1315 | The result is exactly the non-obsolete children. |
| Navigate.Next | hgexts/mutable-history/hgext/evolve.py:1308-1334 | A merge in progress aborts. One live child is the target with exit 0. None or several give exit 1. |
| Navigate.NextUndoesPrevious | hgexts/mutable-history/hgext/evolve.py:1280-1334 | `next` after `previous` returns to the same changeset when it is its parent's only live child. A current bookmark comes back with it. |
| Types.NodeBookmarks | hgexts/mutable-history/hgext/evolve.py:806 | The result is exactly the bookmarks on the node. |
| Types.SortedRevs | hgexts/mutable-history/hgext/evolve.py:1425 | `sorted(set(...))`: the result is ascending, without repeats, with the same members. |

## Left out

- Extension registration and monkey-patching: `exthelper`, command and revset wrappers, template registration, the push hint. This is plugin glue with no logic of its own.
- Locks, transactions, dirstate persistence, the `graftstate` file, and reading the log file named by --logfile. These are I/O. `rewrite` only records that the message comes from a log file.
- Foreign Mercurial calls become inputs: `rebasenode`/`concludenode`, `merge.update`, `commitctx`, `pathcopies`, `hg.update`, `successorssets`, `createmarkers`. Markers to create are returned as relations, and phase retractions as values.
- UI output: warnings, progress callbacks, `displayer.show` and the dry-run text. Only the changesets `previous`/`next` would display are kept.
- The `--all` loop of `evolve`, which just repeats the single step modelled by `Policy.Evolve`; the `--continue` path is the graft command, modelled only as the decision to run it.
- `amend`, `commitwrapper`, `graftwrapper` and the summary hook. These are thin wrappers over Mercurial commands.
- The `--bookmark` option of `prune` (`_reachablefrombookmark`, `_deletebookmark`), and the date and user metadata of `_getmetadata` (date parsing).
- The random `__touch-noise__` extra of `touch`, and the commit message `fold` assembles from the folded descriptions.
- Repository filtering (hidden changesets). Revsets range over every revision.
- Policy.StabilizableUnstable: its own contract says only that the result is unstable. The full characterisation is in `Policy.StabilizableUnstableSound`. The precursors of each changeset are a parameter (`allprecs`), computed by `ObsGraph.AllPrecursors`.
- Touch.TouchRevs: bookmarks other than the active one are placed only under `Touch.FreshVersions`, which says no new version is the node of a touched revision. The random noise `touch` puts in extra makes this hold in practice; a commit that returns an existing node is not modelled.
- Touch.TouchRevs: its contract describes parents relative to the changesets touched earlier. The statement that this covers every touched parent is `Touch.TouchedParentsRemapped`, which needs the changelog ordering and distinct nodes.
- Fold.FoldRange: ranges through the null revision (`.` being null) are not modelled, because revisions range over `0 .. size-1`.
- `_solveunstable` never raises its "no living ancestor" error: the climb reaches the null revision, whose only successors set is itself, so the destination becomes null. The model follows the code. Where the code crashes, it uses explicit errors: an `IndexError` when neither parent is obsolete, `StopIteration` when a bumped changeset has no public precursor.
- `prune`'s bookmark move (`_bookmarksupdater`) also moves the active bookmark to each destination, as the code does.
- Solve.SolveBumped: it uses the corrected diff `Solve.BumpedDiff`. Where only a file's flags changed, it commits the change, while the code as written (1102-1109) finds nothing to commit and prunes. See Findings.
- Solve.FixBumped: same as `Solve.SolveBumped`, as it is the part that applies the corrected diff.
- Uncommit.CommitFiltered: it keeps copies with the corrected filter `Uncommit.KeptCopies`. A copy whose source is not recommitted is kept, while the code as written (1524-1527) drops it. See Findings.
- Uncommit.Uncommit: it inherits the corrected copy filter of `Uncommit.CommitFiltered`.
- When `touch` aborts on a merge, the turns before it are taken back with the transaction. Effects outside the transaction, such as the dirstate, are not modelled.

## Findings

| source | as written | input that shows it | evidently intended | confidence | as-written member | corrected member |
|---|---|---|---|---|---|---|
| hgexts/mutable-history/hgext/evolve.py:1102-1109 | The bumped diff compares manifest values (file nodes) only, so a file whose flags changed is not in `files` | precursor and bumped changeset hold `f` with the same file node, and only the bumped one has the executable flag: the diff is empty, nothing is committed and the flag change is lost | a path is in the diff when its node or its flags differ | medium, not executed | Solve.FlagOnlyChangeMissed | Solve.BumpedDiffEmptyIff |
| hgexts/mutable-history/hgext/evolve.py:1524-1527 | `pathcopies` maps destination to source, but the filter names them `src, dst` and tests the source for membership in the recommitted files | a changeset copies `a` to `b` (a unchanged) and modifies `c`; `hg uncommit c` recommits `b` without its copy information | keep a copy when its destination is recommitted | medium, not executed | Uncommit.CopyOfKeptFileDropped | Uncommit.KeptCopies |

=== FILE: fold.dfy ===
/** `hg fold`: replace a connected set of changesets by a single successor
    that carries their combined changes. */
module Fold {
  import opened Types
  import Policy
  import Rewrite

  /** `x` lies in the revset range `a::b`: a descendant of `a` (or `a`
      itself) that is an ancestor of `b` (or `b` itself). */
  predicate Between(repo: Repo, a: Rev, x: Rev, b: Rev) {
    Policy.Descends(repo, a, x) && Policy.Descends(repo, x, b)
  }

  /** The revset `(targets::.) or (.::targets)` with `.` the working
      directory parent `wdp`, in ascending order. */
  function FoldRange(repo: Repo, targets: seq<Rev>, wdp: Rev): (r: seq<Rev>)
    ensures StrictlyIncreasing(r)
    ensures forall x :: x in r <==>
              0 <= x < repo.size && exists t :: t in targets && (Between(repo, t, x, wdp) || Between(repo, wdp, x, t))
  {
    Policy.RevsWhere(repo.size, x => exists t :: t in targets && (Between(repo, t, x, wdp) || Between(repo, wdp, x, t)))
  }

  /** Revision numbers of the changelog, the null revision included. */
  predicate ValidRevs(revs: seq<Rev>) {
    forall x :: x in revs ==> NullRev <= x
  }

  /** `x` is in the revset `roots(revs)`: none of its parents is in `revs`. */
  predicate IsRoot(repo: Repo, revs: seq<Rev>, x: Rev) {
    forall p :: p in repo.ParentSet(x) ==> p !in revs
  }

  /** `x` is in the revset `heads(revs)`: it is a parent of no member of `revs`. */
  predicate IsHead(repo: Repo, revs: seq<Rev>, x: Rev) {
    forall y :: y in revs ==> x !in repo.ParentSet(y)
  }

  function Roots(repo: Repo, revs: seq<Rev>): (r: seq<Rev>)
    ensures forall x :: x in r <==> x in revs && IsRoot(repo, revs, x)
  {
    Select(revs, x => IsRoot(repo, revs, x))
  }

  function Heads(repo: Repo, revs: seq<Rev>): (r: seq<Rev>)
    ensures forall x :: x in r <==> x in revs && IsHead(repo, revs, x)
  {
    Select(revs, x => IsHead(repo, revs, x))
  }

  function Min(xs: seq<Rev>): (m: Rev)
    requires xs != []
    ensures m in xs && forall y :: y in xs ==> m <= y
  {
    if |xs| == 1 then xs[0]
    else
      var m := Min(xs[1..]);
      assert forall y :: y in xs ==> y == xs[0] || y in xs[1..];
      if xs[0] <= m then xs[0] else m
  }

  function Max(xs: seq<Rev>): (m: Rev)
    requires xs != []
    ensures m in xs && forall y :: y in xs ==> y <= m
  {
    if |xs| == 1 then xs[0]
    else
      var m := Max(xs[1..]);
      assert forall y :: y in xs ==> y == xs[0] || y in xs[1..];
      if m <= xs[0] then xs[0] else m
  }

  lemma TwoMembers(s: seq<Rev>, a: Rev, b: Rev)
    requires a in s && b in s && a != b
    ensures |s| > 1
  {
    var i :| 0 <= i < |s| && s[i] == a;
    var j :| 0 <= j < |s| && s[j] == b;
    assert i != j;
  }

  /** A list of at most one element that holds `a` starts with it. */
  lemma OnlyMember(s: seq<Rev>, a: Rev)
    requires a in s && |s| <= 1
    ensures s[0] == a
  {
  }

  /** Parents come before their children, so the lowest revision of a set
      is always one of its roots: `roots(revs)` is never empty and a single
      root is the lowest revision. */
  lemma LowestIsRoot(repo: Repo, revs: seq<Rev>)
    requires WellFormed(repo) && revs != [] && ValidRevs(revs)
    ensures IsRoot(repo, revs, Min(revs))
    ensures forall x :: x in revs && IsRoot(repo, revs, x) && x != Min(revs) ==> |Roots(repo, revs)| > 1
  {
    var m := Min(revs);
    forall p | p in repo.ParentSet(m) ensures p !in revs {
      if m != NullRev {
        assert p < m;
      }
    }
    forall x | x in revs && IsRoot(repo, revs, x) && x != m ensures |Roots(repo, revs)| > 1 {
      TwoMembers(Roots(repo, revs), x, m);
    }
  }

  /** Dually, the highest revision of a set is always one of its heads. */
  lemma HighestIsHead(repo: Repo, revs: seq<Rev>)
    requires WellFormed(repo) && revs != [] && ValidRevs(revs)
    ensures IsHead(repo, revs, Max(revs))
    ensures forall x :: x in revs && IsHead(repo, revs, x) && x != Max(revs) ==> |Heads(repo, revs)| > 1
  {
    var m := Max(revs);
    forall y | y in revs ensures m !in repo.ParentSet(y) {
      if y != NullRev {
        assert forall p :: p in repo.ParentSet(y) ==> p < y;
      }
    }
    forall x | x in revs && IsHead(repo, revs, x) && x != m ensures |Heads(repo, revs)| > 1 {
      TwoMembers(Heads(repo, revs), x, m);
    }
  }

  /** `max(c.phase() for c in allctx)`: the least restrictive phase among the folded changesets. */
  function MaxPhase(repo: Repo, revs: seq<Rev>): (ph: Phase)
    requires revs != []
    ensures exists i :: 0 <= i < |revs| && repo.phase(revs[i]) == ph
    ensures forall x :: x in revs ==> repo.phase(x).Level() <= ph.Level()
  {
    if |revs| == 1 then repo.phase(revs[0])
    else
      var rest := MaxPhase(repo, revs[1..]);
      assert forall y :: y in revs ==> y == revs[0] || y in revs[1..];
      var i :| 0 <= i < |revs[1..]| && repo.phase(revs[1..][i]) == rest;
      assert revs[i + 1] == revs[1..][i];
      if rest.Level() < repo.phase(revs[0]).Level() then repo.phase(revs[0]) else rest
  }

  datatype Folded = Folded(
    root: Rev,                 // the single root: its parents become the new changeset's parents
    head: Rev,                 // the single head: its content is the folded content
    revs: seq<Rev>,            // the folded changesets
    newParents: (Node, Node),
    targetPhase: Phase,
    relations: seq<Relation>,  // each folded changeset -> the new changeset
    update: bool,              // the working directory moves to the new changeset
    marks: Bookmarks)          // bookmarks after `rewrite` of the root

  datatype FoldOutcome = NothingToFold | FoldDone(folded: Folded)

  /** The revisions `fold` works on: the range between the targets and the
      working directory parent, or the --rev set, or nothing. */
  function FoldSet(repo: Repo, targets: Option<seq<Rev>>, revOpt: Option<seq<Rev>>, wdp: Rev): seq<Rev> {
    if targets.Some? then FoldRange(repo, targets.value, wdp)
    else if revOpt.Some? then revOpt.value
    else []
  }

  /** The changeset `fold` creates from a checked set: on the root's
      parents, in the least restrictive phase of the set, as the successor of
      every folded changeset. `rewrite` is called on the root, so only the
      root's bookmarks and the active bookmark move to the new changeset;
      bookmarks on the other folded changesets, the head's included, stay
      where they were. */
  function FoldResult(repo: Repo, nodeOf: Rev -> Node, revs: seq<Rev>, root: Rev, head: Rev,
                      wdp: Rev, newid: Node, marks: Bookmarks, active: Option<string>): (f: Folded)
    requires revs != []
    ensures f.revs == revs && f.root == root && f.head == head
    ensures f.newParents == (nodeOf(repo.p1(root)), nodeOf(repo.p2(root)))
    ensures forall x :: x in revs ==> repo.phase(x).Level() <= f.targetPhase.Level()
    ensures exists i :: 0 <= i < |revs| && repo.phase(revs[i]) == f.targetPhase
    ensures |f.relations| == |revs|
    ensures forall i :: 0 <= i < |revs| ==> f.relations[i] == Relation(nodeOf(revs[i]), [newid], 0)
    ensures f.update <==> wdp in revs
    ensures forall b :: b in marks && marks[b] == nodeOf(root) ==> b in f.marks && f.marks[b] == newid
    ensures active.Some? ==> active.value in f.marks && f.marks[active.value] == newid
    ensures forall b :: b in marks && marks[b] != nodeOf(root) && active != Some(b) ==> b in f.marks && f.marks[b] == marks[b]
    ensures forall b :: b in f.marks ==> b in marks || active == Some(b)
  {
    Folded(root, head, revs,
           (nodeOf(repo.p1(root)), nodeOf(repo.p2(root))),
           MaxPhase(repo, revs),
           seq(|revs|, i requires 0 <= i < |revs| => Relation(nodeOf(revs[i]), [newid], 0)),
           wdp in revs,
           Rewrite.UpdateBookmarks(marks, active, nodeOf(root), newid).0)
  }

  /** The checks `fold` makes on the set it folds, and the changeset it
      creates. A merge root is refused by `rewrite`, which cannot amend
      merge changesets. */
  function FoldChecked(repo: Repo, nodeOf: Rev -> Node, revs: seq<Rev>, wdp: Rev, newid: Node,
                       marks: Bookmarks, active: Option<string>): (r: Result<FoldOutcome>)
    requires WellFormed(repo) && ValidRevs(revs)
    ensures r == Ok(NothingToFold) <==> revs == []
    ensures r.Err? ==> r.error == FoldMultipleRoots || r.error == FoldPublic || r.error == FoldMultipleHeads
                       || r.error == CannotAmendMerge
    ensures r == Err(FoldMultipleRoots) <==> revs != [] && |Roots(repo, revs)| > 1
    ensures r == Err(FoldPublic) <==>
              revs != [] && |Roots(repo, revs)| == 1 && repo.phase(Min(revs)) == Public
    ensures r == Err(FoldMultipleHeads) <==>
              revs != [] && |Roots(repo, revs)| == 1 && repo.phase(Min(revs)) != Public
              && |Heads(repo, revs)| > 1
    ensures r == Err(CannotAmendMerge) <==>
              revs != [] && |Roots(repo, revs)| == 1 && repo.phase(Min(revs)) != Public
              && |Heads(repo, revs)| <= 1 && repo.p2(Min(revs)) != NullRev
    ensures r.Ok? && r.value.FoldDone? ==>
              var f := r.value.folded;
              && f.revs == revs
              && f.root == Min(revs) && f.head == Max(revs)
              && (forall x :: x in revs ==> (IsRoot(repo, revs, x) <==> x == f.root))
              && (forall x :: x in revs ==> (IsHead(repo, revs, x) <==> x == f.head))
              && repo.phase(f.root) != Public && repo.p2(f.root) == NullRev
              && f.newParents == (nodeOf(repo.p1(f.root)), nodeOf(repo.p2(f.root)))
    ensures r.Ok? && r.value.FoldDone? ==> r.value.folded == FoldResult(repo, nodeOf, revs, Min(revs), Max(revs), wdp, newid, marks, active)
  {
    if revs == [] then Ok(NothingToFold)
    else
      var roots := Roots(repo, revs);
      LowestIsRoot(repo, revs);
      assert Min(revs) in roots;
      if |roots| > 1 then Err(FoldMultipleRoots)
      else
        var root := roots[0];
        OnlyMember(roots, Min(revs));
        if repo.phase(root) == Public then Err(FoldPublic)
        else
          var heads := Heads(repo, revs);
          HighestIsHead(repo, revs);
          assert Max(revs) in heads;
          if |heads| > 1 then Err(FoldMultipleHeads)
          else if repo.p2(root) != NullRev then Err(CannotAmendMerge)
          else
            OnlyMember(heads, Max(revs));
            Ok(FoldDone(FoldResult(repo, nodeOf, revs, root, heads[0], wdp, newid, marks, active)))
  }

  /** `fold`: `targets` are the resolved positional revisions (None when no
      positional argument is given) and `revOpt` the resolved --rev
      revisions (None when the option's list is empty, as the source tests
      the list itself); `newid` is the changeset `rewrite` creates from the
      root, the folded changesets and the head; `marks` and `active` are
      the bookmarks and the active bookmark before the command. */
  function FoldRevs(repo: Repo, nodeOf: Rev -> Node, targets: Option<seq<Rev>>, revOpt: Option<seq<Rev>>,
                    wdp: Rev, newid: Node, marks: Bookmarks, active: Option<string>): (r: Result<FoldOutcome>)
    requires WellFormed(repo)
    requires revOpt.Some? ==> ValidRevs(revOpt.value)
    ensures r == Err(FoldBothRevAndTarget) <==> targets.Some? && revOpt.Some?
    ensures !(targets.Some? && revOpt.Some?) ==>
              r == FoldChecked(repo, nodeOf, FoldSet(repo, targets, revOpt, wdp), wdp, newid, marks, active)
  {
    if targets.Some? && revOpt.Some? then Err(FoldBothRevAndTarget)
    else
      FoldSetValid(repo, targets, revOpt, wdp);
      FoldChecked(repo, nodeOf, FoldSet(repo, targets, revOpt, wdp), wdp, newid, marks, active)
  }

  /** With targets, every folded changeset lies between a target and the
      working directory parent. */
  lemma FoldedInRange(repo: Repo, nodeOf: Rev -> Node, targets: seq<Rev>, wdp: Rev, newid: Node,
                      marks: Bookmarks, active: Option<string>)
    requires WellFormed(repo)
    ensures var r := FoldRevs(repo, nodeOf, Some(targets), None, wdp, newid, marks, active);
            r.Ok? && r.value.FoldDone? ==>
              forall x :: x in r.value.folded.revs ==>
                exists t :: t in targets && (Between(repo, t, x, wdp) || Between(repo, wdp, x, t))
  {
    FoldSetValid(repo, Some(targets), None, wdp);
  }

  /** The set `fold` works on holds revisions only, and with targets only
      revisions between a target and the working directory parent. */
  lemma FoldSetValid(repo: Repo, targets: Option<seq<Rev>>, revOpt: Option<seq<Rev>>, wdp: Rev)
    requires revOpt.Some? ==> ValidRevs(revOpt.value)
    ensures ValidRevs(FoldSet(repo, targets, revOpt, wdp))
    ensures targets.Some? ==>
              forall x :: x in FoldSet(repo, targets, revOpt, wdp) ==>
                exists t :: t in targets.value && (Between(repo, t, x, wdp) || Between(repo, wdp, x, t))
  {
    if targets.Some? {
      var r := FoldRange(repo, targets.value, wdp);
      assert forall x :: x in r ==> 0 <= x;
    }
  }
}

=== FILE: markers.dfy ===
/** The marker store as the evolve extension sees it: the read-time repair
    of legacy markers whose successor list holds the null identifier, and the
    two lookups of the store (markers by precursor, markers by successor). */
module Markers {
  import opened Types

  /** The successor list with every null identifier removed, order kept. */
  function RemoveNull(s: seq<Node>): (r: seq<Node>)
    ensures NullId !in r
    ensures |r| <= |s|
    ensures forall x :: x != NullId ==> multiset(r)[x] == multiset(s)[x]
    ensures NullId in s <==> |r| < |s|
  {
    if s == [] then []
    else
      assert s == [s[0]] + s[1..];
      if s[0] == NullId then RemoveNull(s[1..])
      else [s[0]] + RemoveNull(s[1..])
  }

  /** Removing nulls commutes with concatenation: the surviving successors
      keep their relative order. */
  lemma {:induction false} RemoveNullAppend(a: seq<Node>, b: seq<Node>)
    ensures RemoveNull(a + b) == RemoveNull(a) + RemoveNull(b)
  {
    if a == [] {
      assert a + b == b;
    } else {
      assert (a + b)[0] == a[0];
      assert (a + b)[1..] == a[1..] + b;
      RemoveNullAppend(a[1..], b);
    }
  }

  /** A successor list without the null identifier is left untouched. */
  lemma {:induction false} RemoveNullIdentity(s: seq<Node>)
    requires NullId !in s
    ensures RemoveNull(s) == s
  {
    if s != [] {
      RemoveNullIdentity(s[1..]);
    }
  }

  /** The repair applied to one marker read from disk. */
  function RepairMarker(m: Marker): (r: Marker)
    ensures r.prec == m.prec && r.flags == m.flags && r.metadata == m.metadata
    ensures r.succs == RemoveNull(m.succs)
    ensures NullId !in m.succs ==> r == m
  {
    if NullId in m.succs then m.(succs := RemoveNull(m.succs))
    else
      RemoveNullIdentity(m.succs);
      m
  }

  /** Number of markers in `ms[..k]` whose successors contain null. */
  ghost function LegacyCount(ms: seq<Marker>, k: nat): nat
    requires k <= |ms|
  {
    |set i | 0 <= i < k && NullId in ms[i].succs|
  }

  lemma LegacyCountStep(ms: seq<Marker>, k: nat)
    requires k < |ms|
    ensures LegacyCount(ms, k + 1)
         == LegacyCount(ms, k) + (if NullId in ms[k].succs then 1 else 0)
  {
    var before := set i | 0 <= i < k && NullId in ms[i].succs;
    var after := set i | 0 <= i < k + 1 && NullId in ms[i].succs;
    if NullId in ms[k].succs {
      assert after == before + {k};
    } else {
      assert after == before;
    }
  }

  /** `safereadmarkers`: yields every marker read from disk with the null
      identifier removed from its successors, and counts the markers that
      needed the repair. */
  method SafeReadMarkers(ms: seq<Marker>) returns (out: seq<Marker>, nb: nat)
    ensures |out| == |ms|
    ensures forall i :: 0 <= i < |ms| ==>
      && out[i].prec == ms[i].prec
      && out[i].flags == ms[i].flags
      && out[i].metadata == ms[i].metadata
      && out[i].succs == RemoveNull(ms[i].succs)
    ensures forall i :: 0 <= i < |out| ==> NullId !in out[i].succs
    ensures forall i :: 0 <= i < |ms| && NullId !in ms[i].succs ==> out[i] == ms[i]
    ensures nb == |set i | 0 <= i < |ms| && NullId in ms[i].succs|
  {
    out := [];
    nb := 0;
    var k := 0;
    while k < |ms|
      invariant 0 <= k <= |ms|
      invariant |out| == k
      invariant forall i :: 0 <= i < k ==> out[i] == RepairMarker(ms[i])
      invariant nb == LegacyCount(ms, k)
    {
      var marker := ms[k];
      if NullId in marker.succs {
        marker := marker.(succs := RemoveNull(marker.succs));
        nb := nb + 1;
      }
      LegacyCountStep(ms, k);
      out := out + [marker];
      k := k + 1;
    }
  }

  /** `obsstore.successors[n]`: the markers whose precursor is `n`. */
  function MarkersFrom(ms: seq<Marker>, n: Node): (r: set<Marker>)
    ensures forall m :: m in r <==> m in ms && m.prec == n
  {
    set m | m in ms && m.prec == n
  }

  /** `obsstore.precursors[n]`: the markers that list `n` as a successor. */
  function MarkersInto(ms: seq<Marker>, n: Node): (r: set<Marker>)
    ensures forall m :: m in r <==> m in ms && n in m.succs
  {
    set m | m in ms && n in m.succs
  }
}

=== FILE: navigate.dfy ===
/** `hg previous` and `hg next`: move the working directory one changeset
    down or up the history, carrying the active bookmark along. */
module Navigate {
  import opened Types

  /** `bookmarks.iscurrent`: the bookmark exists and sits on a parent of the
      working directory. */
  predicate IsCurrent(marks: Bookmarks, nodeOf: Rev -> Node, wparents: seq<Rev>, bm: string) {
    bm in marks && exists p :: p in wparents && marks[bm] == nodeOf(p)
  }

  datatype Moved = Moved(
    code: int,             // the command's exit code
    target: Option<Rev>,   // the changeset the working directory is updated to
    shown: seq<Rev>,       // the changesets whose summary is displayed
    marks: Bookmarks)

  /** The update to `dest` shared by both commands: the active bookmark
      follows when it was current and the update left no conflict. */
  function MoveTo(nodeOf: Rev -> Node, wparents: seq<Rev>, active: Option<string>, marks: Bookmarks,
                  updateFailed: bool, dest: Rev): (m: Moved)
    ensures m.code == 0 && m.target == Some(dest) && m.shown == [dest]
    ensures m.marks.Keys == marks.Keys
    ensures forall b :: b in marks ==>
              m.marks[b] == if active == Some(b) && !updateFailed && IsCurrent(marks, nodeOf, wparents, b)
                            then nodeOf(dest) else marks[b]
  {
    var shouldmove := active.Some? && IsCurrent(marks, nodeOf, wparents, active.value);
    Moved(0, Some(dest), [dest],
          if !updateFailed && shouldmove then marks[active.value := nodeOf(dest)] else marks)
  }

  /** `previous`: update to the parent of the working directory parent when
      it has exactly one (the null changeset included); a merge is displayed
      and refused with exit code 1. */
  function Previous(repo: Repo, nodeOf: Rev -> Node, wparents: seq<Rev>, active: Option<string>,
                    marks: Bookmarks, updateFailed: bool): (r: Result<Moved>)
    ensures r.Err? <==> |wparents| != 1
    ensures r.Err? ==> r.error == MergeInProgress
    ensures r.Ok? ==> (r.value.code == 0 <==> repo.p2(wparents[0]) == NullRev)
    ensures r.Ok? && r.value.code == 0 ==>
              r.value == MoveTo(nodeOf, wparents, active, marks, updateFailed, repo.p1(wparents[0]))
    ensures r.Ok? && r.value.code != 0 ==>
              && r.value.code == 1 && r.value.target.None? && r.value.marks == marks
              && r.value.shown == [repo.p1(wparents[0]), repo.p2(wparents[0])]
  {
    if |wparents| != 1 then Err(MergeInProgress)
    else
      var parents := repo.Parents(wparents[0]);
      if |parents| == 1 then Ok(MoveTo(nodeOf, wparents, active, marks, updateFailed, parents[0]))
      else Ok(Moved(1, None, parents, marks))
  }

  /** The children of `x` that are not obsolete, in the order Mercurial lists them. */
  function LiveChildren(repo: Repo, x: Rev): (cs: seq<Rev>)
    ensures forall c :: c in cs <==> c in repo.children(x) && !repo.obsolete(c)
  {
    Select(repo.children(x), c => !repo.obsolete(c))
  }

  /** `next`: update to the only non-obsolete child of the working directory
      parent; none or several are reported with exit code 1. */
  function Next(repo: Repo, nodeOf: Rev -> Node, wparents: seq<Rev>, active: Option<string>,
                marks: Bookmarks, updateFailed: bool): (r: Result<Moved>)
    ensures r.Err? <==> |wparents| != 1
    ensures r.Err? ==> r.error == MergeInProgress
    ensures r.Ok? ==> (r.value.code == 0 <==> |LiveChildren(repo, wparents[0])| == 1)
    ensures r.Ok? && r.value.code == 0 ==>
              r.value == MoveTo(nodeOf, wparents, active, marks, updateFailed, LiveChildren(repo, wparents[0])[0])
    ensures r.Ok? && r.value.code != 0 ==>
              && r.value.code == 1 && r.value.target.None? && r.value.marks == marks
              && r.value.shown == LiveChildren(repo, wparents[0])
  {
    if |wparents| != 1 then Err(MergeInProgress)
    else
      var children := LiveChildren(repo, wparents[0]);
      if children == [] then Ok(Moved(1, None, [], marks))
      else if |children| == 1 then Ok(MoveTo(nodeOf, wparents, active, marks, updateFailed, children[0]))
      else Ok(Moved(1, None, children, marks))
  }

  /** `next` undoes `previous` when the working directory parent is the only
      non-obsolete child of its parent: the working directory comes back,
      and so does an active bookmark that was on it. */
  lemma NextUndoesPrevious(repo: Repo, nodeOf: Rev -> Node, x: Rev, active: Option<string>, marks: Bookmarks)
    requires repo.p2(x) == NullRev
    requires LiveChildren(repo, repo.p1(x)) == [x]
    ensures var back := Previous(repo, nodeOf, [x], active, marks, false);
            && back.Ok? && back.value.target == Some(repo.p1(x))
            && var forth := Next(repo, nodeOf, [repo.p1(x)], active, back.value.marks, false);
               && forth.Ok? && forth.value.target == Some(x)
               && (active.Some? && IsCurrent(marks, nodeOf, [x], active.value) ==> forth.value.marks == marks)
  {
    var p := repo.p1(x);
    var back := Previous(repo, nodeOf, [x], active, marks, false);
    if active.Some? && IsCurrent(marks, nodeOf, [x], active.value) {
      var bm := active.value;
      assert back.value.marks == marks[bm := nodeOf(p)];
      assert IsCurrent(back.value.marks, nodeOf, [p], bm) by {
        assert p in [p];
      }
      assert marks[bm] == nodeOf(x);
      assert marks[bm := nodeOf(p)][bm := nodeOf(x)] == marks;
    }
  }
}

=== FILE: obsgraph.dfy ===
/** Queries over the obsolescence graph: direct and transitive precursors
    and successors of a set of changesets (`_precursors`, `_allprecursors`,
    `_successors`, `_allsuccessors`). Markers are the edges precursor ->
    successor; results are revisions, filtered through the changelog nodemap
    so that identifiers unknown to the changelog are dropped. */
module ObsGraph {
  import opened Types
  import opened Markers

  /** Revisions of those nodes of `ns` the changelog knows. */
  function Known(nm: map<Node, Rev>, ns: set<Node>): (r: set<Rev>)
    ensures forall x :: x in ns && x in nm ==> nm[x] in r
    ensures forall v :: v in r ==> exists x :: x in ns && x in nm && nm[x] == v
  {
    set x | x in ns && x in nm :: nm[x]
  }

  // ---------------------------------------------------------------------
  // One step through the store
  // ---------------------------------------------------------------------

  /** Precursor ids of the markers that list `n` as a successor. */
  function DirectPrecursorNodes(ms: seq<Marker>, n: Node): set<Node> {
    set m | m in MarkersInto(ms, n) :: m.prec
  }

  /** Successor ids reached from `n` through markers that carry none of the
      `halt` flags, the null identifier excluded. */
  function DirectSuccessorNodes(ms: seq<Marker>, halt: Flags, n: Node): set<Node> {
    set m, s | m in MarkersFrom(ms, n) && m.flags & halt == 0 && s in m.succs && s != NullId :: s
  }

  lemma DirectSuccessorMember(ms: seq<Marker>, halt: Flags, m: Marker, s: Node)
    requires m in ms && m.flags & halt == 0 && s in m.succs && s != NullId
    ensures s in DirectSuccessorNodes(ms, halt, m.prec)
  {
    assert m in MarkersFrom(ms, m.prec);
  }

  /** Every id that appears as a precursor, resp. a successor, in the store:
      the finite universe the closures live in. */
  function PrecursorUniverse(ms: seq<Marker>): set<Node> {
    set m | m in ms :: m.prec
  }

  function SuccessorUniverse(ms: seq<Marker>): set<Node> {
    set m, s | m in ms && s in m.succs :: s
  }

  // ---------------------------------------------------------------------
  // Direct neighbours
  // ---------------------------------------------------------------------

  /** `_precursors`: the known precursors of the changesets `start`. */
  function Precursors(ms: seq<Marker>, nm: map<Node, Rev>, start: seq<Node>): (r: set<Rev>)
    ensures forall m :: m in ms && m.prec in nm && (exists n :: n in start && n in m.succs)
              ==> nm[m.prec] in r
    ensures forall v :: v in r ==>
              exists m :: m in ms && m.prec in nm && nm[m.prec] == v
                       && exists n :: n in start && n in m.succs
  {
    set m, n | m in ms && n in start && n in m.succs && m.prec in nm :: nm[m.prec]
  }

  /** `_successors`: the known successors of the changesets `start`, through
      every marker whatever its flags. */
  function Successors(ms: seq<Marker>, nm: map<Node, Rev>, start: seq<Node>): (r: set<Rev>)
    ensures forall m, s :: m in ms && m.prec in start && s in m.succs && s in nm ==> nm[s] in r
    ensures forall v :: v in r ==>
              exists m, s :: m in ms && m.prec in start && s in m.succs && s in nm && nm[s] == v
  {
    set m, s | m in ms && m.prec in start && s in m.succs && s in nm :: nm[s]
  }

  // ---------------------------------------------------------------------
  // Closures: the least set closed under one step from the start nodes
  // ---------------------------------------------------------------------

  ghost predicate PrecClosed(ms: seq<Marker>, start: seq<Node>, c: set<Node>) {
    forall x :: (x in start || x in c) ==> DirectPrecursorNodes(ms, x) <= c
  }

  ghost predicate PrecLeast(ms: seq<Marker>, start: seq<Node>, c: set<Node>) {
    && PrecClosed(ms, start, c)
    && forall d :: PrecClosed(ms, start, d) ==> c <= d
  }

  ghost predicate SuccClosed(ms: seq<Marker>, halt: Flags, start: seq<Node>, c: set<Node>) {
    forall x :: (x in start || x in c) ==> DirectSuccessorNodes(ms, halt, x) <= c
  }

  ghost predicate SuccLeast(ms: seq<Marker>, halt: Flags, start: seq<Node>, c: set<Node>) {
    && SuccClosed(ms, halt, start, c)
    && forall d :: SuccClosed(ms, halt, start, d) ==> c <= d
  }

  lemma StrictGrowth(u: set<Node>, a: set<Node>, b: set<Node>)
    requires a < b <= u
    ensures |u - b| < |u - a|
  {
    assert u - a == (u - b) + (b - a);
    assert (u - b) !! (b - a);
    var x :| x in b && x !in a;
    assert x in b - a;
  }

  /** The body of the `_allprecursors` loop for one popped node: every
      precursor of `nc` not yet seen is added to `seen` and pushed. */
  method PushPrecursors(ms: seq<Marker>, nc: Node, seen: set<Node>, todo: seq<Node>)
    returns (seen': set<Node>, todo': seq<Node>)
    ensures seen' == seen + DirectPrecursorNodes(ms, nc)
    ensures forall x :: x in todo ==> x in todo'
    ensures forall x :: x in todo' ==> x in todo || x in seen'
    ensures forall x :: x in seen' && x !in seen ==> x in todo'
    ensures seen' == seen ==> todo' == todo
  {
    seen', todo' := seen, todo;
    var marks := MarkersInto(ms, nc);
    ghost var done: set<Marker> := {};
    while marks != {}
      invariant marks + done == MarkersInto(ms, nc)
      invariant seen <= seen'
      invariant forall x :: x in seen' && x !in seen ==> x in DirectPrecursorNodes(ms, nc)
      invariant forall m :: m in done ==> m.prec in seen'
      invariant forall x :: x in todo ==> x in todo'
      invariant forall x :: x in todo' ==> x in todo || x in seen'
      invariant forall x :: x in seen' && x !in seen ==> x in todo'
      invariant seen' == seen ==> todo' == todo
      decreases marks
    {
      var mark :| mark in marks;
      marks := marks - {mark};
      var np := mark.prec;
      if np !in seen' {
        assert np in DirectPrecursorNodes(ms, nc);
        seen' := seen' + {np};
        todo' := todo' + [np];
      }
      done := done + {mark};
    }
  }

  /** The worklist of `_allprecursors`, on identifiers: unknown ids are
      traversed too. */
  method PrecursorClosure(ms: seq<Marker>, start: seq<Node>) returns (seen: set<Node>)
    ensures PrecLeast(ms, start, seen)
    ensures forall n :: n in start ==> DirectPrecursorNodes(ms, n) <= seen
  {
    var toproceed := start;
    seen := {};
    while toproceed != []
      invariant PrecInv(ms, start, seen, toproceed)
      decreases |PrecursorUniverse(ms) - seen|, |toproceed|
    {
      var nc := toproceed[|toproceed| - 1];
      var seen', todo' := PushPrecursors(ms, nc, seen, toproceed[..|toproceed| - 1]);
      PrecStep(ms, start, seen, toproceed, seen', todo');
      seen, toproceed := seen', todo';
    }
  }

  /** What the `_allprecursors` loop keeps: everything seen is a precursor
      id of the store; every node queued is a start node or seen; every start
      or seen node off the queue has its precursors seen; and nothing outside
      the least closure is ever seen. */
  ghost predicate PrecInv(ms: seq<Marker>, start: seq<Node>, seen: set<Node>, todo: seq<Node>) {
    && seen <= PrecursorUniverse(ms)
    && (forall x :: x in todo ==> x in start || x in seen)
    && (forall x :: (x in start || x in seen) && x !in todo ==> DirectPrecursorNodes(ms, x) <= seen)
    && (forall d :: PrecClosed(ms, start, d) ==> seen <= d)
  }

  /** One turn of the `_allprecursors` loop keeps its invariant and makes
      progress: either a new id is seen, or the queue shrinks. */
  lemma PrecStep(ms: seq<Marker>, start: seq<Node>, seen: set<Node>, todo: seq<Node>,
                 seen': set<Node>, todo': seq<Node>)
    requires PrecInv(ms, start, seen, todo) && todo != []
    requires seen' == seen + DirectPrecursorNodes(ms, todo[|todo| - 1])
    requires forall x :: x in todo[..|todo| - 1] ==> x in todo'
    requires forall x :: x in todo' ==> x in todo[..|todo| - 1] || x in seen'
    requires forall x :: x in seen' && x !in seen ==> x in todo'
    requires seen' == seen ==> todo' == todo[..|todo| - 1]
    ensures PrecInv(ms, start, seen', todo')
    ensures || |PrecursorUniverse(ms) - seen'| < |PrecursorUniverse(ms) - seen|
            || (seen' == seen && |todo'| < |todo|)
  {
    var u := PrecursorUniverse(ms);
    var nc := todo[|todo| - 1];
    var rest := todo[..|todo| - 1];
    assert todo == rest + [nc];
    assert nc in todo;
    assert DirectPrecursorNodes(ms, nc) <= u by {
      forall p | p in DirectPrecursorNodes(ms, nc) ensures p in u {
        var m :| m in MarkersInto(ms, nc) && m.prec == p;
      }
    }
    forall x | (x in start || x in seen') && x !in todo'
      ensures DirectPrecursorNodes(ms, x) <= seen'
    {
      if x != nc {
        assert x !in todo;
      }
    }
    forall d | PrecClosed(ms, start, d)
      ensures seen' <= d
    {
      assert DirectPrecursorNodes(ms, nc) <= d;
    }
    if seen < seen' {
      StrictGrowth(u, seen, seen');
    }
  }

  /** The body of the `_allsuccessors` loop for one popped node: markers
      carrying a halt flag are skipped, and so is the null identifier. */
  method PushSuccessors(ms: seq<Marker>, halt: Flags, nc: Node, seen: set<Node>, todo: seq<Node>)
    returns (seen': set<Node>, todo': seq<Node>)
    ensures seen' == seen + DirectSuccessorNodes(ms, halt, nc)
    ensures forall x :: x in todo ==> x in todo'
    ensures forall x :: x in todo' ==> x in todo || x in seen'
    ensures forall x :: x in seen' && x !in seen ==> x in todo'
    ensures seen' == seen ==> todo' == todo
  {
    seen', todo' := seen, todo;
    var marks := MarkersFrom(ms, nc);
    ghost var done: set<Marker> := {};
    while marks != {}
      invariant marks + done == MarkersFrom(ms, nc)
      invariant seen <= seen'
      invariant forall x :: x in seen' && x !in seen ==> x in DirectSuccessorNodes(ms, halt, nc)
      invariant forall m, s :: m in done && m.flags & halt == 0 && s in m.succs && s != NullId
                  ==> s in seen'
      invariant forall x :: x in todo ==> x in todo'
      invariant forall x :: x in todo' ==> x in todo || x in seen'
      invariant forall x :: x in seen' && x !in seen ==> x in todo'
      invariant seen' == seen ==> todo' == todo
      decreases marks
    {
      var mark :| mark in marks;
      marks := marks - {mark};
      if mark.flags & halt == 0 {
        var j := 0;
        while j < |mark.succs|
          invariant 0 <= j <= |mark.succs|
          invariant seen <= seen'
          invariant forall x :: x in seen' && x !in seen ==> x in DirectSuccessorNodes(ms, halt, nc)
          invariant forall m, s :: m in done && m.flags & halt == 0 && s in m.succs && s != NullId
                      ==> s in seen'
          invariant forall k :: 0 <= k < j && mark.succs[k] != NullId ==> mark.succs[k] in seen'
          invariant forall x :: x in todo ==> x in todo'
          invariant forall x :: x in todo' ==> x in todo || x in seen'
          invariant forall x :: x in seen' && x !in seen ==> x in todo'
          invariant seen' == seen ==> todo' == todo
        {
          var sub := mark.succs[j];
          if sub != NullId && sub !in seen' {
            DirectSuccessorMember(ms, halt, mark, sub);
            seen' := seen' + {sub};
            todo' := todo' + [sub];
          }
          j := j + 1;
        }
      }
      done := done + {mark};
    }
  }

  /** The worklist of `_allsuccessors`, on identifiers. */
  method SuccessorClosure(ms: seq<Marker>, halt: Flags, start: seq<Node>) returns (seen: set<Node>)
    ensures SuccLeast(ms, halt, start, seen)
    ensures NullId !in seen
    ensures forall n :: n in start ==> DirectSuccessorNodes(ms, halt, n) <= seen
  {
    var toproceed := start;
    seen := {};
    while toproceed != []
      invariant SuccInv(ms, halt, start, seen, toproceed)
      decreases |SuccessorUniverse(ms) - seen|, |toproceed|
    {
      var nc := toproceed[|toproceed| - 1];
      var seen', todo' := PushSuccessors(ms, halt, nc, seen, toproceed[..|toproceed| - 1]);
      SuccStep(ms, halt, start, seen, toproceed, seen', todo');
      seen, toproceed := seen', todo';
    }
  }

  /** What the `_allsuccessors` loop keeps, as for precursors, and the null
      identifier is never seen. */
  ghost predicate SuccInv(ms: seq<Marker>, halt: Flags, start: seq<Node>, seen: set<Node>, todo: seq<Node>) {
    && seen <= SuccessorUniverse(ms)
    && NullId !in seen
    && (forall x :: x in todo ==> x in start || x in seen)
    && (forall x :: (x in start || x in seen) && x !in todo ==> DirectSuccessorNodes(ms, halt, x) <= seen)
    && (forall d :: SuccClosed(ms, halt, start, d) ==> seen <= d)
  }

  /** One turn of the `_allsuccessors` loop keeps its invariant and makes
      progress. */
  lemma SuccStep(ms: seq<Marker>, halt: Flags, start: seq<Node>, seen: set<Node>, todo: seq<Node>,
                 seen': set<Node>, todo': seq<Node>)
    requires SuccInv(ms, halt, start, seen, todo) && todo != []
    requires seen' == seen + DirectSuccessorNodes(ms, halt, todo[|todo| - 1])
    requires forall x :: x in todo[..|todo| - 1] ==> x in todo'
    requires forall x :: x in todo' ==> x in todo[..|todo| - 1] || x in seen'
    requires forall x :: x in seen' && x !in seen ==> x in todo'
    requires seen' == seen ==> todo' == todo[..|todo| - 1]
    ensures SuccInv(ms, halt, start, seen', todo')
    ensures || |SuccessorUniverse(ms) - seen'| < |SuccessorUniverse(ms) - seen|
            || (seen' == seen && |todo'| < |todo|)
  {
    var u := SuccessorUniverse(ms);
    var nc := todo[|todo| - 1];
    var rest := todo[..|todo| - 1];
    assert todo == rest + [nc];
    assert nc in todo;
    assert DirectSuccessorNodes(ms, halt, nc) <= u by {
      forall p | p in DirectSuccessorNodes(ms, halt, nc) ensures p in u {
        var m, s :| m in MarkersFrom(ms, nc) && m.flags & halt == 0 && s in m.succs && s != NullId && s == p;
      }
    }
    forall x | (x in start || x in seen') && x !in todo'
      ensures DirectSuccessorNodes(ms, halt, x) <= seen'
    {
      if x != nc {
        assert x !in todo;
      }
    }
    forall d | SuccClosed(ms, halt, start, d)
      ensures seen' <= d
    {
      assert DirectSuccessorNodes(ms, halt, nc) <= d;
    }
    if seen < seen' {
      StrictGrowth(u, seen, seen');
    }
  }

  // ---------------------------------------------------------------------
  // The revset-level queries
  // ---------------------------------------------------------------------

  /** `_allprecursors`: the known transitive precursors of `start`. */
  method AllPrecursors(ms: seq<Marker>, nm: map<Node, Rev>, start: seq<Node>) returns (cs: set<Rev>)
    ensures exists c :: PrecLeast(ms, start, c) && cs == Known(nm, c)
    ensures Precursors(ms, nm, start) <= cs
    ensures forall n, h, p ::
              (n in start && h in DirectPrecursorNodes(ms, n)
               && p in DirectPrecursorNodes(ms, h) && p in nm) ==> nm[p] in cs
  {
    var seen := PrecursorClosure(ms, start);
    cs := Known(nm, seen);
    forall v | v in Precursors(ms, nm, start)
      ensures v in cs
    {
      var m, n :| m in ms && m.prec in nm && nm[m.prec] == v && n in start && n in m.succs;
      assert m.prec in DirectPrecursorNodes(ms, n);
    }
  }

  /** `_allsuccessors`: the known transitive successors of `start`, never
      following a marker that carries one of the `halt` flags. */
  method AllSuccessors(ms: seq<Marker>, nm: map<Node, Rev>, start: seq<Node>, halt: Flags)
    returns (cs: set<Rev>)
    ensures exists c :: SuccLeast(ms, halt, start, c) && NullId !in c && cs == Known(nm, c)
    ensures forall m, s ::
              (m in ms && m.prec in start && m.flags & halt == 0
               && s in m.succs && s != NullId && s in nm) ==> nm[s] in cs
    ensures forall v :: v in cs ==> exists x :: x in nm && nm[x] == v && x != NullId
  {
    var seen := SuccessorClosure(ms, halt, start);
    cs := Known(nm, seen);
    forall m, s | m in ms && m.prec in start && m.flags & halt == 0
              && s in m.succs && s != NullId && s in nm
      ensures nm[s] in cs
    {
      DirectSuccessorMember(ms, halt, m, s);
    }
  }

  // ---------------------------------------------------------------------
  // Properties of the closures
  // ---------------------------------------------------------------------

  /** The closure is unique: whatever order the worklist is drained in, the
      result set is the same. */
  lemma SuccLeastUnique(ms: seq<Marker>, halt: Flags, start: seq<Node>, a: set<Node>, b: set<Node>)
    requires SuccLeast(ms, halt, start, a) && SuccLeast(ms, halt, start, b)
    ensures a == b
  {
  }

  /** The markers that do not carry any halt flag. */
  function Unhalted(ms: seq<Marker>, halt: Flags): (r: seq<Marker>)
    ensures forall m :: m in r <==> m in ms && m.flags & halt == 0
  {
    if ms == [] then []
    else if ms[0].flags & halt == 0 then [ms[0]] + Unhalted(ms[1..], halt)
    else Unhalted(ms[1..], halt)
  }

  /** A marker carrying a halt flag is never followed: the closure with halt
      flags is the plain closure of the store with those markers removed. */
  lemma HaltedMarkersIgnored(ms: seq<Marker>, halt: Flags, start: seq<Node>, c: set<Node>)
    requires SuccLeast(ms, halt, start, c)
    ensures SuccLeast(Unhalted(ms, halt), 0, start, c)
  {
    var ums := Unhalted(ms, halt);
    forall x
      ensures DirectSuccessorNodes(ms, halt, x) == DirectSuccessorNodes(ums, 0, x)
    {
      forall s | s in DirectSuccessorNodes(ms, halt, x)
        ensures s in DirectSuccessorNodes(ums, 0, x)
      {
        var m :| m in MarkersFrom(ms, x) && m.flags & halt == 0 && s in m.succs && s != NullId;
        assert m in MarkersFrom(ums, x);
      }
      forall s | s in DirectSuccessorNodes(ums, 0, x)
        ensures s in DirectSuccessorNodes(ms, halt, x)
      {
        var m :| m in MarkersFrom(ums, x) && m.flags & 0 == 0 && s in m.succs && s != NullId;
        assert m in MarkersFrom(ms, x) && m.flags & halt == 0;
      }
    }
    assert forall d :: SuccClosed(ums, 0, start, d) <==> SuccClosed(ms, halt, start, d);
  }

  /** Adding start nodes can only grow the transitive successors. */
  lemma SuccLeastMonotone(ms: seq<Marker>, halt: Flags, a: seq<Node>, b: seq<Node>,
                          ca: set<Node>, cb: set<Node>)
    requires forall x :: x in a ==> x in b
    requires SuccLeast(ms, halt, a, ca) && SuccLeast(ms, halt, b, cb)
    ensures ca <= cb
  {
    assert SuccClosed(ms, halt, a, cb);
  }
}

=== FILE: policy.dfy ===
/** What `hg evolve` works on: the obsolescence keyword shown for a
    changeset, the choice of the next troubled changeset, the dispatch to a
    solver, and the exit codes when nothing is picked. */
module Policy {
  import opened Types

  // -----------------------------------------------------------------------
  // The `obsolete` template keyword
  // -----------------------------------------------------------------------

  datatype Keyword = Extinct | Suspended | Unstable | Stable {
    function Name(): string {
      match this
      case Extinct => "extinct"
      case Suspended => "suspended"
      case Unstable => "unstable"
      case Stable => "stable"
    }
  }

  /** `obsoletekw`: an obsolete changeset is extinct or suspended depending
      on whether its descendants are all obsolete too; a live one is unstable
      or stable. */
  function ObsoleteKeyword(repo: Repo, r: Rev): (k: Keyword)
    ensures k == Extinct <==> repo.obsolete(r) && repo.extinct(r)
    ensures k == Suspended <==> repo.obsolete(r) && !repo.extinct(r)
    ensures k == Unstable <==> !repo.obsolete(r) && repo.unstable(r)
    ensures k == Stable <==> !repo.obsolete(r) && !repo.unstable(r)
  {
    if repo.obsolete(r) then
      if repo.extinct(r) then Extinct else Suspended
    else if repo.unstable(r) then Unstable
    else Stable
  }

  // -----------------------------------------------------------------------
  // Revsets over the changelog
  // -----------------------------------------------------------------------

  /** The revisions 0..n-1 satisfying `p`, in ascending (revset) order. */
  function RevsWhere(n: nat, p: Rev -> bool): (r: seq<Rev>)
    ensures StrictlyIncreasing(r)
    ensures forall x :: x in r <==> 0 <= x < n && p(x)
  {
    if n == 0 then []
    else
      var init := RevsWhere(n - 1, p);
      assert forall k :: 0 <= k < |init| ==> init[k] < n - 1 by {
        forall k | 0 <= k < |init| ensures init[k] < n - 1 {
          assert init[k] in init;
        }
      }
      init + (if p(n - 1) then [n - 1] else [])
  }

  /** `d` descends from `a` along parent edges (or is `a`). */
  predicate Descends(repo: Repo, a: Rev, d: Rev)
    decreases d - a
  {
    || d == a
    || (&& d > a
        && ((repo.p1(d) < d && Descends(repo, a, repo.p1(d)))
            || (repo.p2(d) < d && Descends(repo, a, repo.p2(d)))))
  }

  /** `ctx.descendants()`: the proper descendants in ascending order. */
  function Descendants(repo: Repo, a: Rev): (ds: seq<Rev>)
    ensures StrictlyIncreasing(ds)
    ensures forall d :: d in ds <==> 0 <= d && a < d < repo.size && Descends(repo, a, d)
  {
    var p := d => a < d && Descends(repo, a, d);
    var ds := RevsWhere(repo.size, p);
    assert forall d :: p(d) == (a < d && Descends(repo, a, d));
    ds
  }

  // -----------------------------------------------------------------------
  // _stabilizableunstable
  // -----------------------------------------------------------------------

  /** The revisions `selfanddescendants` yields after the descendants: each
      descendant followed by its precursors. `allprecs(x)` is the revset
      `allprecursors(x)`. */
  function Expand(ds: seq<Rev>, allprecs: Rev -> seq<Rev>): (xs: seq<Rev>)
    ensures forall x :: x in xs <==> exists i :: 0 <= i < |ds| && (x == ds[i] || x in allprecs(ds[i]))
  {
    if ds == [] then []
    else
      var rest := Expand(ds[1..], allprecs);
      assert forall x :: x in rest <==> exists i :: 1 <= i < |ds| && (x == ds[i] || x in allprecs(ds[i])) by {
        forall x ensures x in rest <==> exists i :: 1 <= i < |ds| && (x == ds[i] || x in allprecs(ds[i])) {
          if x in rest {
            var j :| 0 <= j < |ds[1..]| && (x == ds[1..][j] || x in allprecs(ds[1..][j]));
            assert x == ds[j + 1] || x in allprecs(ds[j + 1]);
          }
          if exists i :: 1 <= i < |ds| && (x == ds[i] || x in allprecs(ds[i])) {
            var i :| 1 <= i < |ds| && (x == ds[i] || x in allprecs(ds[i]));
            assert x == ds[1..][i - 1] || x in allprecs(ds[1..][i - 1]);
          }
        }
      }
      [ds[0]] + allprecs(ds[0]) + rest
  }

  /** The candidate parents in the order `selfanddescendants` yields them. */
  function Candidates(repo: Repo, allprecs: Rev -> seq<Rev>, pctx: Rev): seq<Rev> {
    [pctx] + allprecs(pctx) + Expand(Descendants(repo, pctx), allprecs)
  }

  /** A changeset an unstable child can be moved onto: the starting
      changeset, one of its descendants, or a precursor of either. */
  ghost predicate Anchor(repo: Repo, allprecs: Rev -> seq<Rev>, pctx: Rev, x: Rev) {
    || x == pctx
    || x in allprecs(pctx)
    || exists d :: 0 <= d && pctx < d < repo.size && Descends(repo, pctx, d) && (x == d || x in allprecs(d))
  }

  lemma CandidatesAreAnchors(repo: Repo, allprecs: Rev -> seq<Rev>, pctx: Rev, x: Rev)
    ensures x in Candidates(repo, allprecs, pctx) <==> Anchor(repo, allprecs, pctx, x)
  {
    var ds := Descendants(repo, pctx);
    var c := Candidates(repo, allprecs, pctx);
    assert x in c <==> x == pctx || x in allprecs(pctx) || x in Expand(ds, allprecs);
    ExpandedDescendants(repo, allprecs, pctx, x);
  }

  /** The expanded descendants are the descendants and their precursors. */
  lemma ExpandedDescendants(repo: Repo, allprecs: Rev -> seq<Rev>, pctx: Rev, x: Rev)
    ensures x in Expand(Descendants(repo, pctx), allprecs) <==>
              exists d :: 0 <= d && pctx < d < repo.size && Descends(repo, pctx, d) && (x == d || x in allprecs(d))
  {
    var ds := Descendants(repo, pctx);
    if x in Expand(ds, allprecs) {
      var i :| 0 <= i < |ds| && (x == ds[i] || x in allprecs(ds[i]));
      assert ds[i] in ds;
    }
    if exists d :: 0 <= d && pctx < d < repo.size && Descends(repo, pctx, d) && (x == d || x in allprecs(d)) {
      var d :| 0 <= d && pctx < d < repo.size && Descends(repo, pctx, d) && (x == d || x in allprecs(d));
      assert d in ds;
      var i :| 0 <= i < |ds| && ds[i] == d;
    }
  }

  /** The first unstable revision of `kids`, in order. */
  function FirstUnstable(repo: Repo, kids: seq<Rev>): (r: Option<Rev>)
    ensures r.None? <==> forall i :: 0 <= i < |kids| ==> !repo.unstable(kids[i])
    ensures r.Some? ==> exists i :: 0 <= i < |kids| && kids[i] == r.value
                          && repo.unstable(kids[i])
                          && forall j :: 0 <= j < i ==> !repo.unstable(kids[j])
  {
    if kids == [] then None
    else if repo.unstable(kids[0]) then Some(kids[0])
    else
      var r := FirstUnstable(repo, kids[1..]);
      assert r.Some? ==> exists i :: 1 <= i < |kids| && kids[i] == r.value
                           && repo.unstable(kids[i])
                           && forall j :: 0 <= j < i ==> !repo.unstable(kids[j]) by {
        if r.Some? {
          var i :| 0 <= i < |kids[1..]| && kids[1..][i] == r.value
                   && repo.unstable(kids[1..][i])
                   && forall j :: 0 <= j < i ==> !repo.unstable(kids[1..][j]);
          assert forall j :: 0 <= j < i + 1 ==> !repo.unstable(kids[j]) by {
            forall j | 0 <= j < i + 1 ensures !repo.unstable(kids[j]) {
              if j > 0 {
                assert kids[j] == kids[1..][j - 1];
              }
            }
          }
          assert kids[i + 1] == r.value;
        }
      }
      assert r.None? ==> forall i :: 0 <= i < |kids| ==> !repo.unstable(kids[i]) by {
        if r.None? {
          forall i | 0 <= i < |kids| ensures !repo.unstable(kids[i]) {
            if i > 0 {
              assert kids[i] == kids[1..][i - 1];
            }
          }
        }
      }
      r
  }

  ghost predicate HasUnstableChild(repo: Repo, x: Rev) {
    exists k :: 0 <= k < |repo.children(x)| && repo.unstable(repo.children(x)[k])
  }

  /** Scans the candidates in order and returns the first unstable child of
      the first candidate that has one. */
  function FirstUnstableChild(repo: Repo, cands: seq<Rev>): (r: Option<Rev>)
    ensures r.None? <==> forall i :: 0 <= i < |cands| ==> !HasUnstableChild(repo, cands[i])
    ensures r.Some? ==> repo.unstable(r.value)
    ensures r.Some? ==> exists i :: 0 <= i < |cands| && r.value in repo.children(cands[i])
                          && forall j :: 0 <= j < i ==> !HasUnstableChild(repo, cands[j])
  {
    if cands == [] then None
    else
      var first := FirstUnstable(repo, repo.children(cands[0]));
      if first.Some? then
        first
      else
        var r := FirstUnstableChild(repo, cands[1..]);
        assert r.Some? ==> exists i :: 0 <= i < |cands| && r.value in repo.children(cands[i])
                             && forall j :: 0 <= j < i ==> !HasUnstableChild(repo, cands[j]) by {
          if r.Some? {
            var i :| 0 <= i < |cands[1..]| && r.value in repo.children(cands[1..][i])
                     && forall j :: 0 <= j < i ==> !HasUnstableChild(repo, cands[1..][j]);
            assert forall j :: 0 <= j < i + 1 ==> !HasUnstableChild(repo, cands[j]) by {
              forall j | 0 <= j < i + 1 ensures !HasUnstableChild(repo, cands[j]) {
                if j > 0 {
                  assert cands[j] == cands[1..][j - 1];
                }
              }
            }
            assert cands[i + 1] == cands[1..][i];
          }
        }
        assert r.None? ==> forall i :: 0 <= i < |cands| ==> !HasUnstableChild(repo, cands[i]) by {
          if r.None? {
            forall i | 0 <= i < |cands| ensures !HasUnstableChild(repo, cands[i]) {
              if i > 0 {
                assert cands[i] == cands[1..][i - 1];
              }
            }
          }
        }
        r
  }

  /** `_stabilizableunstable`: an unstable child of `pctx`, of one of its
      descendants, or of a precursor of either. */
  function StabilizableUnstable(repo: Repo, allprecs: Rev -> seq<Rev>, pctx: Rev): (r: Option<Rev>)
    ensures r.Some? ==> repo.unstable(r.value)
  {
    FirstUnstableChild(repo, Candidates(repo, allprecs, pctx))
  }

  /** An unstable changeset that can be stabilised next to `pctx`. */
  ghost predicate Stabilizable(repo: Repo, allprecs: Rev -> seq<Rev>, pctx: Rev, c: Rev) {
    && repo.unstable(c)
    && exists x :: Anchor(repo, allprecs, pctx, x) && c in repo.children(x)
  }

  /** The search finds a changeset exactly when one is stabilisable, and
      what it finds is one. */
  lemma StabilizableUnstableSound(repo: Repo, allprecs: Rev -> seq<Rev>, pctx: Rev)
    ensures StabilizableUnstable(repo, allprecs, pctx).None?
            <==> forall c :: !Stabilizable(repo, allprecs, pctx, c)
    ensures StabilizableUnstable(repo, allprecs, pctx).Some?
            ==> Stabilizable(repo, allprecs, pctx, StabilizableUnstable(repo, allprecs, pctx).value)
  {
    var cands := Candidates(repo, allprecs, pctx);
    var r := StabilizableUnstable(repo, allprecs, pctx);
    if r.Some? {
      var i :| 0 <= i < |cands| && r.value in repo.children(cands[i]);
      CandidatesAreAnchors(repo, allprecs, pctx, cands[i]);
      assert Stabilizable(repo, allprecs, pctx, r.value);
    }
    forall c | Stabilizable(repo, allprecs, pctx, c) ensures r.Some? {
      var x :| Anchor(repo, allprecs, pctx, x) && c in repo.children(x);
      CandidatesAreAnchors(repo, allprecs, pctx, x);
      var i :| 0 <= i < |cands| && cands[i] == x;
      var k :| 0 <= k < |repo.children(x)| && repo.children(x)[k] == c;
      assert HasUnstableChild(repo, cands[i]);
    }
  }

  // -----------------------------------------------------------------------
  // _picknexttroubled and _evolveany
  // -----------------------------------------------------------------------

  /** The --any fallback of `_picknexttroubled`: the lowest unstable
      changeset, else the lowest bumped one, else the lowest divergent one. */
  function FallbackPick(repo: Repo): (r: Option<Rev>)
    ensures r.None? <==> forall x :: 0 <= x < repo.size ==> !repo.Troubled(x)
    ensures r.Some? ==> 0 <= r.value < repo.size && repo.Troubled(r.value)
    ensures r.Some? && !repo.unstable(r.value) ==>
              forall x :: 0 <= x < repo.size ==> !repo.unstable(x)
    ensures r.Some? && !repo.unstable(r.value) && !repo.bumped(r.value) ==>
              forall x :: 0 <= x < repo.size ==> !repo.bumped(x)
    ensures r.Some? ==> forall x :: 0 <= x < r.value ==> !repo.unstable(x)
    ensures r.Some? && !repo.unstable(r.value) ==>
              forall x :: 0 <= x < r.value ==> !repo.bumped(x)
    ensures r.Some? && !repo.unstable(r.value) && !repo.bumped(r.value) ==>
              forall x :: 0 <= x < r.value ==> !repo.divergent(x)
  {
    var u := Lowest(repo.size, repo.unstable);
    var bu := Lowest(repo.size, repo.bumped);
    var dv := Lowest(repo.size, repo.divergent);
    if u.Some? then
      assert repo.Troubled(u.value);
      u
    else if bu.Some? then
      assert repo.Troubled(bu.value);
      bu
    else if dv.Some? then
      assert repo.Troubled(dv.value);
      dv
    else
      assert forall x :: 0 <= x < repo.size ==> !repo.Troubled(x) by {
        forall x | 0 <= x < repo.size ensures !repo.Troubled(x) {
          assert !repo.unstable(x) && !repo.bumped(x) && !repo.divergent(x);
        }
      }
      None
  }

  /** The first revision of the revset `p` (in revision order), if any. */
  function Lowest(n: nat, p: Rev -> bool): (r: Option<Rev>)
    ensures r.None? <==> forall x :: 0 <= x < n ==> !p(x)
    ensures r.Some? ==> 0 <= r.value < n && p(r.value)
    ensures r.Some? ==> forall x :: 0 <= x < r.value ==> !p(x)
  {
    LowestFrom(n, p, 0)
  }

  /** The first revision from `i` on that satisfies `p`. */
  function LowestFrom(n: nat, p: Rev -> bool, i: nat): (r: Option<Rev>)
    requires i <= n
    decreases n - i
    ensures r.None? <==> forall x :: i <= x < n ==> !p(x)
    ensures r.Some? ==> i <= r.value < n && p(r.value)
    ensures r.Some? ==> forall x :: i <= x < r.value ==> !p(x)
  {
    if i == n then None
    else if p(i) then Some(i)
    else LowestFrom(n, p, i + 1)
  }

  /** `_picknexttroubled`: a stabilisable unstable changeset first, then the
      working directory parent if it is divergent, then (with --any or
      --all) the fallback pick. */
  function PickNextTroubled(repo: Repo, allprecs: Rev -> seq<Rev>, wdp: Rev, pickany: bool): (r: Option<Rev>)
    ensures StabilizableUnstable(repo, allprecs, wdp).Some? ==> r == StabilizableUnstable(repo, allprecs, wdp)
    ensures StabilizableUnstable(repo, allprecs, wdp).None? && repo.divergent(wdp) ==> r == Some(wdp)
    ensures StabilizableUnstable(repo, allprecs, wdp).None? && !repo.divergent(wdp) ==>
              r == if pickany then FallbackPick(repo) else None
    ensures r.Some? ==> repo.Troubled(r.value)
    ensures r.None? <==>
              && StabilizableUnstable(repo, allprecs, wdp).None?
              && !repo.divergent(wdp)
              && (!pickany || forall x :: 0 <= x < repo.size ==> !repo.Troubled(x))
  {
    var tr := StabilizableUnstable(repo, allprecs, wdp);
    if tr.Some? then tr
    else if repo.divergent(wdp) then Some(wdp)
    else if !pickany then None
    else FallbackPick(repo)
  }

  datatype Trouble = UnstableTrouble | BumpedTrouble | DivergentTrouble

  /** `_evolveany`: the solver a troubled changeset goes to; instability
      takes precedence over bumping, bumping over divergence. */
  function Dispatch(repo: Repo, tr: Rev): (k: Trouble)
    requires repo.Troubled(tr)
    ensures k == UnstableTrouble <==> repo.unstable(tr)
    ensures k == BumpedTrouble <==> !repo.unstable(tr) && repo.bumped(tr)
    ensures k == DivergentTrouble <==> !repo.unstable(tr) && !repo.bumped(tr)
  {
    if repo.unstable(tr) then UnstableTrouble
    else if repo.bumped(tr) then BumpedTrouble
    else DivergentTrouble
  }

  // -----------------------------------------------------------------------
  // evolve: option checks and the nothing-picked branch
  // -----------------------------------------------------------------------

  datatype EvolveStep =
    | ContinueGraft                      // --continue: resume the interrupted graft
    | Solve(tr: Rev, trouble: Trouble)   // hand the changeset to its solver
    | UpdateTo(rev: Rev)                 // move the working directory to the successor
    | Exit(code: nat)                    // stop with this exit code

  function Flatten(sets: seq<seq<Rev>>): (xs: seq<Rev>)
    ensures forall x :: x in xs <==> exists i :: 0 <= i < |sets| && x in sets[i]
  {
    if sets == [] then []
    else
      var rest := Flatten(sets[1..]);
      assert forall x :: x in rest <==> exists i :: 1 <= i < |sets| && x in sets[i] by {
        forall x ensures x in rest <==> exists i :: 1 <= i < |sets| && x in sets[i] {
          if x in rest {
            var j :| 0 <= j < |sets[1..]| && x in sets[1..][j];
            assert x in sets[j + 1];
          }
          if exists i :: 1 <= i < |sets| && x in sets[i] {
            var i :| 1 <= i < |sets| && x in sets[i];
            assert x in sets[1..][i - 1];
          }
        }
      }
      sets[0] + rest
  }

  /** The distinct successors of `r`, in revision order. */
  function AllSuccessorRevs(repo: Repo, r: Rev): (xs: seq<Rev>)
    ensures forall x :: x in xs <==> exists i :: 0 <= i < |repo.successorsSets(r)| && x in repo.successorsSets(r)[i]
    ensures StrictlyIncreasing(xs)
  {
    SortedRevs(Flatten(repo.successorsSets(r)))
  }

  /** `evolve` up to the first solver call: the option conflicts of
      --continue, the picked changeset and its solver, and otherwise the
      outcome for an obsolete working directory parent (update to its sole
      successor, or exit 2 when it has none or several), exit 2 when other
      changesets are troubled and exit 1 when none is. `dirty` says that the
      working directory has uncommitted changes or an uncommitted merge, on
      which `cmdutil.bailifchanged` aborts before a picked changeset is
      solved. */
  function Evolve(repo: Repo, allprecs: Rev -> seq<Rev>, wdp: Rev, dirty: bool,
                  contopt: bool, anyopt: bool, allopt: bool, dryrun: bool): (r: Result<EvolveStep>)
    ensures contopt && anyopt <==> r == Err(ContinueWithAny)
    ensures contopt && !anyopt && allopt <==> r == Err(ContinueWithAll)
    ensures r == Err(UncommittedChanges) <==>
              !contopt && PickNextTroubled(repo, allprecs, wdp, anyopt || allopt).Some? && dirty
    ensures r.Err? ==> contopt || r.error == UncommittedChanges
    ensures r == Ok(ContinueGraft) <==> contopt && !anyopt && !allopt
    ensures r.Ok? && r.value.Solve? ==>
              && PickNextTroubled(repo, allprecs, wdp, anyopt || allopt) == Some(r.value.tr)
              && repo.Troubled(r.value.tr)
              && r.value.trouble == Dispatch(repo, r.value.tr)
    ensures !contopt && !dirty && PickNextTroubled(repo, allprecs, wdp, anyopt || allopt).Some? ==> r.Ok? && r.value.Solve?
    ensures r.Ok? && r.value.UpdateTo? ==>
              && !dryrun && repo.obsolete(wdp)
              && AllSuccessorRevs(repo, wdp) == [r.value.rev]
    ensures r == Ok(Exit(0)) ==> dryrun && repo.obsolete(wdp) && |AllSuccessorRevs(repo, wdp)| == 1
    ensures !contopt && PickNextTroubled(repo, allprecs, wdp, anyopt || allopt).None?
            && repo.obsolete(wdp) && |AllSuccessorRevs(repo, wdp)| == 1 ==>
              if dryrun then r == Ok(Exit(0)) else r.Ok? && r.value.UpdateTo?
    ensures r == Ok(Exit(1)) ==>
              && !repo.obsolete(wdp)
              && forall x :: 0 <= x < repo.size ==> !repo.Troubled(x)
    ensures !contopt && PickNextTroubled(repo, allprecs, wdp, anyopt || allopt).None?
            && !repo.obsolete(wdp) && (forall x :: 0 <= x < repo.size ==> !repo.Troubled(x)) ==>
              r == Ok(Exit(1))
    ensures !contopt && PickNextTroubled(repo, allprecs, wdp, anyopt || allopt).None? ==>
              (r == Ok(Exit(2)) <==>
                 if repo.obsolete(wdp) then |AllSuccessorRevs(repo, wdp)| != 1
                 else exists x :: 0 <= x < repo.size && repo.Troubled(x))
    ensures r.Ok? && r.value.Exit? ==> r.value.code <= 2
  {
    if contopt then
      if anyopt then Err(ContinueWithAny)
      else if allopt then Err(ContinueWithAll)
      else Ok(ContinueGraft)
    else
      var tr := PickNextTroubled(repo, allprecs, wdp, anyopt || allopt);
      if tr.Some? then
        if dirty then Err(UncommittedChanges)
        else Ok(Solve(tr.value, Dispatch(repo, tr.value)))
      else Ok(NothingPicked(repo, wdp, dryrun))
  }

  /** `evolve` when nothing is picked: an obsolete working directory parent
      moves to its sole successor (exit 0 on a dry run) and gives exit 2 when
      it has none or several; otherwise exit 2 when some changeset is
      troubled and exit 1 when none is. */
  function NothingPicked(repo: Repo, wdp: Rev, dryrun: bool): (r: EvolveStep)
    ensures r.UpdateTo? ==> !dryrun && repo.obsolete(wdp) && AllSuccessorRevs(repo, wdp) == [r.rev]
    ensures r == Exit(0) <==> dryrun && repo.obsolete(wdp) && |AllSuccessorRevs(repo, wdp)| == 1
    ensures repo.obsolete(wdp) && |AllSuccessorRevs(repo, wdp)| == 1 && !dryrun ==> r.UpdateTo?
    ensures r == Exit(1) <==> !repo.obsolete(wdp) && forall x :: 0 <= x < repo.size ==> !repo.Troubled(x)
    ensures r == Exit(2) <==>
              if repo.obsolete(wdp) then |AllSuccessorRevs(repo, wdp)| != 1
              else exists x :: 0 <= x < repo.size && repo.Troubled(x)
    ensures r.Exit? || r.UpdateTo?
    ensures r.Exit? ==> r.code <= 2
  {
    if repo.obsolete(wdp) then ObsoleteParentStep(repo, wdp, dryrun)
    else Exit(TroubledExit(repo))
  }

  /** The obsolete working directory parent moves to its sole successor
      (exit 0 on a dry run); none or several successors give exit 2. */
  function ObsoleteParentStep(repo: Repo, wdp: Rev, dryrun: bool): (r: EvolveStep)
    ensures r == Exit(2) <==> |AllSuccessorRevs(repo, wdp)| != 1
    ensures r == Exit(0) <==> dryrun && |AllSuccessorRevs(repo, wdp)| == 1
    ensures r.UpdateTo? <==> !dryrun && |AllSuccessorRevs(repo, wdp)| == 1
    ensures r.UpdateTo? ==> AllSuccessorRevs(repo, wdp) == [r.rev]
    ensures r.Exit? || r.UpdateTo?
  {
    var successors := AllSuccessorRevs(repo, wdp);
    if |successors| != 1 then Exit(2)
    else if dryrun then Exit(0)
    else UpdateTo(successors[0])
  }

  /** Exit 2 ("nothing to evolve here") when some changeset is troubled,
      exit 1 ("no troubled changesets") when none is. */
  function TroubledExit(repo: Repo): (code: nat)
    ensures code == 1 <==> forall x :: 0 <= x < repo.size ==> !repo.Troubled(x)
    ensures code == 2 <==> exists x :: 0 <= x < repo.size && repo.Troubled(x)
  {
    var troubled := RevsWhere(repo.size, repo.Troubled);
    if troubled != [] then
      assert troubled[0] in troubled;
      2
    else
      assert forall x :: 0 <= x < repo.size ==> x !in troubled;
      1
  }
}

=== FILE: prune.dfy ===
/** `hg prune`: mark changesets obsolete, optionally naming their
    successors, then move the working directory and the bookmarks off the
    pruned changesets. */
module Prune {
  import opened Types
  import Rewrite
  import Policy

  /** First revision of an ascending list that is public, if any. */
  function FirstImmutable(repo: Repo, precs: seq<Rev>): (r: Option<Rev>)
    ensures r.None? <==> forall i :: 0 <= i < |precs| ==> repo.phase(precs[i]).Mutable()
    ensures r.Some? ==> exists i :: 0 <= i < |precs| && precs[i] == r.value
                          && !repo.phase(precs[i]).Mutable()
                          && forall j :: 0 <= j < i ==> repo.phase(precs[j]).Mutable()
  {
    if precs == [] then None
    else if !repo.phase(precs[0]).Mutable() then Some(precs[0])
    else
      var r := FirstImmutable(repo, precs[1..]);
      assert r.Some? ==> exists i :: 1 <= i < |precs| && precs[i] == r.value
                           && !repo.phase(precs[i]).Mutable()
                           && forall j :: 0 <= j < i ==> repo.phase(precs[j]).Mutable() by {
        if r.Some? {
          var i :| 0 <= i < |precs[1..]| && precs[1..][i] == r.value
                   && !repo.phase(precs[1..][i]).Mutable()
                   && forall j :: 0 <= j < i ==> repo.phase(precs[1..][j]).Mutable();
          assert forall j :: 0 <= j < i + 1 ==> repo.phase(precs[j]).Mutable() by {
            forall j | 0 <= j < i + 1 ensures repo.phase(precs[j]).Mutable() {
              if j > 0 {
                assert precs[j] == precs[1..][j - 1];
              }
            }
          }
          assert precs[i + 1] == precs[1..][i];
        }
      }
      assert r.None? ==> forall i :: 0 <= i < |precs| ==> repo.phase(precs[i]).Mutable() by {
        if r.None? {
          forall i | 0 <= i < |precs| ensures repo.phase(precs[i]).Mutable() {
            if i > 0 {
              assert precs[i] == precs[1..][i - 1];
            }
          }
        }
      }
      r
  }

  /** In an ascending list, a lower value sits at a lower index. */
  lemma AscendingIndex(xs: seq<Rev>, i: nat, j: nat)
    requires StrictlyIncreasing(xs) && i < |xs| && j < |xs| && xs[j] < xs[i]
    ensures j < i
  {
  }

  /** On the sorted revisions, the first immutable one is the lowest public
      revision requested. */
  lemma FirstImmutableOfRevs(repo: Repo, revs: seq<Rev>)
    ensures var f := FirstImmutable(repo, SortedRevs(revs));
            && (f.None? <==> forall x :: x in revs ==> repo.phase(x) != Public)
            && (f.Some? ==> && f.value in revs && repo.phase(f.value) == Public
                            && forall x :: x in revs && x < f.value ==> repo.phase(x) != Public)
  {
    var precs := SortedRevs(revs);
    var f := FirstImmutable(repo, precs);
    if f.None? {
      forall x | x in revs ensures repo.phase(x) != Public {
        var i :| 0 <= i < |precs| && precs[i] == x;
      }
    } else {
      FirstImmutableIsLowest(repo, precs);
    }
  }

  lemma FirstImmutableIsLowest(repo: Repo, precs: seq<Rev>)
    requires StrictlyIncreasing(precs) && FirstImmutable(repo, precs).Some?
    ensures var f := FirstImmutable(repo, precs).value;
            && f in precs && repo.phase(f) == Public
            && forall x :: x in precs && x < f ==> repo.phase(x) != Public
  {
    var f := FirstImmutable(repo, precs).value;
    var i :| 0 <= i < |precs| && precs[i] == f && !repo.phase(precs[i]).Mutable()
             && forall j :: 0 <= j < i ==> repo.phase(precs[j]).Mutable();
    forall x | x in precs && x < f ensures repo.phase(x) != Public {
      var j :| 0 <= j < |precs| && precs[j] == x;
      AscendingIndex(precs, i, j);
    }
  }

  /** Obsolete once the prune markers exist. */
  predicate ObsoleteAfter(repo: Repo, precs: seq<Rev>, r: Rev) {
    repo.obsolete(r) || r in precs
  }

  /** The loop that moves the working directory off pruned changesets:
      follow first parents while the changeset is obsolete. */
  function LiveParent(repo: Repo, precs: seq<Rev>, r: Rev): (t: Rev)
    requires WellFormed(repo) && NullRev <= r && NullRev !in precs
    decreases r + 1
    ensures NullRev <= t <= r
    ensures P1Ancestor(repo, r, t)
    ensures !ObsoleteAfter(repo, precs, t)
    ensures forall x :: t < x && P1Ancestor(repo, r, x) ==> ObsoleteAfter(repo, precs, x)
  {
    if !ObsoleteAfter(repo, precs, r) then
      assert forall x :: P1Ancestor(repo, r, x) ==> x <= r by {
        forall x | P1Ancestor(repo, r, x) ensures x <= r {
          P1AncestorBelow(repo, r, x);
        }
      }
      r
    else
      assert r != NullRev;
      var t := LiveParent(repo, precs, repo.p1(r));
      assert forall x :: t < x && P1Ancestor(repo, r, x) ==> x == r || P1Ancestor(repo, repo.p1(r), x);
      t
  }

  /** The highest revision in `0..hi` satisfying `p`, if any. */
  function Highest(hi: int, p: Rev -> bool): (r: Option<Rev>)
    decreases hi + 1
    ensures r.None? <==> forall x :: 0 <= x <= hi ==> !p(x)
    ensures r.Some? ==> 0 <= r.value <= hi && p(r.value)
    ensures r.Some? ==> forall x :: r.value < x <= hi ==> !p(x)
  {
    if hi < 0 then None
    else if p(hi) then Some(hi)
    else Highest(hi - 1, p)
  }

  /** The revset `max((::ctx) - obsolete())` once the markers exist. */
  function HighestLiveAncestor(repo: Repo, precs: seq<Rev>, ctx: Rev): (r: Option<Rev>)
    ensures r.None? <==>
              forall x :: 0 <= x <= ctx && Policy.Descends(repo, x, ctx) ==> ObsoleteAfter(repo, precs, x)
    ensures r.Some? ==>
              && 0 <= r.value <= ctx
              && Policy.Descends(repo, r.value, ctx)
              && !ObsoleteAfter(repo, precs, r.value)
              && forall x :: r.value < x <= ctx && Policy.Descends(repo, x, ctx) ==> ObsoleteAfter(repo, precs, x)
  {
    var p := x => Policy.Descends(repo, x, ctx) && !ObsoleteAfter(repo, precs, x);
    var r := Highest(ctx, p);
    assert forall x :: p(x) == (Policy.Descends(repo, x, ctx) && !ObsoleteAfter(repo, precs, x));
    r
  }

  /** Where `cmdprune` moves the bookmarks of pruned `p`: its highest live
      ancestor, when `p` carried a bookmark before the moves (the revset
      `bookmark()` is evaluated once) and such an ancestor exists. */
  function MoveTarget(repo: Repo, nodeOf: Rev -> Node, all: seq<Rev>, initial: Bookmarks, p: Rev)
    : (t: Option<Node>)
    ensures t.Some? ==> HighestLiveAncestor(repo, all, p).Some?
                        && t.value == nodeOf(HighestLiveAncestor(repo, all, p).value)
    ensures t.None? ==> NodeBookmarks(initial, nodeOf(p)) == {} || HighestLiveAncestor(repo, all, p).None?
  {
    var dest := HighestLiveAncestor(repo, all, p);
    if NodeBookmarks(initial, nodeOf(p)) != {} && dest.Some? then Some(nodeOf(dest.value)) else None
  }

  /** A bookmark never moves onto a pruned changeset. */
  lemma TargetNotPruned(repo: Repo, nodeOf: Rev -> Node, all: seq<Rev>, initial: Bookmarks, p: Rev, x: Rev)
    requires Injective(nodeOf) && x in all
    requires MoveTarget(repo, nodeOf, all, initial, p).Some?
    ensures MoveTarget(repo, nodeOf, all, initial, p).value != nodeOf(x)
  {
    assert HighestLiveAncestor(repo, all, p).value !in all;
  }

  /** One bookmark move of `cmdprune`: `_bookmarksupdater` applied when the
      pruned changeset has a target. */
  function MoveOne(cur: Bookmarks, active: Option<string>, from: Node, t: Option<Node>): (next: Bookmarks)
    ensures forall b :: b in next ==> b in cur || active == Some(b)
    ensures forall b :: b in cur ==> b in next
    ensures forall b :: b in cur && active != Some(b) && cur[b] == from && t.Some? ==> next[b] == t.value
    ensures forall b :: b in cur && active != Some(b) && (cur[b] != from || t.None?) ==> next[b] == cur[b]
  {
    if t.Some? then Rewrite.UpdateBookmarks(cur, active, from, t.value).0 else cur
  }

  /** The tail of a list without repetitions has none either, and lacks its head. */
  lemma DistinctTail(rest: seq<Rev>)
    requires Distinct(rest) && rest != []
    ensures Distinct(rest[1..])
    ensures forall x :: x in rest[1..] ==> x in rest && x != rest[0]
    ensures forall x :: x in rest ==> x == rest[0] || x in rest[1..]
  {
    forall x | x in rest[1..] ensures x in rest && x != rest[0] {
      var m :| 0 <= m < |rest[1..]| && rest[1..][m] == x;
      assert rest[m + 1] == x;
    }
  }

  /** The last loop of `cmdprune`: `_bookmarksupdater(p)(target)` for each
      pruned changeset `p` (in ascending order) that has a move target. */
  function MoveAll(repo: Repo, nodeOf: Rev -> Node, all: seq<Rev>, rest: seq<Rev>, initial: Bookmarks,
                   cur: Bookmarks, active: Option<string>): (r: Bookmarks)
    requires Injective(nodeOf) && Distinct(rest)
    requires forall x :: x in rest ==> x in all
    ensures forall b :: b in r ==> b in cur || active == Some(b)
    ensures forall b :: b in cur ==> b in r
    ensures forall b :: (&& b in cur && active != Some(b)
                         && forall x :: x in rest && cur[b] == nodeOf(x)
                              ==> MoveTarget(repo, nodeOf, all, initial, x).None?)
              ==> r[b] == cur[b]
    ensures forall b, x :: (&& b in cur && active != Some(b) && x in rest && cur[b] == nodeOf(x)
                            && MoveTarget(repo, nodeOf, all, initial, x).Some?)
              ==> r[b] == MoveTarget(repo, nodeOf, all, initial, x).value
    decreases |rest|
  {
    if rest == [] then cur
    else
      var p := rest[0];
      var t := MoveTarget(repo, nodeOf, all, initial, p);
      var next := MoveOne(cur, active, nodeOf(p), t);
      DistinctTail(rest);
      var r := MoveAll(repo, nodeOf, all, rest[1..], initial, next, active);
      // a bookmark moved at p now sits on a live changeset and stays there
      forall b | b in cur && active != Some(b) && cur[b] == nodeOf(p) && t.Some?
        ensures r[b] == t.value
      {
        assert next[b] == t.value;
        forall x | x in rest[1..] ensures next[b] != nodeOf(x) {
          TargetNotPruned(repo, nodeOf, all, initial, p, x);
        }
      }
      r
  }

  datatype PruneOutcome = PruneOutcome(
    relations: seq<(Rev, seq<Rev>)>,  // precursor and its successors, handed to createmarkers
    update: Option<Rev>,              // new working directory parent, if the old one got pruned
    marks: Bookmarks)                 // bookmarks after the moves

  /** The working directory move of `cmdprune`: when the working directory
      parent is obsolete once the markers exist, its nearest live
      first-parent ancestor; otherwise no move. */
  function PruneUpdate(repo: Repo, precs: seq<Rev>, wdp: Rev): (u: Option<Rev>)
    requires WellFormed(repo) && NullRev <= wdp && NullRev !in precs
    ensures u.None? <==> !ObsoleteAfter(repo, precs, wdp)
    ensures u.Some? ==>
              && P1Ancestor(repo, wdp, u.value)
              && !ObsoleteAfter(repo, precs, u.value)
              && forall x :: u.value < x && P1Ancestor(repo, wdp, x) ==> ObsoleteAfter(repo, precs, x)
  {
    var live := LiveParent(repo, precs, wdp);
    if live != wdp then Some(live) else None
  }

  /** The bookmark moves of `cmdprune`: bookmarks (other than the active
      one) on a pruned changeset move to its highest live ancestor when it
      has one; all other bookmarks stay put. */
  function PruneBookmarks(repo: Repo, nodeOf: Rev -> Node, precs: seq<Rev>, marks: Bookmarks,
                          active: Option<string>): (after: Bookmarks)
    requires Injective(nodeOf) && Distinct(precs)
    ensures forall b :: b in after ==> b in marks || active == Some(b)
    ensures forall b :: b in marks ==> b in after
    ensures forall b :: (b in marks && active != Some(b) && forall x :: x in precs ==> marks[b] != nodeOf(x))
              ==> after[b] == marks[b]
    ensures forall b, x :: (&& b in marks && active != Some(b) && x in precs && marks[b] == nodeOf(x)
                            && HighestLiveAncestor(repo, precs, x).Some?)
              ==> after[b] == nodeOf(HighestLiveAncestor(repo, precs, x).value)
    ensures forall b, x :: (&& b in marks && active != Some(b) && x in precs && marks[b] == nodeOf(x)
                            && HighestLiveAncestor(repo, precs, x).None?)
              ==> after[b] == marks[b]
  {
    var after := MoveAll(repo, nodeOf, precs, precs, marks, marks, active);
    forall b, x | && b in marks && active != Some(b) && x in precs && marks[b] == nodeOf(x)
                  && HighestLiveAncestor(repo, precs, x).Some?
      ensures after[b] == nodeOf(HighestLiveAncestor(repo, precs, x).value)
    {
      assert b in NodeBookmarks(marks, nodeOf(x));
      assert MoveTarget(repo, nodeOf, precs, marks, x) == Some(nodeOf(HighestLiveAncestor(repo, precs, x).value));
    }
    forall b, x | && b in marks && active != Some(b) && x in precs && marks[b] == nodeOf(x)
                  && HighestLiveAncestor(repo, precs, x).None?
      ensures after[b] == marks[b]
    {
      NoTarget(repo, nodeOf, precs, marks, b, x);
    }
    after
  }

  /** A bookmark on a pruned changeset without live ancestor has no move target. */
  lemma NoTarget(repo: Repo, nodeOf: Rev -> Node, precs: seq<Rev>, marks: Bookmarks, b: string, x: Rev)
    requires Injective(nodeOf)
    requires b in marks && x in precs && marks[b] == nodeOf(x) && HighestLiveAncestor(repo, precs, x).None?
    ensures forall y :: y in precs && marks[b] == nodeOf(y) ==> MoveTarget(repo, nodeOf, precs, marks, y).None?
  {
    forall y | y in precs && marks[b] == nodeOf(y)
      ensures MoveTarget(repo, nodeOf, precs, marks, y).None?
    {
      assert y == x;
    }
  }

  /** The validation of `cmdprune`, in the order the source performs it:
      something to prune, every precursor mutable (the first public one in
      ascending order is reported), then the successor count rules. Yields
      the sorted precursors and successors. */
  function PruneCheck(repo: Repo, revs: seq<Rev>, succs: seq<Rev>, biject: bool)
    : (r: Result<(seq<Rev>, seq<Rev>)>)
    ensures r == Err(NothingToPrune) <==> revs == []
    ensures r.Err? && r.error.PruneImmutable? ==>
              && r.error.rev in revs
              && repo.phase(r.error.rev) == Public
              && forall x :: x in revs && x < r.error.rev ==> repo.phase(x) != Public
    ensures revs != [] && (exists x :: x in revs && repo.phase(x) == Public) ==>
              r.Err? && r.error.PruneImmutable?
    ensures r == Err(MultipleSuccessorsForMultiple) <==>
              && revs != [] && (forall x :: x in revs ==> repo.phase(x) != Public)
              && !biject && |SortedRevs(succs)| > 1 && |SortedRevs(revs)| > 1
    ensures (r.Err? && r.error.BijectSizeMismatch?) <==>
              && revs != [] && (forall x :: x in revs ==> repo.phase(x) != Public)
              && biject && |SortedRevs(succs)| != |SortedRevs(revs)|
    ensures r.Ok? ==> r.value == (SortedRevs(revs), SortedRevs(succs))
  {
    if revs == [] then Err(NothingToPrune)
    else
      var precs := SortedRevs(revs);
      var immutable := FirstImmutable(repo, precs);
      FirstImmutableOfRevs(repo, revs);
      if immutable.Some? then
        Err(PruneImmutable(immutable.value))
      else
        var sucs := SortedRevs(succs);
        if !biject && |sucs| > 1 && |precs| > 1 then Err(MultipleSuccessorsForMultiple)
        else if biject && |sucs| != |precs| then Err(BijectSizeMismatch(|sucs|, |precs|))
        else Ok((precs, sucs))
  }

  /** `cmdprune` from the revisions to prune onwards (the --bookmark
      selection is not part of this model): after validation, every
      requested revision is pruned exactly once, in ascending order; the
      working directory and the bookmarks move off the pruned changesets. */
  function Prune(repo: Repo, nodeOf: Rev -> Node, revs: seq<Rev>, succs: seq<Rev>, biject: bool,
                 wdp: Rev, marks: Bookmarks, active: Option<string>): (r: Result<PruneOutcome>)
    requires WellFormed(repo) && Injective(nodeOf)
    requires forall x :: x in revs ==> NullRev <= x
    requires NullRev <= wdp
    ensures r.Err? <==> PruneCheck(repo, revs, succs, biject).Err?
    ensures r.Err? ==> r.error == PruneCheck(repo, revs, succs, biject).error
    ensures r.Ok? ==> Firsts(r.value.relations) == SortedRevs(revs)
    // without --biject every precursor gets all the successors, sorted and
    // each once, of which there is at most one unless there is a single precursor
    ensures r.Ok? && !biject ==>
              forall i :: 0 <= i < |r.value.relations| ==>
                && r.value.relations[i].1 == SortedRevs(succs)
                && (forall x :: x in r.value.relations[i].1 <==> x in succs)
                && (|r.value.relations[i].1| <= 1 || |r.value.relations| == 1)
    // with --biject the i-th smallest precursor gets the i-th smallest successor
    ensures r.Ok? && biject ==>
              && |r.value.relations| == |SortedRevs(succs)|
              && forall i :: 0 <= i < |r.value.relations| ==>
                   r.value.relations[i].1 == [SortedRevs(succs)[i]]
    ensures r.Ok? ==> r.value.update == PruneUpdate(repo, SortedRevs(revs), wdp)
    ensures r.Ok? ==> r.value.marks == PruneBookmarks(repo, nodeOf, SortedRevs(revs), marks, active)
  {
    var (precs, sucs) :- PruneCheck(repo, revs, succs, biject);
    assert NullRev !in precs by {
      assert forall x :: x in precs ==> repo.phase(x) != Public;
    }
    CheckedRelations(repo, revs, succs, biject);
    Ok(PruneOutcome(Relations(precs, sucs, biject), PruneUpdate(repo, precs, wdp),
                    PruneBookmarks(repo, nodeOf, precs, marks, active)))
  }

  /** The successor count rules of `cmdprune` are what make its relations
      well-shaped: without --biject a precursor gets several successors only
      when it is the only precursor, with --biject the counts match. */
  lemma CheckedRelations(repo: Repo, revs: seq<Rev>, succs: seq<Rev>, biject: bool)
    requires PruneCheck(repo, revs, succs, biject).Ok?
    ensures biject ==> |SortedRevs(succs)| == |SortedRevs(revs)|
    ensures var rel := Relations(SortedRevs(revs), SortedRevs(succs), biject);
            && Firsts(rel) == SortedRevs(revs)
            && (!biject ==>
                  forall i :: 0 <= i < |rel| ==>
                    && rel[i].1 == SortedRevs(succs)
                    && (forall x :: x in rel[i].1 <==> x in succs)
                    && (|rel[i].1| <= 1 || |rel| == 1))
            && (biject ==> |rel| == |SortedRevs(succs)| && forall i :: 0 <= i < |rel| ==> rel[i].1 == [SortedRevs(succs)[i]])
  {
    CheckedCounts(repo, revs, succs, biject);
    RelationsShape(SortedRevs(revs), succs, biject);
  }

  /** What passing the checks says about the counts. */
  lemma CheckedCounts(repo: Repo, revs: seq<Rev>, succs: seq<Rev>, biject: bool)
    requires PruneCheck(repo, revs, succs, biject).Ok?
    ensures |SortedRevs(revs)| >= 1
    ensures biject ==> |SortedRevs(succs)| == |SortedRevs(revs)|
    ensures !biject ==> |SortedRevs(succs)| <= 1 || |SortedRevs(revs)| == 1
  {
    assert revs[0] in SortedRevs(revs);
  }

  /** The relations built from well-counted precursors and successors. */
  lemma RelationsShape(precs: seq<Rev>, succs: seq<Rev>, biject: bool)
    requires biject ==> |SortedRevs(succs)| == |precs|
    requires !biject ==> |SortedRevs(succs)| <= 1 || |precs| == 1
    ensures var rel := Relations(precs, SortedRevs(succs), biject);
            && Firsts(rel) == precs
            && (!biject ==>
                  forall i :: 0 <= i < |rel| ==>
                    && rel[i].1 == SortedRevs(succs)
                    && (forall x :: x in rel[i].1 <==> x in succs)
                    && (|rel[i].1| <= 1 || |rel| == 1))
            && (biject ==> |rel| == |SortedRevs(succs)| && forall i :: 0 <= i < |rel| ==> rel[i].1 == [SortedRevs(succs)[i]])
  {
    var rel := Relations(precs, SortedRevs(succs), biject);
    assert Firsts(rel) == precs;
  }

  function Firsts(relations: seq<(Rev, seq<Rev>)>): (ps: seq<Rev>)
    ensures |ps| == |relations|
    ensures forall i :: 0 <= i < |ps| ==> ps[i] == relations[i].0
  {
    seq(|relations|, i requires 0 <= i < |relations| => relations[i].0)
  }

  /** The relations of `cmdprune`: every precursor with all the successors,
      or with --biject the precursors and successors paired in order. */
  function Relations(precs: seq<Rev>, sucs: seq<Rev>, biject: bool): (rel: seq<(Rev, seq<Rev>)>)
    requires biject ==> |sucs| == |precs|
    ensures |rel| == |precs|
    ensures forall i :: 0 <= i < |rel| ==> rel[i].0 == precs[i]
    ensures forall i :: 0 <= i < |rel| ==> rel[i].1 == if biject then [sucs[i]] else sucs
  {
    if biject then seq(|precs|, i requires 0 <= i < |precs| => (precs[i], [sucs[i]]))
    else seq(|precs|, i requires 0 <= i < |precs| => (precs[i], sucs))
  }
}

=== FILE: rewrite.dfy ===
/** The rewrite primitives of the extension: which files a rewritten
    changeset records and with which message and user (`rewrite`), how
    bookmarks follow a rewritten changeset (`_bookmarksupdater`), and what a
    relocation leaves behind (`relocate`). Committing and rebasing are done
    by Mercurial; their results enter as parameters. */
module Rewrite {
  import opened Types

  type Path = string

  /** A file revision as a manifest holds it: its file node, its content
      and its flags ('l' symlink, 'x' executable). */
  datatype FileRev = FileRev(filenode: Node, data: string, flags: string)

  type Manifest = map<Path, FileRev>

  // ---------------------------------------------------------------------
  // rewrite: files
  // ---------------------------------------------------------------------

  /** The `samefile` test of `rewrite`: the version in `head` is the one in
      `base` (same content and flags), or the file is absent from both. */
  predicate SameFile(head: Manifest, base: Manifest, f: Path) {
    if f in head then
      if f in base then head[f].data == base[f].data && head[f].flags == base[f].flags
      else false
    else f !in base
  }

  /** Whether `head` really changes `f` with respect to `base`: added,
      removed, or a different content or flags. */
  ghost predicate Changes(head: Manifest, base: Manifest, f: Path) {
    || (f in head) != (f in base)
    || (f in head && f in base && (head[f].data != base[f].data || head[f].flags != base[f].flags))
  }

  /** The files the rewritten changeset records: those touched by the old
      changeset or by one of the updates, minus the ones `head` reverts to
      their `base` version. */
  function RewriteFiles(oldFiles: set<Path>, updates: seq<set<Path>>, head: Manifest, base: Manifest)
    : (files: set<Path>)
    ensures forall f :: f in files <==>
              (f in oldFiles || exists i :: 0 <= i < |updates| && f in updates[i])
              && Changes(head, base, f)
  {
    var touched := oldFiles + Union(updates);
    set f | f in touched && !SameFile(head, base, f)
  }

  function Union(updates: seq<set<Path>>): (u: set<Path>)
    ensures forall f :: f in u <==> exists i :: 0 <= i < |updates| && f in updates[i]
  {
    if updates == [] then {}
    else
      var rest := Union(updates[1..]);
      assert forall f :: f in rest <==> exists i :: 1 <= i < |updates| && f in updates[i] by {
        forall f | f in rest ensures exists i :: 1 <= i < |updates| && f in updates[i] {
          var j :| 0 <= j < |updates[1..]| && f in updates[1..][j];
          assert f in updates[j + 1];
        }
        forall f | exists i :: 1 <= i < |updates| && f in updates[i] ensures f in rest {
          var j :| 1 <= j < |updates| && f in updates[j];
          assert updates[1..][j - 1] == updates[j];
        }
      }
      updates[0] + rest
  }

  /** `touch` rewrites a changeset onto itself (no updates, `head` is the
      changeset): when the old changeset's files are exactly the paths it
      changes with respect to its parent, the rewrite records the same
      files. */
  lemma SelfRewriteKeepsFiles(oldFiles: set<Path>, head: Manifest, base: Manifest)
    requires forall f :: f in oldFiles <==> Changes(head, base, f)
    ensures RewriteFiles(oldFiles, [], head, base) == oldFiles
  {
  }

  // ---------------------------------------------------------------------
  // rewrite: options and the commit request
  // ---------------------------------------------------------------------

  /** The commit options `rewrite` reads; the empty string stands for an
      option that is unset (Python's falsy value). */
  datatype CommitOpts = CommitOpts(
    message: string,
    logfile: string,
    user: string,
    date: string,
    extra: map<string, string>)

  /** Where the new description comes from; reading a log file is I/O and
      stays outside the model. */
  datatype MessageSource = FromLogfile(path: string) | Text(text: string)

  /** What the old changeset contributes to a rewrite. */
  datatype OldCtx = OldCtx(
    parentCount: nat,
    files: set<Path>,
    description: string,
    user: string)

  /** The in-memory changeset `rewrite` hands to `commitctx`. */
  datatype CommitRequest = CommitRequest(
    parents: seq<Node>,
    message: MessageSource,
    user: string,
    date: Option<string>,
    files: set<Path>,
    extra: map<string, string>)

  /** `rewrite` up to the commit: the merge restriction, the file filter,
      the message/user/date choice and the branch of `head`. */
  function PlanRewrite(prior: OldCtx, updates: seq<set<Path>>, head: Manifest, headBranch: string,
                       base: Manifest, newbases: seq<Node>, opts: CommitOpts)
    : (r: Result<CommitRequest>)
    ensures prior.parentCount > 1 ==> r == Err(CannotAmendMerge)
    ensures (prior.parentCount <= 1 && opts.message != "" && opts.logfile != "")
              ==> r == Err(MessageAndLogfile)
    ensures r.Ok? <==> prior.parentCount <= 1 && (opts.message == "" || opts.logfile == "")
    ensures r.Ok? ==>
      && r.value.parents == newbases
      && r.value.files == RewriteFiles(prior.files, updates, head, base)
      && (opts.logfile != "" ==> r.value.message == FromLogfile(opts.logfile))
      && (opts.logfile == "" && opts.message != "" ==> r.value.message == Text(opts.message))
      && (opts.logfile == "" && opts.message == "" ==> r.value.message == Text(prior.description))
      && (opts.user != "" ==> r.value.user == opts.user)
      && (opts.user == "" ==> r.value.user == prior.user)
      && (r.value.date.Some? <==> opts.date != "")
      && "branch" in r.value.extra && r.value.extra["branch"] == headBranch
      && forall k :: k in opts.extra && k != "branch" ==> k in r.value.extra && r.value.extra[k] == opts.extra[k]
  {
    if prior.parentCount > 1 then Err(CannotAmendMerge)
    else
      var files := RewriteFiles(prior.files, updates, head, base);
      if opts.message != "" && opts.logfile != "" then Err(MessageAndLogfile)
      else
        var message :=
          if opts.logfile != "" then FromLogfile(opts.logfile)
          else if opts.message != "" then Text(opts.message)
          else Text(prior.description);
        var user := if opts.user != "" then opts.user else prior.user;
        var date := if opts.date != "" then Some(opts.date) else None;
        Ok(CommitRequest(newbases, message, user, date, files, opts.extra["branch" := headBranch]))
  }

  /** After `commitctx`: the rewrite "created" a changeset exactly when the
      repository grew; the bookmarks follow the new node either way. */
  function FinishRewrite(oldid: Node, newid: Node, lenBefore: nat, lenAfter: nat,
                         marks: Bookmarks, active: Option<string>)
    : (r: (Node, bool, Bookmarks))
    ensures r.0 == newid
    ensures r.1 <==> lenAfter != lenBefore
    ensures forall b :: b in marks && marks[b] == oldid ==> b in r.2 && r.2[b] == newid
    ensures active.Some? ==> active.value in r.2 && r.2[active.value] == newid
    ensures forall b :: b in marks && marks[b] != oldid && active != Some(b) ==> b in r.2 && r.2[b] == marks[b]
    ensures forall b :: b in r.2 ==> b in marks || active == Some(b)
  {
    (newid, lenAfter != lenBefore, UpdateBookmarks(marks, active, oldid, newid).0)
  }

  // ---------------------------------------------------------------------
  // _bookmarksupdater
  // ---------------------------------------------------------------------

  /** The callable `_bookmarksupdater(repo, oldid)` returns, applied to
      `newid`: the active bookmark and every bookmark on `oldid` move to
      `newid`; the second component says whether the store is written. */
  function UpdateBookmarks(marks: Bookmarks, active: Option<string>, oldid: Node, newid: Node)
    : (r: (Bookmarks, bool))
    ensures forall b :: b in marks && marks[b] == oldid ==> b in r.0 && r.0[b] == newid
    ensures active.Some? ==> active.value in r.0 && r.0[active.value] == newid
    ensures forall b :: b in marks && marks[b] != oldid && active != Some(b)
              ==> b in r.0 && r.0[b] == marks[b]
    ensures forall b :: b in r.0 ==> b in marks || active == Some(b)
    ensures r.1 <==> active.Some? || exists b :: b in marks && marks[b] == oldid
  {
    var afterActive := if active.Some? then marks[active.value := newid] else marks;
    var oldbookmarks := NodeBookmarks(afterActive, oldid);
    var moved := map b | b in afterActive :: if b in oldbookmarks then newid else afterActive[b];
    var dirty := active.Some? || oldbookmarks != {};
    assert (exists b :: b in marks && marks[b] == oldid) ==> dirty by {
      if b :| b in marks && marks[b] == oldid {
        if active != Some(b) {
          assert b in oldbookmarks;
        }
      }
    }
    (moved, dirty)
  }

  /** Applying the updater twice is applying it once. */
  lemma {:induction false} UpdateBookmarksIdempotent(marks: Bookmarks, active: Option<string>, oldid: Node, newid: Node)
    ensures var once := UpdateBookmarks(marks, active, oldid, newid).0;
            UpdateBookmarks(once, active, oldid, newid).0 == once
  {
    var once := UpdateBookmarks(marks, active, oldid, newid).0;
    var twice := UpdateBookmarks(once, active, oldid, newid).0;
    forall b | b in once
      ensures b in twice && twice[b] == once[b]
    {
      if b in marks && marks[b] == oldid {
      } else if active == Some(b) {
      } else {
        assert once[b] == marks[b];
      }
    }
    assert twice.Keys == once.Keys;
  }

  // ---------------------------------------------------------------------
  // relocate
  // ---------------------------------------------------------------------

  /** What relocate needs to know about a changeset. */
  datatype Ctx = Ctx(rev: Rev, node: Node, p2: Rev, phase: Phase)

  /** What the rebase machinery reports: whether the merge left conflicts,
      the node `concludenode` produced (none when nothing changed) and the
      bookmarks as the rebase left them. */
  datatype RebaseOutcome = RebaseOutcome(conflict: bool, nodenew: Option<Node>, marks: Bookmarks)

  /** What relocate leaves behind. */
  datatype Relocated = Relocated(
    nodenew: Option<Node>,
    relation: Relation,
    retract: Option<(Phase, Node)>,
    marks: Bookmarks,
    written: bool)

  /** `relocate(repo, orig, dest)`: refuses a node onto itself and merges,
      reports rebase conflicts as a merge failure, then records `orig` as
      replaced by the new node (or pruned when the rebase produced nothing)
      and moves bookmarks. */
  function Relocate(orig: Ctx, dest: Ctx, marksBefore: Bookmarks, rebase: RebaseOutcome)
    : (r: Result<Relocated>)
    ensures orig.rev == dest.rev ==> r == Err(RelocateOnItself)
    ensures orig.rev != dest.rev && orig.p2 != NullRev ==> r == Err(RelocateMerge)
    ensures r.Err? <==> orig.rev == dest.rev || orig.p2 != NullRev || rebase.conflict
    ensures r.Ok? ==> r.value.nodenew == rebase.nodenew
    ensures r.Ok? && rebase.nodenew.Some? ==>
      && r.value.relation == Relation(orig.node, [rebase.nodenew.value], 0)
      && r.value.retract == Some((orig.phase, rebase.nodenew.value))
    ensures r.Ok? && rebase.nodenew.None? ==>
      && r.value.relation == Relation(orig.node, [], 0)
      && r.value.retract == None
    ensures r.Ok? ==> forall b ::
              (b in marksBefore && marksBefore[b] == dest.node)
              ==> b in r.value.marks && r.value.marks[b] == dest.node
    ensures r.Ok? ==> forall b ::
              (b in rebase.marks && rebase.marks[b] == orig.node
               && !(b in marksBefore && marksBefore[b] == dest.node))
              ==> b in r.value.marks
                  && r.value.marks[b] == (if rebase.nodenew.Some? then rebase.nodenew.value else dest.node)
    ensures r.Ok? ==> forall b ::
              (b in rebase.marks && rebase.marks[b] != orig.node
               && !(b in marksBefore && marksBefore[b] == dest.node))
              ==> b in r.value.marks && r.value.marks[b] == rebase.marks[b]
    ensures r.Ok? ==> (r.value.written <==>
              NodeBookmarks(rebase.marks, orig.node) != {} || NodeBookmarks(marksBefore, dest.node) != {})
  {
    if orig.rev == dest.rev then Err(RelocateOnItself)
    else if orig.p2 != NullRev then Err(RelocateMerge)
    else
      var destbookmarks := NodeBookmarks(marksBefore, dest.node);
      if rebase.conflict then Err(MergeFailure)
      else
        var oldbookmarks := NodeBookmarks(rebase.marks, orig.node);
        var target := if rebase.nodenew.Some? then rebase.nodenew.value else dest.node;
        var relation := if rebase.nodenew.Some? then Relation(orig.node, [rebase.nodenew.value], 0)
                        else Relation(orig.node, [], 0);
        var retract := if rebase.nodenew.Some? then Some((orig.phase, rebase.nodenew.value)) else None;
        var moved := SetAll(rebase.marks, oldbookmarks, target);
        var restored := SetAll(moved, destbookmarks, dest.node);
        Ok(Relocated(rebase.nodenew, relation, retract, restored,
                     oldbookmarks != {} || destbookmarks != {}))
  }

  /** `for book in names: marks[book] = n`. */
  function SetAll(marks: Bookmarks, names: set<string>, n: Node): (r: Bookmarks)
    ensures r.Keys == marks.Keys + names
    ensures forall b :: b in names ==> r[b] == n
    ensures forall b :: b in marks && b !in names ==> r[b] == marks[b]
  {
    map b | b in marks.Keys + names :: if b in names then n else marks[b]
  }
}

=== FILE: solve.dfy ===
/** The decision parts of the three repairs `evolve` performs: where an
    unstable changeset goes (`_solveunstable`), what fixing a bumped
    changeset commits and records (`_solvebumped`), and when a divergent
    changeset can be merged with its rival (`_solvedivergent`,
    `divergentdata`). Merging, committing and `successorssets` are
    Mercurial's; their results enter through `Repo` or as parameters. */
module Solve {
  import opened Types
  import opened Rewrite

  // ---------------------------------------------------------------------
  // _solveunstable
  // ---------------------------------------------------------------------

  /** A successors-set list that offers no living changeset: empty (the
      changeset was pruned) or the single empty set. */
  predicate Dead(sets: seq<seq<Rev>>) {
    sets == [] || sets == [[]]
  }

  /** The parent of an unstable changeset that `_solveunstable` starts
      from: the first parent when it is obsolete, else the second. A
      changeset with no obsolete parent makes the source fail (an index
      error or an assertion). */
  function ObsoleteParent(repo: Repo, orig: Rev): (r: Result<Rev>)
    ensures r.Ok? ==> repo.obsolete(r.value)
    ensures repo.obsolete(repo.p1(orig)) ==> r == Ok(repo.p1(orig))
    ensures r.Ok? && r.value != repo.p1(orig) ==> r.value == repo.p2(orig) && repo.p2(orig) != NullRev
    ensures r.Err? <==>
              !repo.obsolete(repo.p1(orig)) && (repo.p2(orig) == NullRev || !repo.obsolete(repo.p2(orig)))
  {
    var ps := repo.Parents(orig);
    if repo.obsolete(ps[0]) then Ok(ps[0])
    else if |ps| < 2 then Err(NoObsoleteParent)
    else if repo.obsolete(ps[1]) then Ok(ps[1])
    else Err(NoObsoleteParent)
  }

  /** The climb of `_solveunstable`: from `obs`, follow first parents while
      the successors sets are dead. The result is the nearest first-parent
      ancestor (or `obs` itself) with a living successors set. */
  function Climb(repo: Repo, obs: Rev): (r: Rev)
    requires WellFormed(repo) && NullRev <= obs
    decreases obs + 1
    ensures NullRev <= r <= obs
    ensures P1Ancestor(repo, obs, r)
    ensures !Dead(repo.successorsSets(r))
    ensures forall x :: r < x && P1Ancestor(repo, obs, x) ==> Dead(repo.successorsSets(x))
  {
    if !Dead(repo.successorsSets(obs)) then
      assert forall x :: P1Ancestor(repo, obs, x) ==> x <= obs by {
        forall x | P1Ancestor(repo, obs, x) ensures x <= obs {
          P1AncestorBelow(repo, obs, x);
        }
      }
      obs
    else
      assert obs != NullRev;
      var r := Climb(repo, repo.p1(obs));
      assert forall x :: r < x && P1Ancestor(repo, obs, x) ==> x == obs || P1Ancestor(repo, repo.p1(obs), x);
      r
  }

  /** Destination of an unstable changeset: the single node of the single
      successors set of the nearest living first-parent ancestor of its
      obsolete parent. Several successors sets, or a split (a set of several
      nodes), abort. */
  function UnstableDestination(repo: Repo, orig: Rev): (r: Result<Rev>)
    requires WellFormed(repo) && 0 <= orig
    ensures ObsoleteParent(repo, orig).Err? ==> r == ObsoleteParent(repo, orig)
    ensures ObsoleteParent(repo, orig).Ok? ==>
      var living := repo.successorsSets(Climb(repo, ObsoleteParent(repo, orig).value));
      && (r == Err(CannotChooseDestination) <==> |living| > 1)
      && (r == Err(SplitParents) <==> |living| == 1 && |living[0]| > 1)
      && (r.Ok? <==> |living| == 1 && |living[0]| == 1)
      && (r.Ok? ==> living == [[r.value]])
  {
    var obs :- ObsoleteParent(repo, orig);
    assert NullRev <= repo.p1(orig) && NullRev <= repo.p2(orig);
    var newer := repo.successorsSets(Climb(repo, obs));
    if |newer| > 1 then Err(CannotChooseDestination)
    else
      var targets := newer[0];
      if |targets| > 1 then Err(SplitParents)
      else
        assert |targets| == 1 && newer == [targets] && targets == [targets[0]];
        Ok(targets[0])
  }

  // ---------------------------------------------------------------------
  // _solvebumped
  // ---------------------------------------------------------------------

  /** Index of the last public revision of `revs`, if any. */
  function LastPublic(repo: Repo, revs: seq<Rev>): (r: Option<nat>)
    ensures r.Some? ==> r.value < |revs| && repo.phase(revs[r.value]) == Public
                        && forall j :: r.value < j < |revs| ==> repo.phase(revs[j]) != Public
    ensures r.None? ==> forall j :: 0 <= j < |revs| ==> repo.phase(revs[j]) != Public
  {
    if revs == [] then None
    else if repo.phase(revs[|revs| - 1]) == Public then Some(|revs| - 1)
    else LastPublic(repo, revs[..|revs| - 1])
  }

  /** The public precursor a bumped changeset is recreated on:
      `last(allprecursors(bumped) and public())`, refusing merges on
      either side. `allprecs` holds the revisions `_allprecursors` finds, in
      any order; the revset yields them in ascending order, so the last
      public one is the highest. */
  function BumpedPrecursor(repo: Repo, bumped: Rev, allprecs: seq<Rev>): (r: Result<Rev>)
    ensures repo.p2(bumped) != NullRev ==> r == Err(BumpedIsMerge)
    ensures r == Err(NoPublicPrecursor) <==>
              repo.p2(bumped) == NullRev && forall p :: p in allprecs ==> repo.phase(p) != Public
    ensures r.Ok? ==>
      && r.value in allprecs && repo.phase(r.value) == Public
      && (forall p :: p in allprecs && repo.phase(p) == Public ==> p <= r.value)
      && repo.p2(bumped) == NullRev && repo.p2(r.value) == NullRev
    ensures r == Err(PrecursorIsMerge) <==>
              && repo.p2(bumped) == NullRev
              && exists p :: && p in allprecs && repo.phase(p) == Public && repo.p2(p) != NullRev
                             && forall q :: q in allprecs && repo.phase(q) == Public ==> q <= p
  {
    if |repo.Parents(bumped)| > 1 then Err(BumpedIsMerge)
    else
      var revset := SortedRevs(allprecs);
      var last := LastPublic(repo, revset);
      if last.None? then
        assert forall p :: p in allprecs ==> repo.phase(p) != Public by {
          forall p | p in allprecs ensures repo.phase(p) != Public {
            var j :| 0 <= j < |revset| && revset[j] == p;
          }
        }
        Err(NoPublicPrecursor)
      else
        var prec := revset[last.value];
        LastPublicIsHighest(repo, revset, last.value);
        if |repo.Parents(prec)| > 1 then Err(PrecursorIsMerge)
        else
          assert forall p :: && p in allprecs && repo.phase(p) == Public
                             && (forall q :: q in allprecs && repo.phase(q) == Public ==> q <= p)
                             ==> p == prec;
          Ok(prec)
  }

  /** In an ascending revset, the last public revision is the highest
      public one. */
  lemma LastPublicIsHighest(repo: Repo, revset: seq<Rev>, k: nat)
    requires StrictlyIncreasing(revset) && k < |revset| && repo.phase(revset[k]) == Public
    requires forall j :: k < j < |revset| ==> repo.phase(revset[j]) != Public
    ensures forall p :: p in revset && repo.phase(p) == Public ==> p <= revset[k]
  {
  }

  /** Manifest difference as `_solvebumped` computes it: walking the bumped
      manifest, a path is kept when popping it from the precursor's manifest
      does not give the same file node; the paths left in the precursor's
      manifest are added. Flags are not part of what is compared. */
  function BumpedDiffAsWritten(prec: Manifest, bumped: Manifest): (files: set<Path>)
    ensures forall f :: f in files <==>
              || (f in bumped && f !in prec)
              || (f in prec && f !in bumped)
              || (f in bumped && f in prec && bumped[f].filenode != prec[f].filenode)
  {
    var changed := set f | f in bumped && (f !in prec || prec[f].filenode != bumped[f].filenode);
    var missing := set f | f in prec && f !in bumped;
    changed + missing
  }

  /** The manifests disagree only in the flags of one file: the diff as
      written finds nothing, so no commit is made and the flag change is
      lost (the marker prunes the bumped changeset onto its precursor). */
  lemma FlagOnlyChangeMissed()
    ensures var prec := map["f" := FileRev(7, "x", "")];
            var bumped := map["f" := FileRev(7, "x", "x")];
            && prec != bumped
            && BumpedDiffAsWritten(prec, bumped) == {}
  {
    var prec := map["f" := FileRev(7, "x", "")];
    var bumped := map["f" := FileRev(7, "x", "x")];
    assert prec["f"] != bumped["f"];
    assert forall f :: f in BumpedDiffAsWritten(prec, bumped) ==> f == "f";
  }

  /** A manifest entry as far as the commit is concerned: file node and
      flags (the content is determined by the file node). */
  predicate SameEntry(a: FileRev, b: FileRev) {
    a.filenode == b.filenode && a.flags == b.flags
  }

  /** The manifest difference with flags compared too. */
  function BumpedDiff(prec: Manifest, bumped: Manifest): (files: set<Path>)
    ensures BumpedDiffAsWritten(prec, bumped) <= files
    ensures forall f :: f in files <==>
              || (f in bumped && f !in prec)
              || (f in prec && f !in bumped)
              || (f in bumped && f in prec && !SameEntry(bumped[f], prec[f]))
  {
    var changed := set f | f in bumped && (f !in prec || !SameEntry(prec[f], bumped[f]));
    var missing := set f | f in prec && f !in bumped;
    changed + missing
  }

  /** The corrected difference is empty exactly when both manifests hold the
      same paths with the same file nodes and flags. */
  lemma BumpedDiffEmptyIff(prec: Manifest, bumped: Manifest)
    ensures BumpedDiff(prec, bumped) == {} <==>
              && prec.Keys == bumped.Keys
              && forall f :: f in prec && f in bumped ==> SameEntry(prec[f], bumped[f])
  {
    forall f | f in prec && f !in bumped ensures f in BumpedDiff(prec, bumped) {}
    forall f | f in bumped && f !in prec ensures f in BumpedDiff(prec, bumped) {}
  }

  /** What fixing a bumped changeset produces. */
  datatype BumpedFixed = BumpedFixed(
    relocation: Option<Relocated>,
    relations: seq<Relation>,
    newid: Node,
    retract: Option<(Phase, Node)>,
    marks: Bookmarks)

  datatype BumpedResult = BumpedDryRun(prec: Rev) | BumpedDone(fixed: BumpedFixed)

  /** Everything `_solvebumped` consults: the bumped changeset and its
      public precursor, the changelog nodes, the bookmarks and what the
      foreign steps (rebase, commit) return. */
  datatype BumpedInput = BumpedInput(
    bumped: Rev,
    allprecs: seq<Rev>,
    nodeOf: Rev -> Node,
    marks: Bookmarks,
    active: Option<string>,
    rebase: RebaseOutcome,
    precManifest: Manifest,
    bumpedManifest: Manifest,
    committed: Node)

  /** `_solvebumped`: relocate onto the precursor's parent when the two
      share no parent, diff the manifests, commit the difference on top of
      the precursor and record the bumped-fix marker; with an empty
      difference nothing is committed and the changeset is pruned in favour
      of the precursor. */
  function SolveBumped(repo: Repo, inp: BumpedInput, dryrun: bool): (r: Result<BumpedResult>)
    ensures BumpedPrecursor(repo, inp.bumped, inp.allprecs).Err? ==>
              r.Err? && r.error == BumpedPrecursor(repo, inp.bumped, inp.allprecs).error
    ensures r.Ok? ==> BumpedPrecursor(repo, inp.bumped, inp.allprecs).Ok?
    ensures r.Ok? && dryrun ==> r.value == BumpedDryRun(BumpedPrecursor(repo, inp.bumped, inp.allprecs).value)
    ensures r.Ok? && !dryrun ==> r.value.BumpedDone?
    ensures BumpedPrecursor(repo, inp.bumped, inp.allprecs).Ok? && dryrun ==> r.Ok?
    ensures BumpedPrecursor(repo, inp.bumped, inp.allprecs).Ok? && !dryrun ==>
      var prec := BumpedPrecursor(repo, inp.bumped, inp.allprecs).value;
      var relocates := repo.ParentSet(inp.bumped) * repo.ParentSet(prec) == {};
      && (r.Err? <==> relocates && (inp.bumped == repo.p1(prec) || inp.rebase.conflict))
      && (r.Err? ==> r.error == if inp.bumped == repo.p1(prec) then RelocateOnItself else MergeFailure)
    ensures r.Ok? && r.value.BumpedDone? ==>
      var prec := BumpedPrecursor(repo, inp.bumped, inp.allprecs).value;
      var fixed := r.value.fixed;
      && (fixed.relocation.Some? <==> repo.ParentSet(inp.bumped) * repo.ParentSet(prec) == {})
      && BumpedFixedSpec(repo, inp, prec, if fixed.relocation.Some? then inp.rebase.nodenew else None, fixed)
  {
    var prec :- BumpedPrecursor(repo, inp.bumped, inp.allprecs);
    if dryrun then Ok(BumpedDryRun(prec))
    else
      var bnode := inp.nodeOf(inp.bumped);
      var relocation :=
        if repo.ParentSet(inp.bumped) * repo.ParentSet(prec) == {} then
          var orig := Ctx(inp.bumped, bnode, repo.p2(inp.bumped), repo.phase(inp.bumped));
          var dest := Ctx(repo.p1(prec), inp.nodeOf(repo.p1(prec)), repo.p2(repo.p1(prec)), repo.phase(repo.p1(prec)));
          Some(Relocate(orig, dest, inp.marks, inp.rebase))
        else None;
      if relocation.Some? && relocation.value.Err? then Err(relocation.value.error)
      else
        var relocated := if relocation.Some? then Some(relocation.value.value) else None;
        Ok(BumpedDone(FixBumped(repo, inp, prec, relocated)))
  }

  /** What fixing a bumped changeset leaves behind, given `relocatedNode`,
      the node the bumped changeset was rebased to (None when it was not
      relocated or the rebase created nothing): the last relation retires that
      node (or the bumped one) in favour of the commit of the diff, or prunes
      it when the diff is empty; the new changeset is that commit (or the
      precursor), it is retracted to the bumped changeset's phase, and the
      active bookmark — and, without relocation, every bookmark of the bumped
      changeset — moves to it. */
  ghost predicate BumpedFixedSpec(repo: Repo, inp: BumpedInput, prec: Rev, relocatedNode: Option<Node>, fixed: BumpedFixed) {
    var files := BumpedDiff(inp.precManifest, inp.bumpedManifest);
    && |fixed.relations| >= 1
    && var last := fixed.relations[|fixed.relations| - 1];
    && (files == {} ==>
          && fixed.newid == inp.nodeOf(prec)
          && last.succs == [] && last.flags == 0
          && fixed.retract == None)
    && (files != {} ==>
          && fixed.newid == inp.committed
          && last.succs == [inp.committed] && last.flags == BumpedFix
          && fixed.retract == Some((repo.phase(inp.bumped), inp.committed)))
    && last.prec == (if relocatedNode.Some? then relocatedNode.value else inp.nodeOf(inp.bumped))
    && (inp.active.Some? ==> inp.active.value in fixed.marks && fixed.marks[inp.active.value] == fixed.newid)
    && (fixed.relocation.None? ==> forall b ::
          (b in inp.marks && inp.marks[b] == inp.nodeOf(inp.bumped))
          ==> b in fixed.marks && fixed.marks[b] == fixed.newid)
  }

  /** The part of `_solvebumped` after the optional relocation: the diff is
      committed on top of the precursor with the bumped-fix marker, or, when
      empty, the (relocated) bumped changeset is pruned in favour of the
      precursor; the bookmarks then follow the new changeset. */
  function FixBumped(repo: Repo, inp: BumpedInput, prec: Rev, relocated: Option<Relocated>): (fixed: BumpedFixed)
    ensures fixed.relocation == relocated
    ensures BumpedFixedSpec(repo, inp, prec, if relocated.Some? then relocated.value.nodenew else None, fixed)
  {
    var bnode := inp.nodeOf(inp.bumped);
    var marksNow := if relocated.Some? then relocated.value.marks else inp.marks;
    var tmp := if relocated.Some? && relocated.value.nodenew.Some? then relocated.value.nodenew.value else bnode;
    var early := if relocated.Some? && relocated.value.nodenew.Some? then [Relation(bnode, [tmp], 0)] else [];
    var files := BumpedDiff(inp.precManifest, inp.bumpedManifest);
    var (final, newid, retract) :=
      if files == {} then (Relation(tmp, [], 0), inp.nodeOf(prec), None)
      else (Relation(tmp, [inp.committed], BumpedFix), inp.committed,
            Some((repo.phase(inp.bumped), inp.committed)));
    var marks := UpdateBookmarks(marksNow, inp.active, bnode, newid).0;
    BumpedFixed(relocated, early + [final], newid, retract, marks)
  }

  // ---------------------------------------------------------------------
  // divergentdata and _solvedivergent
  // ---------------------------------------------------------------------

  /** A successors set that offers a rival to `ctx`: non-empty and without `ctx`. */
  predicate IsRival(succset: seq<Rev>, ctx: Rev) {
    succset != [] && ctx !in succset
  }

  /** The successors sets of a precursor that offer a rival to `ctx`, in the
      order of `sets`. */
  function Rivals(sets: seq<seq<Rev>>, ctx: Rev): (r: seq<seq<Rev>>)
    ensures forall s :: s in r <==> s in sets && IsRival(s, ctx)
    ensures r != [] ==> exists i :: && 0 <= i < |sets| && sets[i] == r[0] && IsRival(sets[i], ctx)
                                    && forall j :: 0 <= j < i ==> !IsRival(sets[j], ctx)
  {
    if sets == [] then []
    else if IsRival(sets[0], ctx) then [sets[0]] + Rivals(sets[1..], ctx)
    else
      var r := Rivals(sets[1..], ctx);
      if r != [] then
        var i :| && 0 <= i < |sets[1..]| && sets[1..][i] == r[0] && IsRival(sets[1..][i], ctx)
                 && forall j :: 0 <= j < i ==> !IsRival(sets[1..][j], ctx);
        assert sets[i + 1] == sets[1..][i];
        assert forall j :: 0 <= j < i + 1 ==> !IsRival(sets[j], ctx) by {
          forall j | 0 <= j < i + 1 ensures !IsRival(sets[j], ctx) {
            if j > 0 { assert sets[j] == sets[1..][j - 1]; }
          }
        }
        r
      else r
  }

  /** No successors set of precursor `p` offers a rival to `ctx`. */
  predicate NoRival(repo: Repo, ctx: Rev, p: Rev) {
    Rivals(repo.successorsSets(p), ctx) == []
  }

  /** `divergentdata`: the precursors of `ctx` (`precs`, the revset
      `precursors(ctx)`, limited to the changelog) are scanned from the
      highest revision down; the first one with a rival successors set is
      the base, and its first rival set the other side. */
  function DivergentData(repo: Repo, ctx: Rev, precs: set<Rev>): (r: Result<(Rev, seq<Rev>)>)
    ensures r.Err? ==> r.error == BaseOfDivergentNotFound
    ensures r.Err? <==> forall p :: p in precs && 0 <= p < repo.size ==> NoRival(repo, ctx, p)
    ensures r.Ok? ==>
              && r.value.0 in precs && 0 <= r.value.0 < repo.size
              && Rivals(repo.successorsSets(r.value.0), ctx) != []
              && r.value.1 == Rivals(repo.successorsSets(r.value.0), ctx)[0]
              && forall p :: p in precs && r.value.0 < p < repo.size ==> NoRival(repo, ctx, p)
    ensures r.Ok? ==> IsRival(r.value.1, ctx) && r.value.1 in repo.successorsSets(r.value.0)
  {
    match DivergentBase(repo, ctx, precs, repo.size - 1)
    case None => Err(BaseOfDivergentNotFound)
    case Some(base) =>
      var rivals := Rivals(repo.successorsSets(base), ctx);
      assert rivals[0] in rivals;
      Ok((base, rivals[0]))
  }

  /** The scan of `divergentdata` over revisions `i`, `i - 1`, ..., 0: the
      highest precursor up to `i` with a rival successors set. */
  function DivergentBase(repo: Repo, ctx: Rev, precs: set<Rev>, i: int): (r: Option<Rev>)
    requires -1 <= i
    decreases i + 1
    ensures r.None? <==> forall p :: p in precs && 0 <= p <= i ==> NoRival(repo, ctx, p)
    ensures r.Some? ==>
              && r.value in precs && 0 <= r.value <= i && !NoRival(repo, ctx, r.value)
              && forall p :: p in precs && r.value < p <= i ==> NoRival(repo, ctx, p)
  {
    if i < 0 then None
    else if i in precs && !NoRival(repo, ctx, i) then Some(i)
    else DivergentBase(repo, ctx, precs, i - 1)
  }

  /** What resolving a divergence records. */
  datatype DivergentFixed = DivergentFixed(base: Rev, other: Rev, newRev: Rev, relation: (Rev, Rev), retract: (Phase, Rev))

  datatype DivergentResult = DivergentDryRun(base: Rev, other: Rev) | DivergentDone(fixed: DivergentFixed)

  /** `_solvedivergent`: refuses a rival that was split, a public divergent
      changeset, a merge rival and a rival on another parent; a merge that
      leaves unresolved files aborts. Otherwise the merge is amended into
      `divergent` (`amended` is the new revision, none when the amend made
      nothing) and the rival is marked as replaced by the result. */
  function SolveDivergent(repo: Repo, divergent: Rev, precs: set<Rev>, dryrun: bool,
                          unresolved: nat, amended: Option<Rev>): (r: Result<DivergentResult>)
    ensures DivergentData(repo, divergent, precs).Err? ==> r == Err(BaseOfDivergentNotFound)
    ensures r.Ok? ==> DivergentData(repo, divergent, precs).Ok?
    ensures DivergentData(repo, divergent, precs).Ok? ==>
      var others := DivergentData(repo, divergent, precs).value.1;
      var other := others[0];
      var mutable := |others| == 1 && repo.phase(divergent) != Public;
      var single := mutable && repo.p2(other) == NullRev;
      var common := single && repo.p1(other) in repo.Parents(divergent);
      && (|others| > 1 <==> r == Err(DivergentWithSplit))
      && (|others| == 1 && repo.phase(divergent) == Public <==> r == Err(DivergentPublic))
      && (mutable && repo.p2(other) != NullRev <==> r == Err(DivergentOtherIsMerge))
      && (single && repo.p1(other) !in repo.Parents(divergent) <==> r == Err(DivergentParentsNotCommon))
      && (common && !dryrun && unresolved > 0 <==> r == Err(DivergentMergeConflict))
      && (common && (dryrun || unresolved == 0) <==> r.Ok?)
    ensures r.Ok? && r.value.DivergentDone? ==>
      var other := DivergentData(repo, divergent, precs).value.1[0];
      var newRev := if amended.Some? then amended.value else divergent;
      r.value.fixed.relation == (other, newRev) && r.value.fixed.retract == (repo.phase(other), newRev)
    ensures r.Ok? ==> (r.value.DivergentDryRun? <==> dryrun)
  {
    var (base, others) :- DivergentData(repo, divergent, precs);
    if |others| > 1 then Err(DivergentWithSplit)
    else
      var other := others[0];
      if repo.phase(divergent).Level() <= Public.Level() then Err(DivergentPublic)
      else if |repo.Parents(other)| > 1 then Err(DivergentOtherIsMerge)
      else if repo.p1(other) !in repo.Parents(divergent) then Err(DivergentParentsNotCommon)
      else if dryrun then Ok(DivergentDryRun(base, other))
      else if unresolved > 0 then Err(DivergentMergeConflict)
      else
        var newRev := if amended.Some? then amended.value else divergent;
        Ok(DivergentDone(DivergentFixed(base, other, newRev, (other, newRev), (repo.phase(other), newRev))))
  }
}

=== FILE: touch.dfy ===
/** `hg touch`: give changesets a new identity (same content, new node),
    children after their parents so that touched children are recreated on
    top of their touched parents. */
module Touch {
  import opened Types
  import Rewrite

  /** `n` is the node of one of the touched revisions. */
  predicate IsTouched(nodeOf: Rev -> Node, revs: seq<Rev>, n: Node) {
    exists x :: x in revs && nodeOf(x) == n
  }

  /** The parent node a touched changeset is recreated on: the new version
      of the parent when the parent is touched too. `rewritten(n)` is the
      changeset `rewrite` creates for `n`. */
  function Remap(nodeOf: Rev -> Node, revs: seq<Rev>, rewritten: Node -> Node, n: Node): Node {
    if IsTouched(nodeOf, revs, n) then rewritten(n) else n
  }

  datatype Touched = Touched(
    order: seq<Rev>,               // revisions in the order they are touched
    parents: seq<(Node, Node)>,    // parents each new changeset is created on
    relations: seq<Relation>,      // markers old -> new (none with --duplicate)
    retracts: seq<(Phase, Node)>,  // phase of each new changeset
    wdParent: Option<Node>,        // new working directory parent, if it was touched
    marks: Bookmarks)              // bookmarks after every turn's `rewrite`

  datatype TouchOutcome = NothingToTouch | TouchDone(touched: Touched)

  /** A touched parent comes before its child in ascending order. */
  lemma ParentTouchedEarlier(repo: Repo, nodeOf: Rev -> Node, order: seq<Rev>, i: nat, p: Rev)
    requires WellFormed(repo) && Injective(nodeOf) && StrictlyIncreasing(order)
    requires i < |order| && 0 <= order[i]
    requires p == repo.p1(order[i]) || p == repo.p2(order[i])
    ensures IsTouched(nodeOf, order, nodeOf(p)) <==> exists k :: 0 <= k < i && nodeOf(order[k]) == nodeOf(p)
  {
    if IsTouched(nodeOf, order, nodeOf(p)) {
      var x :| x in order && nodeOf(x) == nodeOf(p);
      var k :| 0 <= k < |order| && order[k] == x;
      assert order[k] == p && p < order[i];
      assert forall j :: i <= j < |order| ==> order[i] <= order[j];
    }
    if exists k :: 0 <= k < i && nodeOf(order[k]) == nodeOf(p) {
      var k :| 0 <= k < i && nodeOf(order[k]) == nodeOf(p);
      assert order[k] in order;
    }
  }

  /** `n` is the node of one of the first `i` revisions of `order`. */
  predicate TouchedBefore(nodeOf: Rev -> Node, order: seq<Rev>, i: nat, n: Node)
    requires i <= |order|
  {
    i > 0 && (nodeOf(order[i - 1]) == n || TouchedBefore(nodeOf, order, i - 1, n))
  }

  lemma {:induction false} TouchedBeforeIff(nodeOf: Rev -> Node, order: seq<Rev>, i: nat, n: Node)
    requires i <= |order|
    ensures TouchedBefore(nodeOf, order, i, n) <==> exists k :: 0 <= k < i && nodeOf(order[k]) == n
  {
    if i > 0 {
      TouchedBeforeIff(nodeOf, order, i - 1, n);
    }
  }

  /** The parent node `touch` uses when recreating the `i`-th changeset of
      `order`: the new version of the parent when the parent was touched
      earlier in the loop, the parent itself otherwise. */
  function RemapEarlier(nodeOf: Rev -> Node, order: seq<Rev>, i: nat, rewritten: Node -> Node, n: Node): Node
    requires i <= |order|
  {
    if TouchedBefore(nodeOf, order, i, n) then rewritten(n) else n
  }

  /** Touching in ascending order is what makes the loop right: a touched
      parent is always touched before its child, so each changeset is
      recreated on the new version of every touched parent. */
  lemma TouchedParentsRemapped(repo: Repo, nodeOf: Rev -> Node, revs: seq<Rev>, rewritten: Node -> Node,
                               i: nat, p: Rev)
    requires WellFormed(repo) && Injective(nodeOf)
    requires forall x :: x in revs ==> 0 <= x
    requires i < |SortedRevs(revs)|
    requires p == repo.p1(SortedRevs(revs)[i]) || p == repo.p2(SortedRevs(revs)[i])
    ensures RemapEarlier(nodeOf, SortedRevs(revs), i, rewritten, nodeOf(p))
            == Remap(nodeOf, revs, rewritten, nodeOf(p))
  {
    var order := SortedRevs(revs);
    assert order[i] in revs;
    ParentTouchedEarlier(repo, nodeOf, order, i, p);
    TouchedBeforeIff(nodeOf, order, i, nodeOf(p));
    assert IsTouched(nodeOf, order, nodeOf(p)) <==> IsTouched(nodeOf, revs, nodeOf(p));
  }

  /** What the loop of `touch` holds after handling some revisions. */
  datatype Progress = Progress(
    newmapping: map<Node, Node>,   // old node -> new node of every changeset touched so far
    parents: seq<(Node, Node)>,
    relations: seq<Relation>,
    retracts: seq<(Phase, Node)>,
    wdParent: Option<Node>,
    marks: Bookmarks)

  /** `newmapping.get(n, n)`. */
  function Lookup(m: map<Node, Node>, n: Node): Node {
    if n in m then m[n] else n
  }

  /** One turn of the loop of `touch`: recreate `ctx` on its parents as looked
      up in `newmapping`, then record the new node. The working directory
      parents are read again on every turn: once they were set to a new
      changeset (with a null second parent) no later revision is among them,
      since the new changesets are not among the revisions touched. The
      `rewrite` of the turn moves the active bookmark and the bookmarks of
      `ctx` to the new node. */
  function TouchOne(repo: Repo, nodeOf: Rev -> Node, duplicate: bool, rewritten: Node -> Node,
                    wparents: seq<Rev>, active: Option<string>, st: Progress, ctx: Rev): Progress
  {
    var newnode := rewritten(nodeOf(ctx));
    Progress(st.newmapping[nodeOf(ctx) := newnode],
             st.parents + [(Lookup(st.newmapping, nodeOf(repo.p1(ctx))), Lookup(st.newmapping, nodeOf(repo.p2(ctx))))],
             if duplicate then st.relations else st.relations + [Relation(nodeOf(ctx), [newnode], 0)],
             st.retracts + [(repo.phase(ctx), newnode)],
             if st.wdParent.None? && ctx in wparents then Some(newnode) else st.wdParent,
             Rewrite.UpdateBookmarks(st.marks, active, nodeOf(ctx), newnode).0)
  }

  // The loop after its first `i` turns, one field at a time.

  function MappingAfter(nodeOf: Rev -> Node, rewritten: Node -> Node, order: seq<Rev>, i: nat): map<Node, Node>
    requires i <= |order|
  {
    if i == 0 then map[]
    else MappingAfter(nodeOf, rewritten, order, i - 1)[nodeOf(order[i - 1]) := rewritten(nodeOf(order[i - 1]))]
  }

  function ParentsAfter(repo: Repo, nodeOf: Rev -> Node, rewritten: Node -> Node, order: seq<Rev>, i: nat)
    : (ps: seq<(Node, Node)>)
    requires i <= |order|
    ensures |ps| == i
  {
    if i == 0 then []
    else
      var m := MappingAfter(nodeOf, rewritten, order, i - 1);
      ParentsAfter(repo, nodeOf, rewritten, order, i - 1)
        + [(Lookup(m, nodeOf(repo.p1(order[i - 1]))), Lookup(m, nodeOf(repo.p2(order[i - 1]))))]
  }

  function RelationsAfter(nodeOf: Rev -> Node, duplicate: bool, rewritten: Node -> Node, order: seq<Rev>, i: nat)
    : seq<Relation>
    requires i <= |order|
  {
    if i == 0 then []
    else if duplicate then RelationsAfter(nodeOf, duplicate, rewritten, order, i - 1)
    else RelationsAfter(nodeOf, duplicate, rewritten, order, i - 1)
           + [Relation(nodeOf(order[i - 1]), [rewritten(nodeOf(order[i - 1]))], 0)]
  }

  function RetractsAfter(repo: Repo, nodeOf: Rev -> Node, rewritten: Node -> Node, order: seq<Rev>, i: nat)
    : (rs: seq<(Phase, Node)>)
    requires i <= |order|
    ensures |rs| == i
  {
    if i == 0 then []
    else RetractsAfter(repo, nodeOf, rewritten, order, i - 1) + [(repo.phase(order[i - 1]), rewritten(nodeOf(order[i - 1])))]
  }

  function WorkingDirAfter(nodeOf: Rev -> Node, rewritten: Node -> Node, wparents: seq<Rev>, order: seq<Rev>, i: nat)
    : Option<Node>
    requires i <= |order|
  {
    if i == 0 then None
    else
      var prev := WorkingDirAfter(nodeOf, rewritten, wparents, order, i - 1);
      if prev.None? && order[i - 1] in wparents then Some(rewritten(nodeOf(order[i - 1]))) else prev
  }

  function MarksAfter(nodeOf: Rev -> Node, rewritten: Node -> Node, active: Option<string>, marks: Bookmarks,
                      order: seq<Rev>, i: nat): Bookmarks
    requires i <= |order|
  {
    if i == 0 then marks
    else
      var n := nodeOf(order[i - 1]);
      Rewrite.UpdateBookmarks(MarksAfter(nodeOf, rewritten, active, marks, order, i - 1), active, n, rewritten(n)).0
  }

  /** The loop of `touch` after its first `i` turns. */
  function TouchLoop(repo: Repo, nodeOf: Rev -> Node, duplicate: bool, rewritten: Node -> Node,
                     wparents: seq<Rev>, active: Option<string>, marks: Bookmarks, order: seq<Rev>, i: nat): Progress
    requires i <= |order|
  {
    Progress(MappingAfter(nodeOf, rewritten, order, i),
             ParentsAfter(repo, nodeOf, rewritten, order, i),
             RelationsAfter(nodeOf, duplicate, rewritten, order, i),
             RetractsAfter(repo, nodeOf, rewritten, order, i),
             WorkingDirAfter(nodeOf, rewritten, wparents, order, i),
             MarksAfter(nodeOf, rewritten, active, marks, order, i))
  }

  /** A turn of the loop takes it from `i` turns to `i + 1`. */
  lemma LoopStep(repo: Repo, nodeOf: Rev -> Node, duplicate: bool, rewritten: Node -> Node,
                 wparents: seq<Rev>, active: Option<string>, marks: Bookmarks, order: seq<Rev>, i: nat)
    requires i < |order|
    ensures TouchOne(repo, nodeOf, duplicate, rewritten, wparents, active,
                     TouchLoop(repo, nodeOf, duplicate, rewritten, wparents, active, marks, order, i), order[i])
            == TouchLoop(repo, nodeOf, duplicate, rewritten, wparents, active, marks, order, i + 1)
  {
  }

  /** `newmapping` maps exactly the nodes touched so far, each to its new version. */
  lemma {:induction false} LoopMapping(nodeOf: Rev -> Node, rewritten: Node -> Node, order: seq<Rev>, i: nat)
    requires i <= |order|
    ensures var m := MappingAfter(nodeOf, rewritten, order, i);
            forall n :: (n in m <==> TouchedBefore(nodeOf, order, i, n))
                        && (n in m ==> m[n] == rewritten(n))
  {
    if i > 0 {
      LoopMapping(nodeOf, rewritten, order, i - 1);
    }
  }

  /** Each changeset is recreated on the new versions of its parents touched
      before it. */
  lemma {:induction false} LoopParents(repo: Repo, nodeOf: Rev -> Node, rewritten: Node -> Node, order: seq<Rev>, i: nat)
    requires i <= |order|
    ensures var ps := ParentsAfter(repo, nodeOf, rewritten, order, i);
            && |ps| == i
            && (forall k :: 0 <= k < i ==>
                  ps[k] == (RemapEarlier(nodeOf, order, k, rewritten, nodeOf(repo.p1(order[k]))),
                            RemapEarlier(nodeOf, order, k, rewritten, nodeOf(repo.p2(order[k])))))
  {
    if i > 0 {
      LoopParents(repo, nodeOf, rewritten, order, i - 1);
      LoopMapping(nodeOf, rewritten, order, i - 1);
      var m := MappingAfter(nodeOf, rewritten, order, i - 1);
      var ctx := order[i - 1];
      var prev := ParentsAfter(repo, nodeOf, rewritten, order, i - 1);
      var ps := ParentsAfter(repo, nodeOf, rewritten, order, i);
      assert ps == prev + [(Lookup(m, nodeOf(repo.p1(ctx))), Lookup(m, nodeOf(repo.p2(ctx))))];
      assert forall k :: 0 <= k < i - 1 ==> ps[k] == prev[k];
      assert Lookup(m, nodeOf(repo.p1(ctx))) == RemapEarlier(nodeOf, order, i - 1, rewritten, nodeOf(repo.p1(ctx)));
      assert Lookup(m, nodeOf(repo.p2(ctx))) == RemapEarlier(nodeOf, order, i - 1, rewritten, nodeOf(repo.p2(ctx)));
    }
  }

  /** Each new changeset keeps the phase of the changeset it replaces. */
  lemma {:induction false} LoopRetracts(repo: Repo, nodeOf: Rev -> Node, rewritten: Node -> Node, order: seq<Rev>, i: nat)
    requires i <= |order|
    ensures var rs := RetractsAfter(repo, nodeOf, rewritten, order, i);
            && |rs| == i
            && (forall k :: 0 <= k < i ==> rs[k] == (repo.phase(order[k]), rewritten(nodeOf(order[k]))))
  {
    if i > 0 {
      LoopRetracts(repo, nodeOf, rewritten, order, i - 1);
    }
  }

  /** Without --duplicate each old changeset gets one marker to its new version. */
  lemma {:induction false} LoopRelations(nodeOf: Rev -> Node, duplicate: bool, rewritten: Node -> Node,
                                         order: seq<Rev>, i: nat)
    requires i <= |order|
    ensures var rel := RelationsAfter(nodeOf, duplicate, rewritten, order, i);
            && (duplicate ==> rel == [])
            && (!duplicate ==> |rel| == i && forall k :: 0 <= k < i ==>
                  rel[k] == Relation(nodeOf(order[k]), [rewritten(nodeOf(order[k]))], 0))
  {
    if i > 0 {
      LoopRelations(nodeOf, duplicate, rewritten, order, i - 1);
    }
  }

  /** The working directory moves iff one of its parents was touched. */
  lemma {:induction false} LoopWorkingDirMoves(nodeOf: Rev -> Node, rewritten: Node -> Node, wparents: seq<Rev>,
                                               order: seq<Rev>, i: nat)
    requires i <= |order|
    ensures WorkingDirAfter(nodeOf, rewritten, wparents, order, i).Some? <==> exists k :: 0 <= k < i && order[k] in wparents
  {
    if i > 0 {
      LoopWorkingDirMoves(nodeOf, rewritten, wparents, order, i - 1);
      assert (exists k :: 0 <= k < i && order[k] in wparents) <==>
             order[i - 1] in wparents || exists k :: 0 <= k < i - 1 && order[k] in wparents;
    }
  }

  /** It moves to the new version of the first of its parents touched. */
  lemma {:induction false} LoopWorkingDirFirst(nodeOf: Rev -> Node, rewritten: Node -> Node, wparents: seq<Rev>,
                                               order: seq<Rev>, i: nat)
    requires i <= |order|
    ensures var wd := WorkingDirAfter(nodeOf, rewritten, wparents, order, i);
            wd.Some? ==> exists k :: 0 <= k < i && order[k] in wparents && wd.value == rewritten(nodeOf(order[k]))
                                     && forall j :: 0 <= j < k ==> order[j] !in wparents
  {
    if i > 0 {
      LoopWorkingDirFirst(nodeOf, rewritten, wparents, order, i - 1);
      var prev := WorkingDirAfter(nodeOf, rewritten, wparents, order, i - 1);
      if prev.None? {
        LoopWorkingDirMoves(nodeOf, rewritten, wparents, order, i - 1);
        assert forall j :: 0 <= j < i - 1 ==> order[j] !in wparents;
      }
    }
  }

  /** No touched changeset's new version is the node of a touched
      revision (each `rewrite` of `touch` creates a fresh changeset, its
      extra carrying random noise). */
  predicate FreshVersions(nodeOf: Rev -> Node, rewritten: Node -> Node, revs: seq<Rev>) {
    forall x, y :: x in revs && y in revs ==> rewritten(nodeOf(x)) != nodeOf(y)
  }

  /** After `i` turns, the bookmark names are the old ones plus the active
      one, and the active bookmark is on the latest new changeset. */
  lemma {:induction false} LoopMarkNames(nodeOf: Rev -> Node, rewritten: Node -> Node, active: Option<string>,
                                         marks: Bookmarks, order: seq<Rev>, i: nat)
    requires i <= |order|
    ensures var m := MarksAfter(nodeOf, rewritten, active, marks, order, i);
            && (forall b :: b in m <==> b in marks || (i > 0 && active == Some(b)))
            && (i > 0 && active.Some? ==> active.value in m && m[active.value] == rewritten(nodeOf(order[i - 1])))
  {
    if i > 0 {
      LoopMarkNames(nodeOf, rewritten, active, marks, order, i - 1);
    }
  }

  /** After `i` turns, with fresh new versions, every bookmark but the
      active one is on the new version of its changeset when that was
      touched, where it was otherwise. */
  lemma {:induction false} LoopMarkMoves(nodeOf: Rev -> Node, rewritten: Node -> Node, active: Option<string>,
                                         marks: Bookmarks, order: seq<Rev>, i: nat)
    requires i <= |order| && FreshVersions(nodeOf, rewritten, order)
    ensures var m := MarksAfter(nodeOf, rewritten, active, marks, order, i);
            forall b :: b in marks && active != Some(b) ==>
              b in m && m[b] == RemapEarlier(nodeOf, order, i, rewritten, marks[b])
  {
    if i > 0 {
      LoopMarkMoves(nodeOf, rewritten, active, marks, order, i - 1);
      forall b | b in marks && active != Some(b) {
        FreshNotTouched(nodeOf, rewritten, order, i - 1, marks[b]);
      }
    }
  }

  /** A new version of a changeset touched before turn `i` is not the node
      turn `i` touches. */
  lemma FreshNotTouched(nodeOf: Rev -> Node, rewritten: Node -> Node, order: seq<Rev>, i: nat, n: Node)
    requires FreshVersions(nodeOf, rewritten, order) && i < |order|
    ensures TouchedBefore(nodeOf, order, i, n) ==> rewritten(n) != nodeOf(order[i])
  {
    if TouchedBefore(nodeOf, order, i, n) {
      TouchedBeforeIff(nodeOf, order, i, n);
      var k :| 0 <= k < i && nodeOf(order[k]) == n;
      var x, y := order[k], order[i];
      assert x in order && y in order;
      assert rewritten(nodeOf(x)) != nodeOf(y);
    }
  }

  /** The touched changesets are the revisions in ascending order, each
      recreated on its parents as remapped by the changesets touched before
      it, in its own phase. */
  predicate ParentsSpec(repo: Repo, nodeOf: Rev -> Node, rewritten: Node -> Node, revs: seq<Rev>, t: Touched) {
    && t.order == SortedRevs(revs)
    && |t.parents| == |t.order| && |t.retracts| == |t.order|
    && (forall i :: 0 <= i < |t.order| ==>
          t.parents[i] == (RemapEarlier(nodeOf, t.order, i, rewritten, nodeOf(repo.p1(t.order[i]))),
                           RemapEarlier(nodeOf, t.order, i, rewritten, nodeOf(repo.p2(t.order[i])))))
    && (forall i :: 0 <= i < |t.order| ==>
          t.retracts[i] == (repo.phase(t.order[i]), rewritten(nodeOf(t.order[i]))))
  }

  /** Without --duplicate each touched changeset gets one marker to its new
      version, in the order they are touched; with it, none. */
  predicate RelationsSpec(nodeOf: Rev -> Node, duplicate: bool, rewritten: Node -> Node, t: Touched) {
    && (duplicate ==> t.relations == [])
    && (!duplicate ==>
          && |t.relations| == |t.order|
          && forall i :: 0 <= i < |t.order| ==>
               t.relations[i] == Relation(nodeOf(t.order[i]), [rewritten(nodeOf(t.order[i]))], 0))
  }

  /** The working directory moves iff one of its parents is touched, and then
      to the new version of the lowest touched parent. */
  predicate WorkingDirSpec(nodeOf: Rev -> Node, rewritten: Node -> Node, wparents: seq<Rev>, revs: seq<Rev>,
                           t: Touched) {
    && (t.wdParent.Some? <==> exists x :: x in revs && x in wparents)
    && (t.wdParent.Some? ==>
          exists x :: && x in revs && x in wparents && t.wdParent.value == rewritten(nodeOf(x))
                      && forall y :: y in revs && y in wparents ==> x <= y)
  }

  /** The bookmarks after `touch`: no name appears but the active one; the
      active bookmark ends on the new version of the highest touched
      revision; and, as long as every new version is fresh, every other
      bookmark of a touched changeset is on its new version and the rest
      stay where they were. */
  ghost predicate BookmarksSpec(nodeOf: Rev -> Node, rewritten: Node -> Node, active: Option<string>, marks: Bookmarks,
                          revs: seq<Rev>, t: Touched) {
    && (forall b :: b in t.marks <==> b in marks || (revs != [] && active == Some(b)))
    && (revs != [] && active.Some? ==>
          && active.value in t.marks
          && exists x :: && x in revs && (forall y :: y in revs ==> y <= x)
                         && t.marks[active.value] == rewritten(nodeOf(x)))
    && (FreshVersions(nodeOf, rewritten, revs) ==>
          forall b :: b in marks && active != Some(b) ==>
            b in t.marks && t.marks[b] == Remap(nodeOf, revs, rewritten, marks[b]))
  }

  /** The state of the loop of `touch` once every revision is handled. */
  function Final(st: Progress, order: seq<Rev>): Touched {
    Touched(order, st.parents, st.relations, st.retracts, st.wdParent, st.marks)
  }

  /** What the whole loop of `touch` produces, over the sorted revisions. */
  lemma LoopOutcome(repo: Repo, nodeOf: Rev -> Node, duplicate: bool, rewritten: Node -> Node,
                    wparents: seq<Rev>, active: Option<string>, marks: Bookmarks, revs: seq<Rev>, t: Touched)
    requires t == Final(TouchLoop(repo, nodeOf, duplicate, rewritten, wparents, active, marks,
                                  SortedRevs(revs), |SortedRevs(revs)|),
                        SortedRevs(revs))
    ensures && ParentsSpec(repo, nodeOf, rewritten, revs, t)
            && RelationsSpec(nodeOf, duplicate, rewritten, t)
            && WorkingDirSpec(nodeOf, rewritten, wparents, revs, t)
            && BookmarksSpec(nodeOf, rewritten, active, marks, revs, t)
  {
    var order := SortedRevs(revs);
    LoopParents(repo, nodeOf, rewritten, order, |order|);
    LoopRetracts(repo, nodeOf, rewritten, order, |order|);
    LoopRelations(nodeOf, duplicate, rewritten, order, |order|);
    WorkingDirOfRevs(nodeOf, rewritten, wparents, revs);
    MarksOfRevs(nodeOf, rewritten, active, marks, revs);
  }

  /** Over the sorted revisions, the bookmarks end as `BookmarksSpec` says. */
  lemma MarksOfRevs(nodeOf: Rev -> Node, rewritten: Node -> Node, active: Option<string>, marks: Bookmarks,
                    revs: seq<Rev>)
    ensures var order := SortedRevs(revs);
            var m := MarksAfter(nodeOf, rewritten, active, marks, order, |order|);
            && (forall b :: b in m <==> b in marks || (revs != [] && active == Some(b)))
            && (revs != [] && active.Some? ==>
                  && active.value in m
                  && exists x :: && x in revs && (forall y :: y in revs ==> y <= x)
                                 && m[active.value] == rewritten(nodeOf(x)))
            && (FreshVersions(nodeOf, rewritten, revs) ==>
                  forall b :: b in marks && active != Some(b) ==>
                    b in m && m[b] == Remap(nodeOf, revs, rewritten, marks[b]))
  {
    var order := SortedRevs(revs);
    LoopMarkNames(nodeOf, rewritten, active, marks, order, |order|);
    SortedLastIsHighest(revs, order);
    if FreshVersions(nodeOf, rewritten, revs) {
      FreshMarks(nodeOf, rewritten, active, marks, revs);
    }
  }

  /** With fresh new versions, after the loop every bookmark but the active
      one is on `Remap` of its old node. */
  lemma FreshMarks(nodeOf: Rev -> Node, rewritten: Node -> Node, active: Option<string>, marks: Bookmarks,
                   revs: seq<Rev>)
    requires FreshVersions(nodeOf, rewritten, revs)
    ensures var order := SortedRevs(revs);
            var m := MarksAfter(nodeOf, rewritten, active, marks, order, |order|);
            forall b :: b in marks && active != Some(b) ==>
              b in m && m[b] == Remap(nodeOf, revs, rewritten, marks[b])
  {
    var order := SortedRevs(revs);
    assert FreshVersions(nodeOf, rewritten, order);
    LoopMarkMoves(nodeOf, rewritten, active, marks, order, |order|);
    forall b | b in marks && active != Some(b)
      ensures RemapEarlier(nodeOf, order, |order|, rewritten, marks[b]) == Remap(nodeOf, revs, rewritten, marks[b])
    {
      TouchedBeforeIff(nodeOf, order, |order|, marks[b]);
      assert IsTouched(nodeOf, order, marks[b]) <==> IsTouched(nodeOf, revs, marks[b]);
    }
  }

  /** Over the sorted revisions, the working directory moves iff one of its
      parents is among the revisions, and then to the new version of the
      lowest such parent. */
  lemma WorkingDirOfRevs(nodeOf: Rev -> Node, rewritten: Node -> Node, wparents: seq<Rev>, revs: seq<Rev>)
    ensures var wd := WorkingDirAfter(nodeOf, rewritten, wparents, SortedRevs(revs), |SortedRevs(revs)|);
            && (wd.Some? <==> exists x :: x in revs && x in wparents)
            && (wd.Some? ==>
                  exists x :: && x in revs && x in wparents && wd.value == rewritten(nodeOf(x))
                              && forall y :: y in revs && y in wparents ==> x <= y)
  {
    var order := SortedRevs(revs);
    LoopWorkingDirMoves(nodeOf, rewritten, wparents, order, |order|);
    LoopWorkingDirFirst(nodeOf, rewritten, wparents, order, |order|);
    var wd := WorkingDirAfter(nodeOf, rewritten, wparents, order, |order|);
    if wd.Some? {
      var k :| 0 <= k < |order| && order[k] in wparents && wd.value == rewritten(nodeOf(order[k]))
               && forall j :: 0 <= j < k ==> order[j] !in wparents;
      assert order[k] in revs;
      forall y | y in revs && y in wparents ensures order[k] <= y {
        var j :| 0 <= j < |order| && order[j] == y;
        FirstIsLowest(order, wparents, k, j);
      }
    }
    assert (exists x :: x in revs && x in wparents) ==> wd.Some? by {
      if x :| x in revs && x in wparents {
        var k :| 0 <= k < |order| && order[k] == x;
      }
    }
  }

  /** In an ascending list, the first member of `s` is its lowest member. */
  lemma FirstIsLowest(order: seq<Rev>, s: seq<Rev>, k: nat, j: nat)
    requires StrictlyIncreasing(order) && k < |order| && j < |order| && order[j] in s
    requires forall i :: 0 <= i < k ==> order[i] !in s
    ensures order[k] <= order[j]
  {
  }

  /** The loop of `touch` over the sorted revisions. */
  method TouchAll(repo: Repo, nodeOf: Rev -> Node, duplicate: bool, rewritten: Node -> Node,
                  wparents: seq<Rev>, active: Option<string>, marks: Bookmarks, revs: seq<Rev>) returns (t: Touched)
    ensures ParentsSpec(repo, nodeOf, rewritten, revs, t)
    ensures RelationsSpec(nodeOf, duplicate, rewritten, t)
    ensures WorkingDirSpec(nodeOf, rewritten, wparents, revs, t)
    ensures BookmarksSpec(nodeOf, rewritten, active, marks, revs, t)
  {
    var order := SortedRevs(revs);
    var st := Progress(map[], [], [], [], None, marks);
    for i := 0 to |order|
      invariant st == TouchLoop(repo, nodeOf, duplicate, rewritten, wparents, active, marks, order, i)
    {
      LoopStep(repo, nodeOf, duplicate, rewritten, wparents, active, marks, order, i);
      st := TouchOne(repo, nodeOf, duplicate, rewritten, wparents, active, st, order[i]);
    }
    t := Final(st, order);
    LoopOutcome(repo, nodeOf, duplicate, rewritten, wparents, active, marks, revs, t);
  }

  /** `touch`: the touched revisions in ascending order, each recreated on
      the new versions of its touched parents. Public revisions are refused
      unless --duplicate; an empty revision set touches nothing (exit 1). A
      merge among the revisions makes `rewrite` abort in the loop, and the
      transaction takes back the turns before it, so the abort is the whole
      outcome. `marks` and `active` are the bookmarks and the active
      bookmark before the command. */
  method TouchRevs(repo: Repo, nodeOf: Rev -> Node, revs: seq<Rev>, duplicate: bool,
                   rewritten: Node -> Node, wparents: seq<Rev>, active: Option<string>, marks: Bookmarks)
    returns (r: Result<TouchOutcome>)
    ensures r == Ok(NothingToTouch) <==> revs == []
    ensures r == Err(TouchPublic) <==>
              revs != [] && !duplicate && exists x :: x in revs && repo.phase(x) == Public
    ensures r == Err(CannotAmendMerge) <==>
              && revs != [] && !(!duplicate && exists x :: x in revs && repo.phase(x) == Public)
              && exists x :: x in revs && repo.p2(x) != NullRev
    ensures r.Err? ==> r.error == TouchPublic || r.error == CannotAmendMerge
    ensures r.Ok? && r.value.TouchDone? <==>
              && revs != [] && !(!duplicate && exists x :: x in revs && repo.phase(x) == Public)
              && forall x :: x in revs ==> repo.p2(x) == NullRev
    ensures r.Ok? && r.value.TouchDone? ==> ParentsSpec(repo, nodeOf, rewritten, revs, r.value.touched)
    ensures r.Ok? && r.value.TouchDone? ==> RelationsSpec(nodeOf, duplicate, rewritten, r.value.touched)
    ensures r.Ok? && r.value.TouchDone? ==> WorkingDirSpec(nodeOf, rewritten, wparents, revs, r.value.touched)
    ensures r.Ok? && r.value.TouchDone? ==> BookmarksSpec(nodeOf, rewritten, active, marks, revs, r.value.touched)
  {
    if revs == [] {
      r := Ok(NothingToTouch);
    } else if !duplicate && exists x :: x in revs && repo.phase(x) == Public {
      r := Err(TouchPublic);
    } else if exists x :: x in revs && repo.p2(x) != NullRev {
      r := Err(CannotAmendMerge);
    } else {
      var t := TouchAll(repo, nodeOf, duplicate, rewritten, wparents, active, marks, revs);
      r := Ok(TouchDone(t));
    }
  }
}

=== FILE: types.dfy ===
/** Shared vocabulary of the evolve model: changeset identifiers, phases,
    obsolescence markers, the abort conditions the commands raise, and the
    foreign repository queries the extension relies on. */
module Types {

  /** A changeset identifier as stored in obsolescence markers (a 20-byte
      hash in Mercurial, abstracted as a number). */
  type Node = nat

  /** The all-zero identifier of the null changeset. */
  const NullId: Node := 0

  /** A changelog revision number; the null revision is -1. */
  type Rev = int

  const NullRev: Rev := -1

  /** Marker flags: one byte in the on-disk marker format. */
  type Flags = bv8

  /** Flag of markers created when a bumped changeset is fixed. */
  const BumpedFix: Flags := 1

  /** An obsolescence marker: the precursor is replaced by the successors
      (none means pruned). */
  datatype Marker = Marker(
    prec: Node,
    succs: seq<Node>,
    flags: Flags,
    metadata: map<string, string>)

  /** A relation handed to `createmarkers`: the store turns it into a marker
      (adding the date and user metadata, which this model leaves out). */
  datatype Relation = Relation(prec: Node, succs: seq<Node>, flags: Flags)

  /** Mutability tiers; public changesets are immutable. */
  datatype Phase = Public | Draft | Secret {
    function Level(): nat {
      match this
      case Public => 0
      case Draft => 1
      case Secret => 2
    }
    predicate Mutable() { this != Public }
  }

  datatype Option<+T> = None | Some(value: T)

  /** Bookmark store: name -> node. */
  type Bookmarks = map<string, Node>

  /** `repo.nodebookmarks(n)`: the names of the bookmarks on `n`. */
  function NodeBookmarks(marks: Bookmarks, n: Node): (r: set<string>)
    ensures forall b :: b in r <==> b in marks && marks[b] == n
  {
    set b | b in marks && marks[b] == n
  }

  /** The aborts raised by the modelled commands, one per distinct message
      (and the crashes of the source, named after what goes wrong). */
  datatype Error =
    | CannotAmendMerge                  // rewrite: 'cannot amend merge changesets'
    | MessageAndLogfile                 // rewrite: --message and --logfile exclusive
    | RelocateOnItself                  // relocate: 'tried to relocade a node on top of itself'
    | RelocateMerge                     // relocate: 'no support for evolution merge changesets yet'
    | MergeFailure                      // unresolved merge conflicts
    | NoObsoleteParent                  // _solveunstable: neither parent obsolete (IndexError/assert)
    | CannotChooseDestination           // _solveunstable: several successors sets
    | SplitParents                      // _solveunstable: 'does not handle split parents yet'
    | BumpedIsMerge                     // _solvebumped: bumped is a merge
    | NoPublicPrecursor                 // _solvebumped: no public precursor (StopIteration)
    | PrecursorIsMerge                  // _solvebumped: precursor is a merge
    | DivergentWithSplit                // _solvedivergent: several other successors
    | DivergentPublic                   // _solvedivergent: divergent side is public
    | DivergentOtherIsMerge             // _solvedivergent: other side is a merge
    | DivergentParentsNotCommon         // _solvedivergent: parents are not common
    | DivergentMergeConflict            // _solvedivergent: unresolved files after merge
    | BaseOfDivergentNotFound           // divergentdata
    | NothingToPrune                    // prune: no revision
    | PruneImmutable(rev: Rev)          // prune: first immutable revision in ascending order
    | MultipleSuccessorsForMultiple     // prune: several successors and several precursors
    | BijectSizeMismatch(nsuccs: nat, nprecs: nat)
    | NothingToUncommit                 // uncommit
    | TouchPublic                       // touch: "can't touch public revision"
    | FoldBothRevAndTarget              // fold: --rev together with a target
    | FoldMultipleRoots
    | FoldPublic
    | FoldMultipleHeads
    | ContinueWithAny                   // evolve: --any together with --continue
    | ContinueWithAll                   // evolve: --all together with --continue
    | UncommittedChanges                // evolve: cmdutil.bailifchanged (uncommitted changes or merge)
    | MergeInProgress                   // next / previous
    | UncommitNull                      // uncommit: 'cannot uncommit null changeset'
    | UncommitWhileMerging              // uncommit: 'cannot uncommit while merging'
    | UncommitImmutable                 // uncommit: 'cannot rewrite immutable changeset'
    | UncommitMergeChangeset            // uncommit: 'cannot uncommit merge changeset'

  datatype Result<+T> = Ok(value: T) | Err(error: Error) {
    predicate IsFailure() { Err? }

    function PropagateFailure<U>(): Result<U>
      requires Err?
    {
      Err(error)
    }

    function Extract(): T
      requires Ok?
    {
      value
    }
  }

  /** The repository queries the extension delegates to Mercurial, as total
      functions on revisions. `size` is the number of revisions (they are
      numbered 0 to size - 1); `p2` is NullRev for a non-merge changeset and
      `p1` of a root is NullRev. */
  datatype Repo = Repo(
    size: nat,
    p1: Rev -> Rev,
    p2: Rev -> Rev,
    children: Rev -> seq<Rev>,
    phase: Rev -> Phase,
    obsolete: Rev -> bool,
    extinct: Rev -> bool,
    unstable: Rev -> bool,
    bumped: Rev -> bool,
    divergent: Rev -> bool,
    successorsSets: Rev -> seq<seq<Rev>>)
  {
    /** `ctx.parents()`: the first parent alone unless the second is real. */
    function Parents(r: Rev): (ps: seq<Rev>)
      ensures 1 <= |ps| <= 2 && ps[0] == p1(r)
      ensures |ps| == 2 <==> p2(r) != NullRev
    {
      if p2(r) == NullRev then [p1(r)] else [p1(r), p2(r)]
    }

    /** The revset `parents(r)`: real parents only, the null revision dropped. */
    function ParentSet(r: Rev): (ps: set<Rev>)
      ensures forall p :: p in ps <==> p != NullRev && (p == p1(r) || p == p2(r))
    {
      (set p | p in Parents(r)) - {NullRev}
    }

    /** `troubled()`: unstable, bumped or divergent. */
    predicate Troubled(r: Rev) {
      unstable(r) || bumped(r) || divergent(r)
    }
  }

  /** Facts of every Mercurial repository the extension relies on: the
      changelog is topologically numbered (real parents have smaller revision
      numbers, the null revision is its own parent), and the null changeset
      is public and never obsolete, so its only successors set is itself. */
  ghost predicate WellFormed(repo: Repo) {
    && (forall r: Rev {:trigger repo.p1(r)} :: 0 <= r ==> NullRev <= repo.p1(r) < r)
    && (forall r: Rev {:trigger repo.p2(r)} :: 0 <= r ==> NullRev <= repo.p2(r) < r)
    && repo.p1(NullRev) == NullRev
    && repo.p2(NullRev) == NullRev
    && repo.successorsSets(NullRev) == [[NullRev]]
    && repo.phase(NullRev) == Public
    && !repo.obsolete(NullRev)
  }

  /** `a` is `x` or reached from `x` by following first parents. */
  ghost predicate P1Ancestor(repo: Repo, x: Rev, a: Rev)
    requires WellFormed(repo)
    decreases x + 1
  {
    x == a || (0 <= x && P1Ancestor(repo, repo.p1(x), a))
  }

  lemma {:induction false} P1AncestorBelow(repo: Repo, x: Rev, a: Rev)
    requires WellFormed(repo) && P1Ancestor(repo, x, a)
    decreases x + 1
    ensures a <= x
  {
    if x != a {
      P1AncestorBelow(repo, repo.p1(x), a);
    }
  }

  /** Distinct revisions have distinct node identifiers. */
  ghost predicate Injective(nodeOf: Rev -> Node) {
    forall a, b :: nodeOf(a) == nodeOf(b) ==> a == b
  }

  // -----------------------------------------------------------------------
  // Ordered revision sets (`sorted(set(...))` and revset iteration order)
  // -----------------------------------------------------------------------

  predicate StrictlyIncreasing(xs: seq<Rev>) {
    forall i, j :: 0 <= i < j < |xs| ==> xs[i] < xs[j]
  }

  predicate Distinct(xs: seq<Rev>) {
    forall i, j :: 0 <= i < j < |xs| ==> xs[i] != xs[j]
  }

  /** The members of `xs` that satisfy `p`, in the order of `xs`. */
  function Select(xs: seq<Rev>, p: Rev -> bool): (r: seq<Rev>)
    ensures forall x :: x in r <==> x in xs && p(x)
    ensures |r| <= |xs|
  {
    if xs == [] then []
    else (if p(xs[0]) then [xs[0]] else []) + Select(xs[1..], p)
  }

  /** Insertion into an ascending sequence without repetitions. */
  function Insert(x: Rev, s: seq<Rev>): (r: seq<Rev>)
    requires StrictlyIncreasing(s)
    ensures StrictlyIncreasing(r)
    ensures forall y :: y in r <==> y == x || y in s
    ensures |r| == if x in s then |s| else |s| + 1
  {
    if s == [] then [x]
    else if x < s[0] then [x] + s
    else if x == s[0] then s
    else
      var t := Insert(x, s[1..]);
      assert forall k :: 0 <= k < |t| ==> s[0] < t[k] by {
        forall k | 0 <= k < |t| ensures s[0] < t[k] {
          assert t[k] in t;
        }
      }
      [s[0]] + t
  }

  /** `sorted(set(xs))`: the revisions of `xs` in ascending order, each once. */
  function SortedRevs(xs: seq<Rev>): (r: seq<Rev>)
    ensures StrictlyIncreasing(r) && Distinct(r)
    ensures forall y :: y in r <==> y in xs
    ensures |r| <= |xs|
    ensures Distinct(xs) ==> |r| == |xs|
  {
    if xs == [] then []
    else
      var init := xs[..|xs| - 1];
      assert forall y :: y in xs <==> y in init || y == xs[|xs| - 1];
      Insert(xs[|xs| - 1], SortedRevs(init))
  }

  /** An ascending list with the members of `revs` is empty iff `revs` is,
      and its last member is the highest revision. */
  lemma SortedLastIsHighest(revs: seq<Rev>, order: seq<Rev>)
    requires StrictlyIncreasing(order)
    requires forall y :: y in order <==> y in revs
    ensures revs != [] <==> order != []
    ensures order != [] ==> order[|order| - 1] in revs && forall y :: y in revs ==> y <= order[|order| - 1]
  {
    if revs != [] {
      var y := revs[0];
      assert y in revs;
      assert y in order;
    }
    if order != [] {
      var last := order[|order| - 1];
      assert last in order;
      assert last in revs;
      forall y | y in revs ensures y <= last {
        AscendingLast(order, y);
      }
    }
  }

  /** In an ascending list, every member is at most the last one. */
  lemma AscendingLast(order: seq<Rev>, y: Rev)
    requires StrictlyIncreasing(order) && y in order
    ensures y <= order[|order| - 1]
  {
    var j :| 0 <= j < |order| && order[j] == y;
    if j < |order| - 1 {
      assert order[j] < order[|order| - 1];
    }
  }
}

=== FILE: uncommit.dfy ===
/** `hg uncommit`: recommit the working directory parent without the
    changes to the selected files, and fix the dirstate so that those
    changes reappear as uncommitted. */
module Uncommit {
  import opened Types
  import Rewrite

  type Path = Rewrite.Path

  /** `repo.status(base, ctx)[:3]`: modified, added and removed files. */
  datatype Status = Status(modified: set<Path>, added: set<Path>, removed: set<Path>) {
    function All(): set<Path> { modified + added + removed }

    predicate Disjoint() {
      modified !! added && modified !! removed && added !! removed
    }

    /** The same status restricted to the files `matcher` selects. */
    function Matching(matcher: Path -> bool): (s: Status)
      ensures forall f :: f in s.modified <==> f in modified && matcher(f)
      ensures forall f :: f in s.added <==> f in added && matcher(f)
      ensures forall f :: f in s.removed <==> f in removed && matcher(f)
    {
      Status(set f | f in modified && matcher(f),
             set f | f in added && matcher(f),
             set f | f in removed && matcher(f))
    }
  }

  // -----------------------------------------------------------------------
  // _commitfiltered
  // -----------------------------------------------------------------------

  /** What the recommitted changeset keeps: its files and their copy
      sources (`copied` is `pathcopies(base, ctx)`, destination to source). */
  datatype Filtered = Filtered(files: set<Path>, copies: map<Path, Path>)

  /** The copy filter of `_commitfiltered` as written: it iterates the
      destination-to-source pairs under swapped names, so it keeps a copy
      record when its SOURCE is among the recommitted files. */
  function KeptCopiesAsWritten(copied: map<Path, Path>, files: set<Path>): (r: map<Path, Path>)
    ensures forall d :: d in r <==> d in copied && copied[d] in files
    ensures forall d :: d in r ==> r[d] == copied[d]
  {
    map d | d in copied && copied[d] in files :: copied[d]
  }

  /** A changeset that copies `a` to `b` without touching `a`, uncommitting
      some other file: `b` is recommitted but loses its copy source. */
  lemma CopyOfKeptFileDropped()
    ensures var copied := map["b" := "a"];
            && "b" !in KeptCopiesAsWritten(copied, {"b"})
            && KeptCopies(copied, {"b"}) == copied
  {
    var copied := map["b" := "a"];
    assert "a" !in {"b"};
    assert KeptCopies(copied, {"b"}).Keys == {"b"};
  }

  /** The intended copy filter: every recommitted file keeps the copy source
      it had in the original changeset, and no other file gets one. */
  function KeptCopies(copied: map<Path, Path>, files: set<Path>): (r: map<Path, Path>)
    ensures forall d :: d in r <==> d in copied && d in files
    ensures forall d :: d in r ==> r[d] == copied[d]
  {
    map d | d in copied && d in files :: copied[d]
  }

  /** `_commitfiltered`: recommit the changed files that `matcher` does not
      select. Nothing happens (None) when no changed file is selected. */
  function CommitFiltered(st: Status, copied: map<Path, Path>, matcher: Path -> bool): (r: Option<Filtered>)
    ensures r.None? <==> forall f :: f in st.All() ==> !matcher(f)
    ensures r.Some? ==> forall f :: f in r.value.files <==> f in st.All() && !matcher(f)
    ensures r.Some? ==> r.value.files < st.All()
    ensures r.Some? ==> forall d :: d in r.value.copies <==> d in r.value.files && d in copied
    ensures r.Some? ==> forall d :: d in r.value.copies ==> r.value.copies[d] == copied[d]
  {
    var all := st.All();
    var files := set f | f in all && !matcher(f);
    if files == all then
      assert forall f :: f in all ==> !matcher(f);
      None
    else
      Some(Filtered(files, KeptCopies(copied, files)))
  }

  // -----------------------------------------------------------------------
  // uncommit: checks and the new changeset
  // -----------------------------------------------------------------------

  datatype UncommitOutcome = UncommitOutcome(
    filtered: Filtered,         // content of the new changeset
    relation: Relation,         // old -> new
    retract: (Phase, Node),     // phase boundary retracted for the new changeset
    marks: Bookmarks)           // bookmarks after the move

  /** `uncommit` up to the dirstate fix. `wparents` are the working
      directory parents, `selected` says whether patterns or
      --include/--exclude/--all were given, `st` is the status of the old
      changeset against its first parent and `newid` the recommitted
      changeset. */
  function Uncommit(repo: Repo, nodeOf: Rev -> Node, wparents: seq<Rev>, selected: bool, st: Status,
                    copied: map<Path, Path>, matcher: Path -> bool, newid: Node,
                    marks: Bookmarks, active: Option<string>): (r: Result<UncommitOutcome>)
    ensures r == Err(UncommitNull) <==> wparents == []
    ensures r == Err(UncommitWhileMerging) <==> |wparents| > 1
    ensures r == Err(UncommitImmutable) <==> |wparents| == 1 && repo.phase(wparents[0]) == Public
    ensures r == Err(UncommitMergeChangeset) <==>
              |wparents| == 1 && repo.phase(wparents[0]) != Public && repo.p2(wparents[0]) != NullRev
    ensures r == Err(NothingToUncommit) <==>
              && |wparents| == 1 && repo.phase(wparents[0]) != Public && repo.p2(wparents[0]) == NullRev
              && (!selected || forall f :: f in st.All() ==> !matcher(f))
    ensures r.Err? ==> r.error in {UncommitNull, UncommitWhileMerging, UncommitImmutable,
                                   UncommitMergeChangeset, NothingToUncommit}
    ensures r.Ok? ==>
              && Some(r.value.filtered) == CommitFiltered(st, copied, matcher)
              && r.value.relation == Relation(nodeOf(wparents[0]), [newid], 0)
              && r.value.retract == (repo.phase(wparents[0]), newid)
              && r.value.marks == Rewrite.UpdateBookmarks(marks, active, nodeOf(wparents[0]), newid).0
  {
    if |wparents| == 0 then Err(UncommitNull)
    else if |wparents| > 1 then Err(UncommitWhileMerging)
    else
      var prior := wparents[0];
      if repo.phase(prior) == Public then Err(UncommitImmutable)
      else if repo.p2(prior) != NullRev then Err(UncommitMergeChangeset)
      else
        var filtered := if selected then CommitFiltered(st, copied, matcher) else None;
        if filtered.None? then Err(NothingToUncommit)
        else
          Ok(UncommitOutcome(
            filtered.value,
            Relation(nodeOf(prior), [newid], 0),
            (repo.phase(prior), newid),
            Rewrite.UpdateBookmarks(marks, active, nodeOf(prior), newid).0))
  }

  // -----------------------------------------------------------------------
  // _uncommitdirstate
  // -----------------------------------------------------------------------

  /** Dirstate entries: normal, added, removed. A file without an entry is
      untracked ('?'). */
  datatype Entry = Normal | Added | Removed

  type Dirstate = map<Path, Entry>

  /** A file the uncommitted changeset modified becomes normal (to be
      looked up), unless the working directory removed it. */
  function FixModified(ds: Dirstate, m: set<Path>): (r: Dirstate)
    ensures r.Keys == ds.Keys + m
    ensures forall f :: f in r ==> r[f] == if f in m && !(f in ds && ds[f] == Removed) then Normal else ds[f]
  {
    map f | f in ds.Keys + m :: if f in m && !(f in ds && ds[f] == Removed) then Normal else ds[f]
  }

  /** A file the uncommitted changeset added becomes added, or untracked
      when the working directory removed it again. */
  function FixAdded(ds: Dirstate, a: set<Path>): (r: Dirstate)
    ensures forall f :: f in r <==> (f in ds || f in a) && !(f in a && f in ds && ds[f] == Removed)
    ensures forall f :: f in r ==> r[f] == if f in a then Added else ds[f]
  {
    map f | f in ds.Keys + a && !(f in a && f in ds && ds[f] == Removed) :: if f in a then Added else ds[f]
  }

  /** A file the uncommitted changeset removed becomes removed, or normal
      when the working directory added it back. */
  function FixRemoved(ds: Dirstate, rm: set<Path>): (r: Dirstate)
    ensures r.Keys == ds.Keys + rm
    ensures forall f :: f in r ==>
              (r[f] == if f !in rm then ds[f]
                       else if f in ds && ds[f] == Added then Normal
                       else Removed)
  {
    map f | f in ds.Keys + rm ::
      if f !in rm then ds[f]
      else if f in ds && ds[f] == Added then Normal
      else Removed
  }

  /** The entry fix of `_uncommitdirstate` (`st` already restricted to the
      uncommitted files). For a proper status (the three groups disjoint)
      the working directory afterwards shows, for each uncommitted file, the
      change the changeset made combined with what the working directory had
      done to the file since; other files keep their entry. */
  function FixEntries(ds: Dirstate, st: Status): (r: Dirstate)
    ensures st.Disjoint() ==> forall f :: f in st.modified ==>
              f in r && r[f] == if f in ds && ds[f] == Removed then Removed else Normal
    ensures st.Disjoint() ==> forall f :: f in st.added ==>
              if f in ds && ds[f] == Removed then f !in r
              else f in r && r[f] == Added
    ensures st.Disjoint() ==> forall f :: f in st.removed ==>
              f in r && r[f] == if f in ds && ds[f] == Added then Normal else Removed
    ensures forall f :: f !in st.All() ==> (f in r <==> f in ds) && (f in ds ==> r[f] == ds[f])
  {
    FixRemoved(FixAdded(FixModified(ds, st.modified), st.added), st.removed)
  }

  /** The old copies of `_uncommitdirstate`: the copy sources of the
      uncommitted modified and added files (`renamed`, from the old
      changeset), overridden by the copies recorded in the working
      directory. */
  function OldCopies(renamed: map<Path, Path>, st: Status, dsCopies: map<Path, Path>): (r: map<Path, Path>)
    ensures forall d :: d in r <==> d in dsCopies || (d in renamed && d in st.modified + st.added)
    ensures forall d :: d in r ==> r[d] == if d in dsCopies then dsCopies[d] else renamed[d]
  {
    var fromCtx := map d | d in renamed && d in st.modified + st.added :: renamed[d];
    fromCtx + dsCopies
  }

  /** One step of copy-chain collapse: a copy whose source was itself
      copied points at the older source. */
  function Collapse(oldcopies: map<Path, Path>): (r: map<Path, Path>)
    ensures r.Keys == oldcopies.Keys
    ensures forall d :: d in r && oldcopies[d] in oldcopies ==> r[d] == oldcopies[oldcopies[d]]
    ensures forall d :: d in r && oldcopies[d] !in oldcopies ==> r[d] == oldcopies[d]
  {
    map d | d in oldcopies :: if oldcopies[d] in oldcopies then oldcopies[oldcopies[d]] else oldcopies[d]
  }

  /** The copy records kept in the dirstate: only those whose source exists
      in the new parent, whose destination does not, and whose destination
      is added. */
  function AdjustCopies(copies: map<Path, Path>, parentFiles: set<Path>, ds: Dirstate): (r: map<Path, Path>)
    ensures forall d :: d in r <==>
              d in copies && copies[d] in parentFiles && d !in parentFiles && d in ds && ds[d] == Added
    ensures forall d :: d in r ==> r[d] == copies[d]
  {
    map d | d in copies && copies[d] in parentFiles && d !in parentFiles && d in ds && ds[d] == Added :: copies[d]
  }

  /** `_uncommitdirstate`: the fixed entries and copy records. `st` is the
      status of the old changeset against its parent, `renamed` the copy
      sources recorded in the old changeset, `parentFiles` the files of the
      new working directory parent. */
  function UncommitDirstate(ds: Dirstate, dsCopies: map<Path, Path>, st: Status, matcher: Path -> bool,
                            renamed: map<Path, Path>, parentFiles: set<Path>)
    : (r: (Dirstate, map<Path, Path>))
    ensures r.0 == FixEntries(ds, st.Matching(matcher))
    ensures forall d :: d in r.1 ==> r.1[d] in parentFiles && d !in parentFiles && d in r.0 && r.0[d] == Added
  {
    var sel := st.Matching(matcher);
    var entries := FixEntries(ds, sel);
    var copies := Collapse(OldCopies(renamed, sel, dsCopies));
    (entries, AdjustCopies(copies, parentFiles, entries))
  }

  /** A file copied in the working directory from a file that the
      uncommitted changeset had itself copied is recorded as a copy of the
      original source. */
  lemma CopyChainCollapses(ds: Dirstate, dsCopies: map<Path, Path>, st: Status, matcher: Path -> bool,
                           renamed: map<Path, Path>, parentFiles: set<Path>, a: Path, b: Path, c: Path)
    requires c in dsCopies && dsCopies[c] == b
    requires b !in dsCopies && b in renamed && renamed[b] == a
    requires b in st.added && matcher(b)
    requires a in parentFiles && c !in parentFiles
    requires c in FixEntries(ds, st.Matching(matcher)) && FixEntries(ds, st.Matching(matcher))[c] == Added
    ensures var r := UncommitDirstate(ds, dsCopies, st, matcher, renamed, parentFiles);
            c in r.1 && r.1[c] == a
  {
    var sel := st.Matching(matcher);
    var prior := OldCopies(renamed, sel, dsCopies);
    assert b in sel.added;
    assert prior[c] == b && b in prior && prior[b] == a;
  }
}
